=== FILE: README.md ===
# Lighthouse dashboard — a Dafny model of its component logic

Lighthouse is a React front end for running Lighthouse performance audits and their "experiments". Each experiment is a variant of the baseline audit, such as no JavaScript, no third-party scripts or no render-blocking resources. All of its data is mocked. There is no audit engine, scheduler or persistence behind it. What it does contain is the deterministic logic inside its components' event handlers and derived values. This project models that logic in Dafny. Each handler is a pure function from the old state to the new one, and each derived value is a pure function of the component's props and state. Lemmas then relate these functions to one another.

The model covers five pages and two shared widgets:

- **Batch URL testing** (`batch_jobs`, `url_input`, `validation_view`, `queue_table`, `progress_summary`, `batch_config`):
  - parsing pasted text and CSV into a URL list;
  - validation with a scheme-plus-dot pattern and first-occurrence duplicate detection;
  - creating one pending job per URL;
  - retry and cancel by id;
  - status counts;
  - the queue table's filter, sort, actions, badges and durations;
  - the rounded overall progress;
  - the experiment checkboxes and settings fields.
- **Dashboard** (`dashboard`, `url_panel`, `activity_feed`): URL normalisation and the start guards, the six experiments of a run, the queue transitions, and relative timestamps.
- **Results analysis** (`results_analysis`, `metrics_table`, `comparison`, `filter_sidebar`):
  - type and score-band filtering and sorting;
  - the metrics table's sort state machine and baseline changes;
  - the comparison modal;
  - the filter sidebar.
- **Configuration** (`configuration`, `custom_params`, `config_actions`): the validity predicate, template overlay and reset, parameter validation and custom flags, and the save/reset dialogs.
- **Historical trends** (`history_table`, `web_vitals`, `trend_chart`, `frequency`, `summary_cards`, `trend_filters`, `date_range`):
  - the searchable, sortable, paginated table with its five-button page window;
  - Core Web Vitals classification;
  - trend direction;
  - frequency totals;
  - the summary cards;
  - filter updates;
  - the date-range selector.
- **Shared UI** (`breadcrumb`, `toasts`): breadcrumb generation from the path, and the toast list.

`common` holds the shared vocabulary:

- `Option`;
- `Number`, a parsed JavaScript number: a finite integer or NaN;
- JavaScript `trim` over the ECMAScript whitespace set;
- `split`/`join` with their round trips;
- the order-preserving `filter` and its algebra;
- membership toggles;
- decimal rendering.

`sorting` holds an insertion sort driven by a comparator. It proves that the result is a permutation of the input, that the result is sorted whenever the comparator comes from a key, and that the sort is stable: elements the comparator does not order keep their input order.

Modelling conventions:

- Scores and milliseconds are integers. CLS and the CPU multiplier are in thousandths.
- `Math.round(x)` for `x >= 0` is `floor(x + 1/2)`, written as integer division.
- JavaScript `%` truncates toward zero and is written out where operands can be negative.
- Nondeterministic inputs are parameters: `Date.now()`-based ids, the current time and `Math.random`.
- Foreign parsers are parameters or already-parsed inputs: `new URL`, `JSON.parse`, `Date` and `FileReader`.
- A timer's effect is an explicit step taken once the timer has fired.

## Model

| member | source | states |
|---|---|---|
| BatchJobs.AfterScheme | src/pages/batch-url-testing/index.jsx:148 | the `https?://` prefix is present exactly when the string starts with `http://` or `https://`, and what remains is the string's suffix after it |
| BatchJobs.ValidateUrls | src/pages/batch-url-testing/index.jsx:147-157 | one result per URL in input order carrying the URL; duplicate iff the same string occurs at a smaller index; valid iff the pattern matches and it is not a duplicate; error is the format error whenever the pattern fails, else the duplicate error for a duplicate, else none |
| BatchJobs.ValidUrlsDistinct | src/pages/batch-url-testing/index.jsx:147-157 | no two valid results carry the same URL |
| BatchJobs.WellFormedUrlValidOnce | src/pages/batch-url-testing/index.jsx:148-153 | a well-formed URL of the list is valid at its first occurrence and at no other |
| BatchJobs.HandleValidateUrls | src/pages/batch-url-testing/index.jsx:136-159 | an empty URL list leaves the page unchanged; otherwise the validation becomes exactly `ValidateUrls` of the URLs, one result per URL, and no other field of the page changes |
| BatchJobs.ValidateToastKind | src/pages/batch-url-testing/index.jsx:137-168 | warning iff there are no URLs; success iff some URL matches the pattern at its first occurrence; error otherwise |
| BatchJobs.HandleUrlsChange | src/pages/batch-url-testing/index.jsx:131-134 | the new list replaces the URLs and clears the validation results; jobs and selection are kept |
| BatchJobs.HandleClearValidation | src/pages/batch-url-testing/index.jsx:190-192 | clears the validation results and keeps URLs and jobs |
| BatchJobs.HandleRemoveUrl | src/pages/batch-url-testing/index.jsx:171-179 | the URL leaves the list and the results; every other URL and result stays, as many times as it occurred, nothing new appears; absent results stay absent; jobs are kept |
| BatchJobs.RemoveUrlKeepsOrder | src/pages/batch-url-testing/index.jsx:172 | the handler's URL list is computed entry by entry: it distributes over concatenation and keeps a single entry exactly when it is another URL, so the result is the list with the removed URL gone and the rest in order |
| BatchJobs.RemoveResultKeepsOrder | src/pages/batch-url-testing/index.jsx:173-178 | the same for the validation results: entry by entry, the removed URL's results gone and the rest in order |
| BatchJobs.StartBatchWarning | src/pages/batch-url-testing/index.jsx:194-211 | no warning iff there are URLs and selected experiments; no URLs is reported first |
| BatchJobs.HandleStartBatch | src/pages/batch-url-testing/index.jsx:194-213 | with a warning the page is unchanged; otherwise only the processing flag is set |
| BatchJobs.NewJobIdsDistinct | src/pages/batch-url-testing/index.jsx:218 | ids made at the same instant for different indexes differ |
| BatchJobs.CreateJobs | src/pages/batch-url-testing/index.jsx:217-225 | one job per URL in order, pending with progress 0, null timestamps and the selected experiments, all ids distinct |
| BatchJobs.CompleteBatchStart | src/pages/batch-url-testing/index.jsx:216-228 | the new jobs follow the existing ones, which are kept as a prefix, and processing ends |
| BatchJobs.StartBatchAppendsJobs | src/pages/batch-url-testing/index.jsx:194-227 | a click that passes the guards, then its timer, appends exactly one pending job per URL after the existing jobs; a guarded click adds none |
| BatchJobs.RetryJob | src/pages/batch-url-testing/index.jsx:246-253 | every job with the id becomes pending, progress 0, no error, whatever its status, and keeps every other field; every other job is unchanged |
| BatchJobs.CancelJob | src/pages/batch-url-testing/index.jsx:262-269 | every job with the id becomes cancelled, progress 0, and keeps every other field, its error included; every other job is unchanged |
| BatchJobs.RetryCancelIdempotent | src/pages/batch-url-testing/index.jsx:246-269 | retry and cancel are idempotent, and an unknown id changes nothing |
| BatchJobs.NoStatusGuard | src/pages/batch-url-testing/index.jsx:246-269 | a completed job can be retried and a failed job cancelled |
| BatchJobs.StatusCounts | src/pages/batch-url-testing/index.jsx:102-109 | total is the list length and no count exceeds it |
| BatchJobs.CountsSumToTotal | src/pages/batch-url-testing/index.jsx:102-109 | when every status is one of the five, the five counts sum to the total |
| BatchJobs.RetryCancelKeepTotal | src/pages/batch-url-testing/index.jsx:246-269 | retry and cancel keep the total |
| UrlInput.KeepTrimmed | src/pages/batch-url-testing/components/URLInputSection.jsx:17 | no more entries than lines, each non-empty, trimmed and on one line |
| UrlInput.KeepTrimmedConcat | src/pages/batch-url-testing/components/URLInputSection.jsx:17 | the URLs of two blocks of lines are the first block's URLs followed by the second's, so the list follows line order |
| UrlInput.KeepTrimmedSingle | src/pages/batch-url-testing/components/URLInputSection.jsx:17 | one line gives its trimmed text if that is not empty, and nothing otherwise |
| UrlInput.ParseUrlText | src/pages/batch-url-testing/components/URLInputSection.jsx:17 | every parsed URL is non-empty, has no surrounding whitespace and no newline |
| UrlInput.ParseUrlLines | src/pages/batch-url-testing/components/URLInputSection.jsx:17 | a text written as lines joined by newlines parses to exactly those lines' URLs; with the two lemmas above, the trimmed non-blank lines in order |
| UrlInput.KeepTrimmedLines | src/pages/batch-url-testing/components/URLInputSection.jsx:17 | there are as many URLs as non-blank lines, and a non-blank first line gives the first URL, trimmed |
| UrlInput.ParseJoinRoundTrip | src/pages/batch-url-testing/components/URLInputSection.jsx:17-38 | clean URLs joined by newlines parse back to themselves |
| UrlInput.ParseIdempotent | src/pages/batch-url-testing/components/URLInputSection.jsx:17 | parsing is a normal form: reparsing the joined result gives the same list |
| UrlInput.TextareaChange | src/pages/batch-url-testing/components/URLInputSection.jsx:12-20 | the text is kept as typed, the upload error stays, and the parsed clean list is forwarded |
| UrlInput.FirstCell | src/pages/batch-url-testing/components/URLInputSection.jsx:36 | the cell is the trimmed line up to, not including, its first comma (all of it when there is none), so it holds no comma and only characters of the line |
| UrlInput.CsvUrls | src/pages/batch-url-testing/components/URLInputSection.jsx:34-36 | every URL is non-empty with no comma and no newline |
| UrlInput.KeepFirstCellsConcat | src/pages/batch-url-testing/components/URLInputSection.jsx:36 | the cells of two blocks of lines are the first block's cells followed by the second's, so the list follows line order |
| UrlInput.KeepFirstCellsSingle | src/pages/batch-url-testing/components/URLInputSection.jsx:36 | one line gives its first cell if that is not empty, and nothing otherwise |
| UrlInput.CsvLines | src/pages/batch-url-testing/components/URLInputSection.jsx:34-36 | a file written as lines joined by newlines gives exactly those lines' first cells; with the two lemmas above, the non-empty first cells in line order |
| UrlInput.SingleColumnCsvIsText | src/pages/batch-url-testing/components/URLInputSection.jsx:17-36 | a CSV without commas yields exactly what the same text typed into the box yields |
| UrlInput.UploadFile | src/pages/batch-url-testing/components/URLInputSection.jsx:22-46 | no file changes nothing; a non-CSV file sets 'Please upload a CSV file' and keeps the list; a failed read changes nothing, since the reader's error event has no handler; otherwise the first-column URLs are forwarded, the text is them joined by newlines and the error is cleared |
| UrlInput.UploadThenTextAgree | src/pages/batch-url-testing/components/URLInputSection.jsx:36-39 | after a single-column upload the box's text parses back to the forwarded list |
| UrlInput.ClearUrls | src/pages/batch-url-testing/components/URLInputSection.jsx:74-78 | text, URLs and upload error all become empty |
| ValidationView.GroupsOf | src/pages/batch-url-testing/components/URLValidationResults.jsx:15-17 | the valid and invalid lists partition the results (same multiset, lengths add up); each of the three lists holds every result of its kind exactly as often as the results do and nothing else, so every duplicate is listed |
| ValidationView.PanelGroups | src/pages/batch-url-testing/components/URLValidationResults.jsx:11-17 | nothing is rendered iff there are no results; otherwise the three groups, so the lists partition and are complete and sound as for GroupsOf |
| ValidationView.GroupsKeepOrder | src/pages/batch-url-testing/components/URLValidationResults.jsx:15-17 | each list is built result by result: the groups distribute over concatenation and a single result lands in exactly the lists its flags select, so every list keeps result order |
| ValidationView.DuplicatesAmongInvalid | src/pages/batch-url-testing/components/URLValidationResults.jsx:16-17 | for results of the validation pass every duplicate is also listed as invalid, so there are no more duplicates than invalid results |
| ValidationView.FilterImplies | src/pages/batch-url-testing/components/URLValidationResults.jsx:16-17 | a filter by a stronger predicate keeps a sub-collection of the filter by a weaker one |
| ValidationView.InvalidMessage | src/pages/batch-url-testing/components/URLValidationResults.jsx:77 | the result's error when it is a non-empty string; the format message when there is none or it is empty, since `''` is falsy |
| ValidationView.InvalidMessages | src/pages/batch-url-testing/components/URLValidationResults.jsx:77 | an invalid URL reads 'Duplicate URL' iff it matches the pattern and occurs earlier, and 'Invalid URL format' iff it fails the pattern |
| ValidationView.ValidPreview | src/pages/batch-url-testing/components/URLValidationResults.jsx:150-167 | a prefix of at most 10 valid URLs, an overflow count iff there are more than 10, and the shown plus the overflow equal all valid URLs |
| QueueTable.StatusNameInjective | src/pages/batch-url-testing/components/BatchQueueTable.jsx:84-87 | the spelling of the five known statuses identifies them |
| QueueTable.FilterJobs | src/pages/batch-url-testing/components/BatchQueueTable.jsx:84-87 | 'all' keeps every job; a status keeps exactly the jobs with that status, each as often as it occurs |
| QueueTable.FilterJobsKeepsOrder | src/pages/batch-url-testing/components/BatchQueueTable.jsx:84-87 | filtering works row by row: it distributes over concatenation and keeps a single job exactly when it has the status, so the rows stay in job order |
| QueueTable.FilterMatchesCount | src/pages/batch-url-testing/components/BatchQueueTable.jsx:84-87 | a status filter shows as many rows as that status's count in the page's stats |
| QueueTable.SortAfter | src/pages/batch-url-testing/components/BatchQueueTable.jsx:89-102 | the comparator puts a row after another exactly when its key is greater in ascending order, or smaller in descending order |
| QueueTable.VisibleJobs | src/pages/batch-url-testing/components/BatchQueueTable.jsx:84-102 | the shown rows are a permutation of the filtered rows |
| QueueTable.VisibleJobsOrdered | src/pages/batch-url-testing/components/BatchQueueTable.jsx:89-102 | sorting by URL or status orders the rows by that column in the chosen direction |
| QueueTable.CreatedAtKeepsOrder | src/pages/batch-url-testing/components/BatchQueueTable.jsx:89-102 | the created-at column compares invalid dates only, so the comparator answers -1 for every pair and the model's insertion sort keeps the filtered order (the engine's own order is not claimed) |
| QueueTable.HandleSort | src/pages/batch-url-testing/components/BatchQueueTable.jsx:104-111 | the clicked column becomes the sort column; the same column flips the direction, a new one starts ascending |
| QueueTable.SortTwiceRestores | src/pages/batch-url-testing/components/BatchQueueTable.jsx:104-111 | two clicks on the current column restore the sort state |
| QueueTable.StatusConfig | src/pages/batch-url-testing/components/BatchQueueTable.jsx:16-55 | an unknown status gets the Circle icon |
| QueueTable.StatusIconsDistinct | src/pages/batch-url-testing/components/BatchQueueTable.jsx:16-55 | different statuses, at most one unknown, get different icons |
| QueueTable.JsRem | src/pages/batch-url-testing/components/BatchQueueTable.jsx:63 | JavaScript's remainder: below the divisor in magnitude, equal to the Euclidean one for a non-negative dividend and never positive for a negative one |
| QueueTable.DurationPartsExact | src/pages/batch-url-testing/components/BatchQueueTable.jsx:61-63 | for a non-negative duration the parts are whole minutes and the remaining whole seconds, under 60 |
| QueueTable.FormatDuration | src/pages/batch-url-testing/components/BatchQueueTable.jsx:57-69 | '-' without a start timestamp, 'Running...' with a start and no end, 'NaNs' when a date does not parse |
| QueueTable.TimeField | src/pages/batch-url-testing/components/BatchQueueTable.jsx:58-59 | a field is absent exactly when it is missing or the empty string (both falsy); any other text is parsed |
| QueueTable.FormatJobDuration | src/pages/batch-url-testing/components/BatchQueueTable.jsx:57-69 | on raw fields: '-' when the start is missing or empty, 'Running...' when the start is set and the end missing or empty, the parsed duration otherwise |
| QueueTable.FormatDurationOfFinished | src/pages/batch-url-testing/components/BatchQueueTable.jsx:61-68 | a finished job shows 'Mm Ss' from one minute on and 'Ss' below it, with the seconds taken modulo 60 |
| QueueTable.NegativeDurationShown | src/pages/batch-url-testing/components/BatchQueueTable.jsx:61-68 | an end 30.5 s before the start shows '-31s' |
| QueueTable.BadgeLabels | src/pages/batch-url-testing/components/BatchQueueTable.jsx:71-81 | the six known ids get six distinct labels, none a known id; any other id is its own label |
| QueueTable.RowBadges | src/pages/batch-url-testing/components/BatchQueueTable.jsx:71-82 | the labels of the first min(n,3) experiments, and an overflow count iff n > 3, which with the shown badges makes n |
| QueueTable.ProgressOf | src/pages/batch-url-testing/components/BatchQueueTable.jsx:258-276 | a percentage iff running or completed: the job's progress while running, 100 when completed |
| QueueTable.RowAction | src/pages/batch-url-testing/components/BatchQueueTable.jsx:285-317 | View iff completed, Retry iff failed, Cancel iff running, so pending, cancelled and unknown rows get no action |
| QueueTable.ActionsLeaveTheirStatus | src/pages/batch-url-testing/components/BatchQueueTable.jsx:285-317 | after Retry or Cancel the row offers no action |
| ProgressSummary.OverallProgress | src/pages/batch-url-testing/components/BatchProgressSummary.jsx:5-8 | 0 for an empty batch; otherwise the exact share rounded half up (the page's double arithmetic can differ by one at a tie): the percentage p satisfies 2·total·p ≤ 200·completed + total < 2·total·(p+1), lies in 0..100 when completed ≤ total |
| ProgressSummary.ProgressNearest | src/pages/batch-url-testing/components/BatchProgressSummary.jsx:7 | the percentage is within half a step of the exact share 100·completed/total and no whole number is closer |
| ProgressSummary.ProgressMonotone | src/pages/batch-url-testing/components/BatchProgressSummary.jsx:7 | depends only on completed and total, and never decreases as completed grows |
| ProgressSummary.FullAtCompletion | src/pages/batch-url-testing/components/BatchProgressSummary.jsx:7 | a finished batch shows 100, and so does 999 of 1000 |
| ProgressSummary.StatusLooks | src/pages/batch-url-testing/components/BatchProgressSummary.jsx:10-38 | running, completed, failed and paused get distinct colours and icons; any other status gets the muted colour and the Clock icon, and only those do |
| BatchConfig.ToggleExperiment | src/pages/batch-url-testing/components/ConfigurationPanel.jsx:81-87 | checking appends the id even when present; unchecking removes every occurrence and keeps every other entry as many times as it occurred, nothing new appearing |
| BatchConfig.UncheckKeepsOrder | src/pages/batch-url-testing/components/ConfigurationPanel.jsx:85 | unchecking is computed id by id: it distributes over concatenation and keeps a single id exactly when it is another id, so the other ids stay in their order |
| BatchConfig.ClickExperiment | src/pages/batch-url-testing/components/ConfigurationPanel.jsx:81-87 | a click selects the id iff it was not selected |
| BatchConfig.ClickPreservesNoDuplicates | src/pages/batch-url-testing/components/ConfigurationPanel.jsx:81-87 | clicks keep a duplicate-free selection duplicate-free, and two clicks restore the set of ids |
| BatchConfig.CheckingTwiceDuplicates | src/pages/batch-url-testing/components/ConfigurationPanel.jsx:82-83 | checking an already selected id lists it twice |
| BatchConfig.SelectAll | src/pages/batch-url-testing/components/ConfigurationPanel.jsx:18-92 | every offered id, each once |
| BatchConfig.ClearAll | src/pages/batch-url-testing/components/ConfigurationPanel.jsx:94-96 | the selection becomes empty |
| BatchConfig.ApplyChange | src/pages/batch-url-testing/components/ConfigurationPanel.jsx:199-248 | timeout stores the parsed value or 30 when it is NaN or 0, max concurrent likewise with 3, with no clamping; other changes leave both numbers alone |
| BatchConfig.ChangeTouchesOneField | src/pages/batch-url-testing/components/ConfigurationPanel.jsx:171-248 | a change makes the record differ in at most its own field |
| BatchConfig.NumbersNeverZero | src/pages/batch-url-testing/components/ConfigurationPanel.jsx:203-214 | from non-zero numbers, any sequence of changes keeps timeout and concurrency non-zero |
| Dashboard.InitialExperiments | src/pages/dashboard-home/index.jsx:63-77 | six experiments, one per suite type in fixed order, all pending at 0 with no estimate |
| Dashboard.StartExperiment | src/pages/dashboard-home/index.jsx:54-90 | sets the URL, the running flag and header {running, 0}, resets the suite, and prepends a running 0% queue item while the earlier items keep their order |
| Dashboard.RemoveQueued | src/pages/dashboard-home/index.jsx:156-175 | no remaining item has the id, and every item with another id remains as often as it occurred |
| Dashboard.RemoveQueuedKeepsOrder | src/pages/dashboard-home/index.jsx:156-175 | removal works entry by entry: it distributes over concatenation and drops a single item exactly when it has the id, so the rest keep their order |
| Dashboard.FinishRun | src/pages/dashboard-home/index.jsx:146-156 | the run stops, the header shows {not running, 100}, the item leaves the queue, the experiments are kept |
| Dashboard.ResetAll | src/pages/dashboard-home/index.jsx:184-189 | every experiment keeps its id and becomes pending at 0 with no estimate |
| Dashboard.CancelExperiment | src/pages/dashboard-home/index.jsx:174-198 | the page state after a cancel: the item always leaves the queue; a running suite also shows stopped with header progress 0 and every experiment reset; otherwise nothing else changes (the progress interval keeps running, see `Dashboard.CancelLeavingInterval`) |
| Dashboard.ClearQueue | src/pages/dashboard-home/index.jsx:201-209 | the page state after a clear: queue and experiments become empty and the header shows not running at 0; pause flag and URL are kept (the progress interval keeps running, see `Dashboard.ClearLeavingIntervals`) |
| Dashboard.PauseQueue | src/pages/dashboard-home/index.jsx:220-221 | only the pause flag changes, and it flips |
| Dashboard.PauseToastTitle | src/pages/dashboard-home/index.jsx:223-225 | the toast names the state being left: resumed when it was paused, paused otherwise |
| Dashboard.PauseTwice | src/pages/dashboard-home/index.jsx:220-221 | pausing twice restores the state |
| Dashboard.StartThenFinish | src/pages/dashboard-home/index.jsx:82-156 | a run with a fresh id that finishes leaves the queue as it was before the start, with header progress 100 |
| Dashboard.StartThenCancel | src/pages/dashboard-home/index.jsx:174-190 | right after a start and a cancel of a run with a fresh id, the queue is as it was, the run shows stopped and all six experiments are reset (the interval can still complete it later, see `Dashboard.CancelledRunStillCompletes`) |
| Dashboard.CancelAbsentIdle | src/pages/dashboard-home/index.jsx:174-177 | cancelling an unknown id while idle changes nothing |
| Dashboard.StartSession | src/pages/dashboard-home/index.jsx:101-109 | a start also schedules the run's progress interval, and every interval already scheduled stays |
| Dashboard.CompleteTick | src/pages/dashboard-home/index.jsx:147-171 | a scheduled interval's completion branch finishes its run and unschedules itself; an unscheduled one changes nothing |
| Dashboard.CancelLeavingInterval | src/pages/dashboard-home/index.jsx:174-198 | the cancel as written: the page state of a cancel, with every interval still scheduled |
| Dashboard.ClearLeavingIntervals | src/pages/dashboard-home/index.jsx:201-217 | the clear as written: the page state of a clear, with every interval still scheduled |
| Dashboard.CancelledRunStillCompletes | src/pages/dashboard-home/index.jsx:105-198 | after a start and a cancel the header reads stopped at 0, yet the run's interval is still scheduled and its completion then sets the header to stopped at 100 |
| Dashboard.CancelStoppingInterval | src/pages/dashboard-home/index.jsx:174-198 | the cancel with its interval cleared: the same page state, the run's interval unscheduled, every other interval kept |
| Dashboard.ClearStoppingIntervals | src/pages/dashboard-home/index.jsx:201-217 | the clear with every interval cleared |
| Dashboard.CancelStopsRun | src/pages/dashboard-home/index.jsx:174-198 | with the interval cleared, a cancelled run can no longer complete and the header stays stopped at 0 |
| UrlPanel.Normalize | src/pages/dashboard-home/components/URLInputPanel.jsx:45 | the result starts with 'http'; input already starting so is kept, other input gets the https:// prefix |
| UrlPanel.NormalizeIdempotent | src/pages/dashboard-home/components/URLInputPanel.jsx:45 | normalising twice equals normalising once |
| UrlPanel.ValidateUrl | src/pages/dashboard-home/components/URLInputPanel.jsx:10-24 | 'URL is required' iff the input is blank; '' iff it is not blank and the normalised URL parses with protocol http: or https:; the invalid-URL message iff the parser throws |
| UrlPanel.ChangeUrl | src/pages/dashboard-home/components/URLInputPanel.jsx:26-36 | the text is stored; blank text clears the error without validating; the error stored is the one the text deserves |
| UrlPanel.StartClicked | src/pages/dashboard-home/components/URLInputPanel.jsx:38-47 | the callback fires iff validation returns '', with the normalised URL; otherwise the error is shown |
| UrlPanel.EnterPressed | src/pages/dashboard-home/components/URLInputPanel.jsx:49-53 | Enter does nothing unless there is no error, the text is not blank and nothing runs; otherwise it acts as the start button |
| UrlPanel.EnterStartsWhenEnabled | src/pages/dashboard-home/components/URLInputPanel.jsx:26-53 | in a panel reached by typing, an enabled Enter always starts, with a URL the parser reads as http or https |
| ActivityFeed.AgeOf | src/pages/dashboard-home/components/RecentActivityFeed.jsx:93-104 | the four buckets are exclusive and exhaustive by elapsed time, a future time is just now, and each number is the whole count of its unit, at least 1 (minutes < 60, hours < 24) |
| ActivityFeed.AgeMonotone | src/pages/dashboard-home/components/RecentActivityFeed.jsx:93-104 | an older activity never shows as more recent than a newer one |
| ActivityFeed.AgeTextInjective | src/pages/dashboard-home/components/RecentActivityFeed.jsx:100-103 | different ages give different texts |
| ActivityFeed.LeadingDigit | src/pages/dashboard-home/components/RecentActivityFeed.jsx:100-103 | every text except 'Just now' starts with a digit |
| ActivityFeed.MockActivities | src/pages/dashboard-home/components/RecentActivityFeed.jsx:6-44 | five built-in activities |
| ActivityFeed.MockAges | src/pages/dashboard-home/components/RecentActivityFeed.jsx:11-41 | the built-in activities read 5m, 15m, 30m, 1h and 2h ago |
| ActivityFeed.Displayed | src/pages/dashboard-home/components/RecentActivityFeed.jsx:46-128 | the supplied activities when non-empty, otherwise the built-in ones, at most the first eight |
| ActivityFeed.UnknownKinds | src/pages/dashboard-home/components/RecentActivityFeed.jsx:48-91 | exactly the types outside the four known ones read 'Unknown Activity' with the Activity icon; the known types have distinct titles and icons |
| Sorting.Sort | src/pages/experiment-results-analysis/index.jsx:278-293 | the sorted list is a permutation of its input (same length, same multiset) |
| Sorting.LessStrictTotalOrder | src/pages/batch-url-testing/components/BatchQueueTable.jsx:98-101 | the relational `<` on present keys of one kind is irreflexive, transitive and total, so the comparators are consistent |
| Sorting.SortOrdered | src/pages/experiment-results-analysis/index.jsx:289-292 | sorting by a key present on every element orders the list by it in the chosen direction |
| Sorting.SortNeverAfter | src/pages/batch-url-testing/components/BatchQueueTable.jsx:93-101 | when no element goes after another, sorting keeps the order |
| Sorting.SortStable | src/pages/experiment-results-analysis/index.jsx:278-293 | elements no two of which the comparator orders (equal keys) come out in their input order |
| ResultsAnalysis.MetricKey | src/pages/experiment-results-analysis/index.jsx:279-287 | missing iff the metric is absent; a number is itself; a string is its parsed value, 0 when unparseable |
| ResultsAnalysis.BandOf | src/pages/experiment-results-analysis/index.jsx:263-269 | excellent iff ≥ 90, good iff 50..89, poor iff < 50 |
| ResultsAnalysis.RangesPartitionScores | src/pages/experiment-results-analysis/index.jsx:260-273 | a numeric score passes exactly the range of its band, a missing score passes none, and any unrecognised range keeps everything |
| ResultsAnalysis.Score | src/pages/experiment-results-analysis/index.jsx:262-269 | the comparisons see no score exactly when it is missing or a string whose `parseFloat` is NaN; a number is seen as itself and a string as its `parseFloat` value, which is what `>=` compares for a string of digits |
| ResultsAnalysis.FilterStageMatches | src/pages/experiment-results-analysis/index.jsx:254-274 | the two filter stages keep exactly the experiments whose type is listed (or no type is) and whose score is in the range (or no range is set), in original order |
| ResultsAnalysis.Visible | src/pages/experiment-results-analysis/index.jsx:252-297 | the shown list is a permutation of the matching experiments, and without a sort key it is exactly them in order |
| ResultsAnalysis.VisibleOrdered | src/pages/experiment-results-analysis/index.jsx:277-293 | when every experiment has the sort metric the list is ordered by it, ascending for 'asc' and descending otherwise |
| ResultsAnalysis.SelectExperiment | src/pages/experiment-results-analysis/index.jsx:303-306 | the detail modal opens on the experiment and nothing else changes |
| ResultsAnalysis.CompareExperiment | src/pages/experiment-results-analysis/index.jsx:308-312 | the selection becomes the one experiment, the comparison opens and the detail modal closes |
| ResultsAnalysis.BulkAction | src/pages/experiment-results-analysis/index.jsx:343-359 | 'compare' takes the list and opens the comparison; every other action leaves the page unchanged; a confirmation message with the count appears iff the action is 'delete' |
| MetricsTable.SortedExperiments | src/pages/experiment-results-analysis/components/MetricsComparisonTable.jsx:9-28 | without a key the list itself; in every case a permutation of the experiments |
| MetricsTable.SortedByMetric | src/pages/experiment-results-analysis/components/MetricsComparisonTable.jsx:12-27 | with a key every experiment has, the rows are ordered by that metric in the chosen direction |
| MetricsTable.HandleSort | src/pages/experiment-results-analysis/components/MetricsComparisonTable.jsx:30-35 | the clicked key becomes the key; descending iff the same key was ascending |
| MetricsTable.SortClicksAlternate | src/pages/experiment-results-analysis/components/MetricsComparisonTable.jsx:30-35 | a fresh column starts ascending, a second click turns it descending, a third ascending again |
| MetricsTable.ToggleRow | src/pages/experiment-results-analysis/components/MetricsComparisonTable.jsx:37-47 | the id's membership flips and no other id changes |
| MetricsTable.ToggleRowTwice | src/pages/experiment-results-analysis/components/MetricsComparisonTable.jsx:37-47 | toggling twice restores the set |
| MetricsTable.MetricChange | src/pages/experiment-results-analysis/components/MetricsComparisonTable.jsx:55-63 | none iff the baseline is falsy (0 or NaN); otherwise an improvement iff (current − baseline)/baseline < 0 and a '+' iff it is > 0 |
| MetricsTable.HigherScoreShownWorse | src/pages/experiment-results-analysis/components/MetricsComparisonTable.jsx:55-63 | against a positive baseline a higher performance score is shown red with '+', a lower one green, an equal one red without '+' |
| MetricsTable.BaselineOf | src/pages/experiment-results-analysis/components/MetricsComparisonTable.jsx:65 | none iff no experiment is of type baseline; otherwise the first such experiment |
| MetricsTable.BaselineRowPlain | src/pages/experiment-results-analysis/components/MetricsComparisonTable.jsx:130 | without a baseline no row shows a change, and the baseline row never does |
| Comparison.InitialPair | src/pages/experiment-results-analysis/components/ComparisonModal.jsx:7-9 | the first two selected experiments when at least two are selected, otherwise the empty pair |
| Comparison.FindById | src/pages/experiment-results-analysis/components/ComparisonModal.jsx:18 | none iff no experiment has the id; otherwise the first experiment of the list with that id, as `find` returns it |
| Comparison.ChangeSlot | src/pages/experiment-results-analysis/components/ComparisonModal.jsx:16-23 | an unknown id changes nothing; a known id fills only the slot, extending the array with holes when the slot lies past its end |
| Comparison.SecondFirstOpensHalfEmpty | src/pages/experiment-results-analysis/components/ComparisonModal.jsx:16-60 | choosing the second experiment first makes a two-long array with a hole in front: the comparison opens with no first experiment, whose metrics read NaN |
| Comparison.ReadyAfterBothChosen | src/pages/experiment-results-analysis/components/ComparisonModal.jsx:16-60 | under the corrected condition the comparison opens only once both experiments are chosen, in either order, and compares the chosen ones |
| Comparison.SecondOptions | src/pages/experiment-results-analysis/components/ComparisonModal.jsx:85-88 | every experiment except the one in slot 0, or all of them while slot 0 is empty |
| Comparison.ParseMetric | src/pages/experiment-results-analysis/components/ComparisonModal.jsx:132-133 | NaN for an empty slot or a missing metric |
| Comparison.GetDifference | src/pages/experiment-results-analysis/components/ComparisonModal.jsx:37-48 | '+' iff both values are numbers and the first is larger; an improvement iff both are numbers and the first is smaller (lower-is-better) or larger (otherwise) |
| Comparison.DifferenceAntisymmetric | src/pages/experiment-results-analysis/components/ComparisonModal.jsx:37-48 | equal values are never an improvement, swapping two different values flips the verdict, and lower-is-better is higher-is-better on the swapped pair |
| Comparison.OnlyScoreHigherBetter | src/pages/experiment-results-analysis/components/ComparisonModal.jsx:51-58 | only the performance score is higher-is-better |
| Comparison.Summary | src/pages/experiment-results-analysis/components/ComparisonModal.jsx:171-200 | Key Improvements lists only improved metrics, Areas for Attention only the others |
| Comparison.SummaryPartitions | src/pages/experiment-results-analysis/components/ComparisonModal.jsx:171-200 | the two lists partition the six metrics: each metric is in exactly one, by its verdict |
| FilterSidebar.HandleFilterChange | src/pages/experiment-results-analysis/components/FilterSidebar.jsx:39-43 | exactly the changed key is replaced, the others are kept, and the page receives the same record the sidebar keeps |
| FilterSidebar.ToggleType | src/pages/experiment-results-analysis/components/FilterSidebar.jsx:45-51 | the type is selected afterwards iff it was not before, every other type keeps its membership, and no other key changes |
| FilterSidebar.ToggleCategory | src/pages/experiment-results-analysis/components/FilterSidebar.jsx:53-59 | the same as the type toggle, on the category list |
| FilterSidebar.ToggleTypeTwice | src/pages/experiment-results-analysis/components/FilterSidebar.jsx:45-51 | toggling twice restores membership, and removing a type drops every copy of it |
| FilterSidebar.ClearAll | src/pages/experiment-results-analysis/components/FilterSidebar.jsx:61-71 | the sidebar and the page both get the page's initial filters |
| FilterSidebar.ActiveCount | src/pages/experiment-results-analysis/components/FilterSidebar.jsx:73-79 | at most 3, and 0 iff no type, no category and no range is set |
| FilterSidebar.ClearDisablesClear | src/pages/experiment-results-analysis/components/FilterSidebar.jsx:61-179 | after clearing the Clear button is disabled; sort settings never count; while Clear is disabled every experiment passes the filters |
| FilterSidebar.CategoriesNeverFilter | src/pages/experiment-results-analysis/components/FilterSidebar.jsx:76 | selected categories count as active but never change the list the page shows |
| Configuration.DefaultsValid | src/pages/experiment-configuration/index.jsx:23-48 | the defaults (30, 60, 45000) are valid, each bound is needed (a value below 10, 30 or 1000 makes the configuration invalid), and NaN fails |
| Configuration.Overlay | src/pages/experiment-configuration/index.jsx:139-142 | every key the template sets takes the template's value and every other key keeps its value |
| Configuration.OverlayIdempotent | src/pages/experiment-configuration/index.jsx:139-142 | applying a template twice is applying it once, and a later template wins on a key both set |
| Configuration.TemplatesKeepValid | src/pages/experiment-configuration/index.jsx:50-115 | every built-in template sets a page timeout of at least 10, so with valid navigation and load-wait values the result is valid |
| Configuration.TogglePanel | src/pages/experiment-configuration/index.jsx:129-134 | exactly the named panel flag flips |
| Configuration.TogglePanelFlipsOne | src/pages/experiment-configuration/index.jsx:129-134 | the named panel flips, the others stay, and toggling twice restores the panels |
| Configuration.AfterEffect | src/pages/experiment-configuration/index.jsx:121-123 | replacing a settings record marks the page unsaved; otherwise nothing changes (the first render is `Configuration.Mount`) |
| Configuration.Mount | src/pages/experiment-configuration/index.jsx:14-123 | the effect also runs after the first render, so the page comes up unsaved while holding the valid defaults with the general panel open |
| Configuration.LoadLikeReset | src/pages/experiment-configuration/index.jsx:121-222 | the loaded page equals the page after a reset as written: defaults and an unsaved flag |
| Configuration.SelectTemplate | src/pages/experiment-configuration/index.jsx:136-148 | the template is selected and overlaid on the general settings, the custom parameters and panels stay, and the page is unsaved |
| Configuration.SaveOrApply | src/pages/experiment-configuration/index.jsx:166-186 | the unsaved flag is cleared and nothing else changes |
| Configuration.ResetAsWritten | src/pages/experiment-configuration/index.jsx:188-222 | both records become the defaults |
| Configuration.ResetLeavesUnsaved | src/pages/experiment-configuration/index.jsx:121-222 | after the reset and the effect it triggers the page reports unsaved changes while holding exactly the defaults |
| Configuration.ResetDefaults | src/pages/experiment-configuration/index.jsx:188-222 | both records are exactly the defaults, which are valid, nothing is unsaved, and panels and template stay |
| Configuration.ResetIdempotent | src/pages/experiment-configuration/index.jsx:188-222 | resetting twice is resetting once |
| CustomParameters.Validate | src/pages/experiment-configuration/components/CustomParametersPanel.jsx:36-48 | the load-wait error holds iff the value is truthy and below 1000; the CPU-multiplier error iff it is present, truthy and below 1x; the map is fresh, so no JSON error survives |
| CustomParameters.FalsyWaitUnreported | src/pages/experiment-configuration/components/CustomParametersPanel.jsx:39 | a load wait of 0 or NaN raises no panel error yet makes the configuration invalid |
| CustomParameters.HandleParameterChange | src/pages/experiment-configuration/components/CustomParametersPanel.jsx:25-34 | the record with the field replaced is forwarded and the errors are exactly its validation |
| CustomParameters.ChangeTouchesOneField | src/pages/experiment-configuration/components/CustomParametersPanel.jsx:26-29 | the forwarded record differs from the old one in at most the changed field |
| CustomParameters.ValidUpdateClearsErrors | src/pages/experiment-configuration/components/CustomParametersPanel.jsx:32-48 | a change that leaves a valid record clears every earlier error, the JSON error included |
| CustomParameters.HandleCustomFlagsChange | src/pages/experiment-configuration/components/CustomParametersPanel.jsx:50-64 | the box always takes the text; blank or parseable text is forwarded with fresh validation; other text is not forwarded and only adds the JSON error |
| CustomParameters.Merge | src/pages/experiment-configuration/components/CustomParametersPanel.jsx:69 | the keys are the union, the preset's values win, other current values are kept |
| CustomParameters.AddPresetFlag | src/pages/experiment-configuration/components/CustomParametersPanel.jsx:66-76 | an empty box counts as no flags; unparseable text leaves everything unchanged; otherwise the merged flags' text fills the box and is forwarded |
| CustomParameters.PresetRoundTrip | src/pages/experiment-configuration/components/CustomParametersPanel.jsx:66-76 | with a parser that reads back what the serialiser writes, the forwarded flags hold every preset value |
| ConfigActions.Step | src/pages/experiment-configuration/components/ConfigurationActions.jsx:12-33 | a save callback comes only from confirming the save, carrying the typed name and description; the reset callback iff the reset is confirmed; the apply callback iff Apply is clicked while enabled |
| ConfigActions.SaveDialog | src/pages/experiment-configuration/components/ConfigurationActions.jsx:17-28 | a blank name does nothing at all; any other name is handed over as typed with the description, the dialog closes and both fields empty; the save fires iff the button is enabled |
| ConfigActions.CancelKeepsText | src/pages/experiment-configuration/components/ConfigurationActions.jsx:178 | cancelling closes the dialog and keeps the typed text, which reopening shows again |
| ConfigActions.ResetConfirmation | src/pages/experiment-configuration/components/ConfigurationActions.jsx:30-33 | confirming calls the reset and closes the confirmation; cancelling closes it with no call |
| ConfigActions.OnlyConfirmationsSignal | src/pages/experiment-configuration/components/ConfigurationActions.jsx:12-33 | every event other than the three confirmations makes no callback |
| Toasts.AddToast | src/components/ui/NotificationToast.jsx:135-138 | the new toast, with the given fields and its fresh id, is appended after the existing ones, which are kept as they were |
| Toasts.RemoveToast | src/components/ui/NotificationToast.jsx:140-142 | afterwards no toast has the id, and every toast with another id is still present as often as before |
| Toasts.RemoveToastKeepsOrder | src/components/ui/NotificationToast.jsx:140-142 | removal works toast by toast: it distributes over concatenation and drops a single toast exactly when it has the id, so the rest keep their order |
| Toasts.ClearAllToasts | src/components/ui/NotificationToast.jsx:144-146 | the list is empty afterwards |
| Toasts.RemoveAbsentIsNoOp | src/components/ui/NotificationToast.jsx:140-142 | removing an id that no toast has leaves the list unchanged |
| Toasts.AddThenRemove | src/components/ui/NotificationToast.jsx:135-142 | adding a toast under a fresh id and then removing that id gives back the original list |
| Toasts.RemoveIdempotent | src/components/ui/NotificationToast.jsx:140-142 | removing the same id a second time changes nothing |
| Toasts.ConfigDistinctAndDefault | src/components/ui/NotificationToast.jsx:16-48 | an unrecognised type looks exactly like info; the info icon is shown iff the type is not success, error or warning |
| Breadcrumb.RouteOf | src/components/ui/Breadcrumb.jsx:8-14 | a path has a page iff it is one of the five route-map keys |
| Breadcrumb.Segments | src/components/ui/Breadcrumb.jsx:21 | no segment is empty and none holds a slash |
| Breadcrumb.SegmentsOfPath | src/components/ui/Breadcrumb.jsx:21 | a slash followed by non-empty, slash-free segments joined by slashes splits back into exactly those segments, and the root path into none |
| Breadcrumb.Generate | src/components/ui/Breadcrumb.jsx:16-38 | a custom list is returned as it is; otherwise Home comes first, there is at most one crumb per segment, and every later crumb is a route-map page other than the dashboard |
| Breadcrumb.WalkPathsGrow | src/components/ui/Breadcrumb.jsx:24-35 | every crumb's path extends the walked path, and each crumb's path extends every earlier crumb's path |
| Breadcrumb.NoDeeperCrumbs | src/components/ui/Breadcrumb.jsx:8-35 | beyond the first segment the accumulated path has two slashes and never matches a route, so no crumb is added |
| Breadcrumb.AtMostTwoCrumbs | src/components/ui/Breadcrumb.jsx:16-44 | the generated trail has at most two crumbs; it has two iff the first segment names a page other than the dashboard, and the second crumb is that page |
| Breadcrumb.TrailOnPage | src/components/ui/Breadcrumb.jsx:16-44 | on a one-segment path the trail is Home plus that page when it is a non-dashboard page, and Home alone otherwise; it is rendered iff the page is a non-dashboard page |
| DateRange.HandleRangeChange | src/pages/historical-data-trends/components/DateRangeSelector.jsx:20-27 | "custom" opens the form and tells the page nothing; any other value closes the form and reports that predefined range |
| DateRange.HandleApply | src/pages/historical-data-trends/components/DateRangeSelector.jsx:29-38 | with both dates filled in, the dates are reported and the form closes; otherwise nothing happens |
| DateRange.Step | src/pages/historical-data-trends/components/DateRangeSelector.jsx:20-127 | a report always leaves the form closed; only an edit of a date changes that date; the range select acts only while the form is closed |
| DateRange.ApplyReportsBothDates | src/pages/historical-data-trends/components/DateRangeSelector.jsx:29-38 | Apply reports a custom range iff the form is open with both dates filled in, and it reports those two dates |
| DateRange.CancelKeepsDates | src/pages/historical-data-trends/components/DateRangeSelector.jsx:47-57 | Cancel closes the form without a report and keeps the typed dates, which reopening the form shows again |
| DateRange.QuickActionsArePredefined | src/pages/historical-data-trends/components/DateRangeSelector.jsx:111-127 | each quick action runs the range handler with 7d, 30d or 90d, predefined non-custom ranges, even while the form is open; with the form closed it is the same as choosing that range in the select |
| DateRange.OnlyChoicesNotify | src/pages/historical-data-trends/components/DateRangeSelector.jsx:20-38 | the page is told something only for a non-custom range choice on the closed form, a quick action or Apply on the open form |
| TrendFilters.HandleChange | src/pages/historical-data-trends/components/FilterPanel.jsx:34-48 | each handler replaces its own key with the new value and keeps the other three keys |
| TrendFilters.LastChangeWins | src/pages/historical-data-trends/components/FilterPanel.jsx:34-48 | a second change to the same key overrides the first |
| TrendFilters.DeviceChange | src/pages/historical-data-trends/components/FilterPanel.jsx:140-151 | checking appends the device; unchecking removes every copy of it and keeps every other device; nothing but the devices changes |
| TrendFilters.DeviceClickToggles | src/pages/historical-data-trends/components/FilterPanel.jsx:144-151 | a click flips the box's device in the selection, leaves the other boxes as they were, and two clicks restore the selection |
| TrendFilters.CheckingTwiceDuplicates | src/pages/historical-data-trends/components/FilterPanel.jsx:147-149 | checking an already checked device appends a second copy |
| TrendFilters.ActiveCount | src/pages/historical-data-trends/components/FilterPanel.jsx:186 | the badge is at most 4, and it is 0 iff all three lists and the URL filter are empty |
| TrendFilters.ClearedCountsTwo | src/pages/historical-data-trends/components/FilterPanel.jsx:186 | the cleared filters count 2 and the page's initial filters count 3; a non-empty URL filter adds exactly one |
| ResultsAnalysis.BandTone | src/pages/historical-data-trends/components/TrendSummaryCards.jsx:20 | the performance card is success, warning or error exactly when the score falls in the excellent, good or poor band |
| ResultsAnalysis.ScoreColor | src/pages/historical-data-trends/components/HistoricalDataTable.jsx:67-71 | the band's tone as a text class, so green, amber or red exactly in the excellent, good or poor band; the comparison table's `getScoreColor` is the same function |
| SummaryCards.LoadTimeColor | src/pages/historical-data-trends/components/TrendSummaryCards.jsx:36 | green iff the load time is at most 2000 ms, amber iff it is above 2000 and at most 4000, red iff above 4000 |
| SummaryCards.LoadTimeColorMonotone | src/pages/historical-data-trends/components/TrendSummaryCards.jsx:36 | a slower page never gets a better load-time colour |
| SummaryCards.Cards | src/pages/historical-data-trends/components/TrendSummaryCards.jsx:5-38 | four cards carry their changes; the first three count a positive change as an increase, and the load-time card counts a negative change as the increase |
| SummaryCards.ColorClasses | src/pages/historical-data-trends/components/TrendSummaryCards.jsx:40-49 | any name outside the five palettes gets the accent classes |
| SummaryCards.ColorClassesDistinct | src/pages/historical-data-trends/components/TrendSummaryCards.jsx:41-47 | the five named palettes are pairwise different |
| SummaryCards.ChangeColor | src/pages/historical-data-trends/components/TrendSummaryCards.jsx:55-60 | the change is green iff its type is increase; it is always green or red |
| SummaryCards.ChangeColorIgnoresFlag | src/pages/historical-data-trends/components/TrendSummaryCards.jsx:55-60 | the load-time flag does not change the colour |
| SummaryCards.IndicatorAsWritten | src/pages/historical-data-trends/components/TrendSummaryCards.jsx:73-100 | the indicator is hidden iff the change is 0; it shows the change's magnitude, and the word is "Increased" iff the change type is increase |
| SummaryCards.FallingLoadTimeReadsIncreased | src/pages/historical-data-trends/components/TrendSummaryCards.jsx:34 | a falling load time is shown green with a rising icon and the word "Increased" |
| SummaryCards.Indicator | src/pages/historical-data-trends/components/TrendSummaryCards.jsx:73-100 | as the indicator above, but the word and the icon follow the sign of the change itself |
| SummaryCards.IndicatorsTellDirection | src/pages/historical-data-trends/components/TrendSummaryCards.jsx:73-100 | on every card the corrected word gives the true direction; it is green for a rise on the first three cards and for a fall on the load-time card; on the first three cards it equals the indicator as written |
| Frequency.CountOf | src/pages/historical-data-trends/components/ExperimentFrequencyChart.jsx:26 | a missing type counts as 0 and a present one as its value |
| Frequency.TypeTotalsSumToTotal | src/pages/historical-data-trends/components/ExperimentFrequencyChart.jsx:24-28 | the six per-type totals add up to the grand total, whatever the rows |
| Frequency.TypeTotalBounded | src/pages/historical-data-trends/components/ExperimentFrequencyChart.jsx:88 | with natural-number counts, each listed type's total lies between 0 and the grand total |
| Frequency.TotalIgnoresOtherKeys | src/pages/historical-data-trends/components/ExperimentFrequencyChart.jsx:24-28 | changing a key other than the six types, in every row, leaves the grand total unchanged |
| Frequency.PercentTenths | src/pages/historical-data-trends/components/ExperimentFrequencyChart.jsx:89 | 0 when there are no experiments; otherwise the tenths of a percent rounded half up, within 0 to 1000, and 1000 for a type that holds every experiment |
| Frequency.PercentNearest | src/pages/historical-data-trends/components/ExperimentFrequencyChart.jsx:89 | the share is within half a tenth of the exact share 1000·typeTotal/total and no other tenth is closer |
| HistoryTable.CellValue | src/pages/historical-data-trends/components/HistoricalDataTable.jsx:32-38 | a cell is missing, so it compares false with everything, exactly when the date column holds an invalid date |
| HistoryTable.Searched | src/pages/historical-data-trends/components/HistoricalDataTable.jsx:25-28 | a row is kept iff its lower-cased URL or experiment type contains the lower-cased term, as often as it occurs; nothing is added |
| HistoryTable.EmptySearchKeepsAll | src/pages/historical-data-trends/components/HistoricalDataTable.jsx:7-28 | with the initial empty term every row is kept, in order |
| HistoryTable.SearchIgnoresCase | src/pages/historical-data-trends/components/HistoricalDataTable.jsx:25-28 | searching for a term and for its lower-cased form keeps the same rows |
| HistoryTable.Listed | src/pages/historical-data-trends/components/HistoricalDataTable.jsx:24-51 | the listed rows are a permutation of the rows the search keeps |
| HistoryTable.ListedOrdered | src/pages/historical-data-trends/components/HistoricalDataTable.jsx:30-47 | the list is sorted by the current column in the current direction, unless the date column is chosen while some date is invalid |
| HistoryTable.HandleSort | src/pages/historical-data-trends/components/HistoricalDataTable.jsx:60-65 | the clicked column becomes the sort key; the direction is descending iff the same column was ascending |
| HistoryTable.SortClicksAlternate | src/pages/historical-data-trends/components/HistoricalDataTable.jsx:60-65 | a new column starts ascending; clicking the same column again flips the direction; from the initial state, the first click on Date turns it ascending |
| HistoryTable.PageRows | src/pages/historical-data-trends/components/HistoricalDataTable.jsx:53-56 | page p (from 1) shows the list's rows from (p-1)*size to p*size, clipped to the list, so at most size rows |
| HistoryTable.TotalPages | src/pages/historical-data-trends/components/HistoricalDataTable.jsx:58 | the pages hold the list, one page fewer would not, and there are no pages iff the list is empty |
| HistoryTable.AllPagesReproduce | src/pages/historical-data-trends/components/HistoricalDataTable.jsx:53-58 | pages 1 to the total, put together, are exactly the list |
| HistoryTable.PageButtons | src/pages/historical-data-trends/components/HistoricalDataTable.jsx:237-260 | min(5, total) buttons with consecutive numbers; with the current page in range, all numbers are real pages |
| HistoryTable.ButtonsHoldCurrent | src/pages/historical-data-trends/components/HistoricalDataTable.jsx:237-260 | an in-range current page has its own button; the window starts at 1 on the first three pages and ends at the last page on the last three |
| HistoryTable.Previous | src/pages/historical-data-trends/components/HistoricalDataTable.jsx:228 | Previous goes one page back, and never below page 1 |
| HistoryTable.Next | src/pages/historical-data-trends/components/HistoricalDataTable.jsx:266 | Next goes one page on, and never beyond the last page |
| HistoryTable.PreviousNextClamp | src/pages/historical-data-trends/components/HistoricalDataTable.jsx:228-267 | within the pages, Previous and Next stay in range, and each leaves the page unchanged exactly on the page where it is disabled |
| HistoryTable.StepControls | src/pages/historical-data-trends/components/HistoricalDataTable.jsx:204-267 | sorting, page size and page buttons never touch the search term; hidden or disabled controls do nothing |
| HistoryTable.StepAsWritten | src/pages/historical-data-trends/components/HistoricalDataTable.jsx:105 | typing a search changes only the term and keeps the page number |
| HistoryTable.SearchStrandsPage | src/pages/historical-data-trends/components/HistoricalDataTable.jsx:53-58 | on page 2 or later, a search whose matches fit on one page leaves an empty table with matches, no pagination bar and an out-of-range page |
| HistoryTable.Step | src/pages/historical-data-trends/components/HistoricalDataTable.jsx:207-213 | as written, except that a new search returns to page 1, as a new page size does |
| HistoryTable.StepKeepsPageInRange | src/pages/historical-data-trends/components/HistoricalDataTable.jsx:204-267 | with the corrected search, every event keeps the page between 1 and the number of pages |
| HistoryTable.InRangePageShowsRows | src/pages/historical-data-trends/components/HistoricalDataTable.jsx:53-58 | with the page in range, a non-empty list shows between 1 and size rows |
| WebVitals.Limits | src/pages/historical-data-trends/components/CoreWebVitalsChart.jsx:7-17 | exactly the four vitals cls, fcp, lcp and fid have thresholds, and each good threshold is below its poor threshold |
| WebVitals.VitalStatus | src/pages/historical-data-trends/components/CoreWebVitalsChart.jsx:35-54 | Unknown iff the metric has no thresholds; otherwise Good iff the value is at most the good threshold, Needs Improvement iff above it and at most the poor threshold, and Poor otherwise, including an absent value |
| WebVitals.ColorMatchesStatus | src/pages/historical-data-trends/components/CoreWebVitalsChart.jsx:6-54 | the colour function, written separately, always gives the colour of the status; different statuses have different colours |
| WebVitals.StatusMonotone | src/pages/historical-data-trends/components/CoreWebVitalsChart.jsx:35-54 | a larger value never gets a better status |
| WebVitals.AbsentIsPoor | src/pages/historical-data-trends/components/CoreWebVitalsChart.jsx:35-54 | an absent value of a known vital is Poor and red |
| WebVitals.Read | src/pages/historical-data-trends/components/CoreWebVitalsChart.jsx:118 | a vital is present iff the row has it, with the row's value |
| WebVitals.LatestData | src/pages/historical-data-trends/components/CoreWebVitalsChart.jsx:56 | the last row, or an empty row when there is no data |
| WebVitals.Cards | src/pages/historical-data-trends/components/CoreWebVitalsChart.jsx:117-120 | one card per vital, in the order fcp, lcp, fid, cls |
| WebVitals.CardsAgree | src/pages/historical-data-trends/components/CoreWebVitalsChart.jsx:56-120 | every card has a known status, computed from the last row's value, in its status colour; with no data every card reads Poor |
| TrendChart.FormatTooltip | src/pages/historical-data-trends/components/PerformanceTrendChart.jsx:26-37 | called with a metric key: timing metrics get their value in ms and their label, the score and CLS a bare number and their own titles, any other series keeps its own name |
| TrendChart.TooltipUnit | src/pages/historical-data-trends/components/PerformanceTrendChart.jsx:26-37 | a tooltip text ends in "ms" iff the series is one of the five timing metrics |
| TrendChart.RenderedTooltipDropsUnit | src/pages/historical-data-trends/components/PerformanceTrendChart.jsx:16-100 | the chart passes each line's label, which is no metric key, so a timing metric is shown without "ms" and under its label |
| TrendChart.ValuesAppend | src/pages/historical-data-trends/components/PerformanceTrendChart.jsx:110 | appending a row appends its value for the metric, if it has one |
| TrendChart.ValuesAllPresent | src/pages/historical-data-trends/components/PerformanceTrendChart.jsx:110 | when every row holds the metric there is one value per row, in row order |
| TrendChart.FromEnd | src/pages/historical-data-trends/components/PerformanceTrendChart.jsx:111-112 | the k-th value from the end exists iff there are at least k values |
| TrendChart.TrendOf | src/pages/historical-data-trends/components/PerformanceTrendChart.jsx:111-113 | Up iff there are two values and the last is larger; Down iff the last is smaller; Stable with fewer than two values |
| TrendChart.TrendOfLastTwo | src/pages/historical-data-trends/components/PerformanceTrendChart.jsx:111-113 | the trend depends only on the last two values |
| TrendChart.TrendColor | src/pages/historical-data-trends/components/PerformanceTrendChart.jsx:114-116 | Stable is muted; for the score, green means up and red means down; for any other metric, green means down and red means up |
| TrendChart.ColorsSwapped | src/pages/historical-data-trends/components/PerformanceTrendChart.jsx:114-116 | the score's colours are the other metrics' colours with the direction reversed |
| TrendChart.SummaryOf | src/pages/historical-data-trends/components/PerformanceTrendChart.jsx:109-116 | a card shows the last value of the metric and the trend over its last two values, in the trend's colour for that metric |
| TrendChart.Summaries | src/pages/historical-data-trends/components/PerformanceTrendChart.jsx:109 | there is one card for each of the first three selected metrics, in order |
| TrendChart.NewRowSetsTrend | src/pages/historical-data-trends/components/PerformanceTrendChart.jsx:110-116 | a new row with a higher, lower or equal value than the metric's last one makes the trend Up, Down or Stable, and becomes the latest value |
| Common.Trim | src/pages/batch-url-testing/components/URLInputSection.jsx:17 | the result occurs in the string and neither starts nor ends with whitespace |
| Common.TrimCutsWhitespace | src/pages/batch-url-testing/components/URLInputSection.jsx:17 | the trimmed string is the piece of the string starting right after its leading whitespace, and every character outside that piece is whitespace |
| Common.TrimIdempotent | src/pages/batch-url-testing/components/URLInputSection.jsx:17 | trimming a trimmed string changes nothing |
| Common.Split | src/pages/batch-url-testing/components/URLInputSection.jsx:17 | there is at least one piece and no piece contains the separator |
| Common.SplitFirst | src/pages/batch-url-testing/components/URLInputSection.jsx:36 | the first piece is a prefix of the string that runs to its end or stops just before a separator |
| Common.JoinSplit | src/pages/batch-url-testing/components/URLInputSection.jsx:17-38 | joining the pieces of a split with the separator gives back the string |
| Common.SplitJoin | src/pages/batch-url-testing/components/URLInputSection.jsx:17-38 | splitting a join of separator-free pieces gives back the pieces |
| Common.ToLower | src/pages/historical-data-trends/components/HistoricalDataTable.jsx:26-27 | same length, no upper-case ASCII letter left, and every other character unchanged |
| Common.Toggle | src/pages/experiment-results-analysis/components/FilterSidebar.jsx:44-58 | afterwards the toggled name is present iff it was absent before, every other name keeps its membership, and an absent name is appended at the end |
| Common.ToggleTwice | src/pages/experiment-results-analysis/components/FilterSidebar.jsx:44-58 | toggling the same name twice restores every name's membership |
| Common.DigitsValueOfNatToString | src/pages/batch-url-testing/components/BatchQueueTable.jsx:66 | reading back the rendered decimal digits gives the number |

## Left out

- Rendering is left out because it is presentation: JSX markup, CSS class strings beyond the colour choices modelled above, icons, and the Recharts chart bodies. This includes the vitals chart's tooltip and Y-axis formatting and the trend chart's `formatYAxisTick`.
- Timers and randomness are left out:
  - the dashboard's interval-driven progress simulation, whose random steps are left out; the model keeps which intervals are scheduled and their completion step (`Dashboard.CompleteTick`);
  - the `setTimeout` delays, which are modelled as explicit steps;
  - toast auto-dismiss.
- Authentication, session handling, routing and every `navigate` call are left out because they are foreign calls and I/O. This includes the breadcrumb's `onNavigate`.
- Floating-point figures are not modelled; every value here is an integer:
  - `toFixed` strings;
  - `parseFloat` of decimal-second metric strings;
  - the percentages of `getMetricChange`, `getDifference` and the trend summary.
- Frequency.PercentTenths: the share is the exact share rounded half up to a tenth of a percent. The page formats a double with `toFixed(1)`, whose binary error can round an exact tie down, so the page can show one tenth less at such ties.
- Common.ToLower: only the ASCII letters A to Z are lower-cased. JavaScript's `toLowerCase` also maps other upper-case letters (accented and non-Latin ones), which this model leaves unchanged.
- HistoryTable.SearchIgnoresCase: it holds for the ASCII lower-casing of `Common.ToLower`. For search terms with non-ASCII upper-case letters the page also ignores their case, but the model does not.
- Sorting.LexLess: it compares Dafny characters, which are Unicode scalar values. JavaScript's `<` on strings compares UTF-16 code units, so a character outside the Basic Multilingual Plane (a surrogate pair, 0xD800 to 0xDFFF) sorts below the characters 0xE000 to 0xFFFF in the page but above them here. There is no locale collation in either.
- BatchJobs.StatusCounts: the page computes these counts once, from the mock jobs, when it mounts, and never recomputes them. The model gives the counts of whatever job list it is handed.
- QueueTable.VisibleJobs: the created-at comparator compares a missing field, so it is inconsistent, and the result then depends on the engine's sort algorithm. The model claims a permutation for every column, but sortedness only for the URL and status columns.
- QueueTable.CreatedAtKeepsOrder: it states what the model's insertion sort does with a comparator that answers -1 for every pair. The page's order comes from the engine's sort, which can differ (an engine may reverse the list), and is not claimed.
- QueueTable.FormatDuration: it takes timestamps already parsed. `QueueTable.FormatJobDuration` adds the reading of the raw fields, where `new Date` is a parameter.
- Dashboard.CancelExperiment: it states the page right after the cancel. The run's interval is not stopped and can still finish the run later (`Dashboard.CancelLeavingInterval`, and the Findings table).
- Dashboard.ClearQueue: it states the page right after the clear. The scheduled intervals are not stopped and keep ticking (`Dashboard.ClearLeavingIntervals`).
- Dashboard.StartThenCancel: it states the page right after the cancel. The later completion by the interval is stated by `Dashboard.CancelledRunStillCompletes`.
- TrendChart.FormatTooltip: it is stated for a metric key. The chart passes the line's label, so as rendered only its last branch runs (`TrendChart.RenderedTooltipDropsUnit`).
- UrlInput.UploadFile: the reader's events are collapsed into one step. A failed read (no content) changes nothing, because `onerror` has no handler. The callback's `catch` branch, which would show "Error reading CSV file", is left out because parsing a string cannot throw, so the branch is dead code.
- ProgressSummary.OverallProgress: the page rounds the double `(completed / total) * 100`, whose rounding error can put an exact half just below .5. For 29 of 200 the product is 14.499999999999998 and the page shows 14, while the model, which rounds the exact share half up, gives 15. The model's figure can exceed the page's by one at such ties. Away from exact halves the two agree for any batch of fewer than about 10^13 jobs, because the double's error is then smaller than the distance to the nearest half.
- QueueTable.RowBadges: badge ids that coincide with `Object.prototype` keys are not modelled.
- Toasts whose text does not depend on data are left out. Only toasts whose kind or title follows from the state are modelled.
- ResultsAnalysis.Score: a string score is read with `parseFloat`, while `>=` converts it with `ToNumber`. The two agree on a string of digits. They differ on "" (the page reads 0, a poor score; the model gives none) and on "85abc" (the page reads NaN, matching no range; the model gives 85).
- ResultsAnalysis.Visible: a score stored as a string is represented by its `parseFloat` value. That is the value `>=` compares only for a string of digits; a string such as "" or "85abc", where `ToNumber` and `parseFloat` differ, is not modelled.
- CustomParameters.HandleCustomFlagsChange: `JSON.parse` is a parameter that yields a map or a failure, and `JSON.stringify` layout is not modelled.
- The save timestamp of a template is left out because it comes from the clock.
- `GeneralSettingsPanel`, `ExperimentTemplatesGrid`, `ExperimentDetailModal`, `ActionBar`, `QuickStatsCards` and the other presentation or mock-data files are left out. They hold no logic beyond lookups.
- Dates in the history table arrive already parsed into a timestamp or NaN, because `Date` parsing is foreign.
- History-table rows always carry the sort key's field.
- SummaryCards.Cards: a change that is `undefined` is not modelled; every change is an integer.
- The page's own handling of a reported date range is left out. The page only stores it.
- The score-range inputs of the historical `FilterPanel` are uncontrolled and feed no handler, so they are left out.
- The dashboard's execution-mode select is left out because it only stores a string.
- BatchJobs.CreateJobs: one `now` stamps the whole batch. The page reads `Date.now()` once per job, so the time in its ids can differ within a batch. The ids stay distinct either way, because their index parts differ.
- Dashboard.CompleteTick: the completion toast's message is not modelled. The interval's callback reads `currentUrl` from the render in which the run was started, before `setCurrentUrl` took effect. So the message names the previous run's URL, or an empty one on the first run, not the URL that finished.
- ValidationView.PanelGroups: the results are always a list. The panel's `results == null` case, which renders nothing, has no counterpart, because the page never passes null.

## Findings

| source | as written | input that shows it | evidently intended | confidence | as-written member | corrected member |
|---|---|---|---|---|---|---|
| src/pages/experiment-results-analysis/components/ComparisonModal.jsx:16-60 | writing a chosen experiment at index 1 of an empty array makes it two long with a hole at 0, and the modal tests only the length | open the modal with fewer than two selected and choose the second experiment first | compare only when both slots hold an experiment | not executed | Comparison.SecondFirstOpensHalfEmpty | Comparison.ReadyAfterBothChosen |
| src/pages/experiment-configuration/index.jsx:121-222 | the reset clears the unsaved flag, but its new settings trigger the effect that sets the flag again | click Reset to Defaults and confirm | after a reset nothing is unsaved | not executed | Configuration.ResetLeavesUnsaved | Configuration.ResetDefaults |
| src/pages/historical-data-trends/components/HistoricalDataTable.jsx:53-105 | a new search keeps the current page number | 25 rows, pages of 10, page 3, then a search matching 5 rows: the table is empty and the pagination bar is hidden | a new search returns to page 1, as a new page size does | not executed | HistoryTable.SearchStrandsPage | HistoryTable.StepKeepsPageInRange |
| src/pages/dashboard-home/index.jsx:105-217 | cancelling or clearing never calls `clearInterval`, so the run's interval keeps ticking; after a cancel it advances the reset experiments again and finally sets the header to not running at 100 and toasts 'All Experiments Completed' | start a run on any URL and cancel it | a cancelled or cleared run stops its interval and stays cancelled | not executed | Dashboard.CancelledRunStillCompletes | Dashboard.CancelStopsRun |
| src/pages/historical-data-trends/components/PerformanceTrendChart.jsx:26-100 | the tooltip formatter tests metric keys, but each line is named by its label, which Recharts passes instead | hover an FCP point of 1200: the tooltip reads 1200 with no unit | timing metrics show "ms" in the tooltip | not executed | TrendChart.RenderedTooltipDropsUnit | TrendChart.TooltipUnit |
| src/pages/historical-data-trends/components/TrendSummaryCards.jsx:34-95 | the load-time card marks a fall as "increase", and the icon and wording follow that mark | a load-time change of -12 reads "Increased by 12%" with a rising icon | green for the good news, with the word and icon giving the real direction | not executed | SummaryCards.FallingLoadTimeReadsIncreased | SummaryCards.IndicatorsTellDirection |


=== FILE: activity_feed.dfy ===
/** The dashboard's recent-activity feed: relative timestamps, the fallback
    to built-in activities, the eight-item limit and the type-to-message
    mapping. Times are milliseconds; `new Date()` and `Date.now()` are
    parameters. */
module ActivityFeed {
  import opened Common

  const MinuteMs: int := 60000
  const HourMs: int := 3600000
  const DayMs: int := 86400000

  /** How long ago something happened, in the unit the feed shows. */
  datatype Age = JustNow | MinutesAgo(n: nat) | HoursAgo(n: nat) | DaysAgo(n: nat)

  /** `formatTimestamp` with `diff = now - timestamp`; `Math.floor` of a
      quotient by a positive number is Dafny's `/`. The buckets are read off
      the elapsed time alone, each number lies in its unit's range, and a
      future timestamp counts as just now. */
  function AgeOf(diff: int): (a: Age)
    ensures a.JustNow? <==> diff < MinuteMs
    ensures a.MinutesAgo? <==> MinuteMs <= diff < HourMs
    ensures a.HoursAgo? <==> HourMs <= diff < DayMs
    ensures a.DaysAgo? <==> DayMs <= diff
    ensures a.MinutesAgo? ==> 1 <= a.n < 60 && MinuteMs * a.n <= diff < MinuteMs * (a.n + 1)
    ensures a.HoursAgo? ==> 1 <= a.n < 24 && HourMs * a.n <= diff < HourMs * (a.n + 1)
    ensures a.DaysAgo? ==> 1 <= a.n && DayMs * a.n <= diff < DayMs * (a.n + 1)
  {
    var minutes := diff / MinuteMs;
    var hours := diff / HourMs;
    DivBounds(diff, MinuteMs);
    DivBounds(diff, HourMs);
    DivBounds(diff, DayMs);
    if minutes < 1 then JustNow
    else if minutes < 60 then MinutesAgo(minutes)
    else if hours < 24 then HoursAgo(hours)
    else DaysAgo(diff / DayMs)
  }

  /** The text shown for an age. */
  function AgeText(a: Age): string {
    match a
    case JustNow => "Just now"
    case MinutesAgo(n) => NatToString(n) + "m ago"
    case HoursAgo(n) => NatToString(n) + "h ago"
    case DaysAgo(n) => NatToString(n) + "d ago"
  }

  /** `formatTimestamp` as text. */
  function FormatTimestamp(now: int, timestamp: int): string {
    AgeText(AgeOf(now - timestamp))
  }

  /** Ages in the order of elapsed time: unit first, then number. */
  predicate NoLater(a: Age, b: Age) {
    match (a, b)
    case (JustNow, _) => true
    case (MinutesAgo(x), MinutesAgo(y)) => x <= y
    case (MinutesAgo(_), HoursAgo(_)) => true
    case (MinutesAgo(_), DaysAgo(_)) => true
    case (HoursAgo(x), HoursAgo(y)) => x <= y
    case (HoursAgo(_), DaysAgo(_)) => true
    case (DaysAgo(x), DaysAgo(y)) => x <= y
    case _ => false
  }

  /** An older activity never shows as more recent than a newer one. */
  lemma AgeMonotone(d1: int, d2: int)
    requires d1 <= d2
    ensures NoLater(AgeOf(d1), AgeOf(d2))
  {
  }

  /** Different ages are shown differently, so the text determines the
      age. */
  lemma AgeTextInjective(a: Age, b: Age)
    requires AgeText(a) == AgeText(b)
    ensures a == b
  {
    LeadingDigit(a);
    LeadingDigit(b);
    if !a.JustNow? && !b.JustNow? {
      var ta := AgeText(a);
      var tb := AgeText(b);
      var na := NatToString(a.n);
      var nb := NatToString(b.n);
      assert ta == na + [UnitLetter(a)] + " ago";
      assert tb == nb + [UnitLetter(b)] + " ago";
      assert |na| == |nb|;
      assert ta[..|na|] == na;
      assert tb[..|nb|] == nb;
      assert ta[|na|] == UnitLetter(a);
      assert tb[|nb|] == UnitLetter(b);
      assert na == nb && UnitLetter(a) == UnitLetter(b);
      NatToStringInjective(a.n, b.n);
      assert a.n == b.n;
      assert a.MinutesAgo? == b.MinutesAgo? && a.HoursAgo? == b.HoursAgo?;
    }
  }

  /** Every text but "Just now" starts with a digit. */
  lemma LeadingDigit(a: Age)
    ensures a.JustNow? ==> AgeText(a)[0] == 'J'
    ensures !a.JustNow? ==> '0' <= AgeText(a)[0] <= '9'
  {
    if !a.JustNow? {
      assert AgeText(a)[0] == NatToString(a.n)[0];
    }
  }

  /** The letter after the number: m, h or d. */
  function UnitLetter(a: Age): char {
    match a
    case JustNow => ' '
    case MinutesAgo(_) => 'm'
    case HoursAgo(_) => 'h'
    case DaysAgo(_) => 'd'
  }

  // ---------------------------------------------------------------------
  // Activities

  /** An activity record; the fields a type does not use are absent. */
  datatype Activity = Activity(
    id: int,
    kind: string,
    url: Option<string>,
    timestamp: int,
    performanceGain: Option<int>,
    experimentsCount: Option<int>,
    urlCount: Option<int>,
    avgPerformanceGain: Option<int>,
    error: Option<string>)

  /** The built-in activities, stamped relative to `now`: 5, 15 and 30
      minutes and 1 and 2 hours ago. */
  function MockActivities(now: int): (r: seq<Activity>)
    ensures |r| == 5
  {
    [ Activity(1, "experiment_completed", Some("https://example.com"), now - 300000, Some(18), Some(6), None, None, None),
      Activity(2, "experiment_started", Some("https://shop.example.com"), now - 900000, None, Some(6), None, None, None),
      Activity(3, "experiment_completed", Some("https://blog.example.com"), now - 1800000, Some(31), Some(6), None, None, None),
      Activity(4, "batch_completed", None, now - 3600000, None, None, Some(12), Some(24), None),
      Activity(5, "experiment_failed", Some("https://test.example.com"), now - 7200000, None, None, None, None, Some("Network timeout")) ]
  }

  /** The built-in activities, shown at the moment they are made, read
      5m, 15m, 30m, 1h and 2h ago. */
  lemma MockAges(now: int)
    ensures var m := MockActivities(now);
      && AgeOf(now - m[0].timestamp) == MinutesAgo(5)
      && AgeOf(now - m[1].timestamp) == MinutesAgo(15)
      && AgeOf(now - m[2].timestamp) == MinutesAgo(30)
      && AgeOf(now - m[3].timestamp) == HoursAgo(1)
      && AgeOf(now - m[4].timestamp) == HoursAgo(2)
  {
  }

  /** The activities the feed lists: the supplied ones when there are any,
      otherwise the built-in ones, at most the first eight. */
  function Displayed(supplied: Option<seq<Activity>>, now: int): (r: seq<Activity>)
    ensures |r| <= 8
    ensures supplied.Some? && |supplied.value| > 0 ==>
      |r| == (if |supplied.value| < 8 then |supplied.value| else 8) && r == supplied.value[..|r|]
    ensures !(supplied.Some? && |supplied.value| > 0) ==> r == MockActivities(now)
  {
    var source := if supplied.Some? && |supplied.value| > 0 then supplied.value else MockActivities(now);
    if |source| <= 8 then source else source[..8]
  }

  /** The four activity types the feed knows. */
  const KnownKinds: seq<string> := ["experiment_completed", "experiment_started", "batch_completed", "experiment_failed"]

  datatype Look = Look(icon: string, color: string)

  /** `getActivityIcon`. */
  function ActivityIcon(kind: string): Look {
    if kind == "experiment_completed" then Look("CheckCircle", "text-success")
    else if kind == "experiment_started" then Look("Play", "text-accent")
    else if kind == "batch_completed" then Look("Package", "text-success")
    else if kind == "experiment_failed" then Look("AlertCircle", "text-error")
    else Look("Activity", "text-muted-foreground")
  }

  datatype Message = Message(title: string, description: string)

  /** A template slot: an absent field prints as `undefined`. */
  function Slot(o: Option<string>): string {
    if o.Some? then o.value else "undefined"
  }

  function NumSlot(o: Option<int>): string {
    if o.Some? then IntToString(o.value) else "undefined"
  }

  /** `getActivityMessage`. */
  function ActivityMessage(a: Activity): Message {
    if a.kind == "experiment_completed" then
      Message("Experiment Suite Completed",
        Slot(a.url) + " analyzed with " + NumSlot(a.performanceGain) + "% performance gain")
    else if a.kind == "experiment_started" then
      Message("Experiment Suite Started",
        "Running " + NumSlot(a.experimentsCount) + " experiments on " + Slot(a.url))
    else if a.kind == "batch_completed" then
      Message("Batch Analysis Completed",
        NumSlot(a.urlCount) + " URLs analyzed with " + NumSlot(a.avgPerformanceGain) + "% avg gain")
    else if a.kind == "experiment_failed" then
      Message("Experiment Failed", Slot(a.url) + " - " + Slot(a.error))
    else Message("Unknown Activity", "Activity details not available")
  }

  /** An activity of a type outside the four known ones, and only such an
      activity, is shown as "Unknown Activity" with the generic icon; the
      known types have distinct titles and icons. */
  lemma UnknownKinds(a: Activity, i: nat, j: nat)
    requires i < j < |KnownKinds|
    ensures a.kind !in KnownKinds <==> ActivityMessage(a).title == "Unknown Activity"
    ensures a.kind !in KnownKinds <==> ActivityIcon(a.kind).icon == "Activity"
    ensures ActivityMessage(a.(kind := KnownKinds[i])).title != ActivityMessage(a.(kind := KnownKinds[j])).title
    ensures ActivityIcon(KnownKinds[i]).icon != ActivityIcon(KnownKinds[j]).icon
  {
    KnownKindsDistinct(a, i, j);
  }

  lemma KnownKindsDistinct(a: Activity, i: nat, j: nat)
    requires i < j < |KnownKinds|
    ensures ActivityMessage(a.(kind := KnownKinds[i])).title != ActivityMessage(a.(kind := KnownKinds[j])).title
    ensures ActivityIcon(KnownKinds[i]).icon != ActivityIcon(KnownKinds[j]).icon
  {
  }
}

=== FILE: batch_config.dfy ===
/** The configuration panel of the batch page: the experiment checkboxes
    and the custom settings record. `parseInt` of the number fields is
    represented by its result. */
module BatchConfig {
  import opened Common

  /** The experiment ids the panel offers, all enabled. */
  const ExperimentOptions: seq<string> :=
    ["baseline", "no-js", "block-third-party", "no-render-blocking", "unused-resources", "first-party-only"]

  /** The page starts with these two selected. */
  const InitialSelection: seq<string> := ["baseline", "no-js"]

  /** No id is listed twice. */
  predicate NoDuplicates(s: seq<string>) {
    |s| == 0 || (s[0] !in s[1..] && NoDuplicates(s[1..]))
  }

  /** `handleExperimentToggle`: checking appends the id, whether or not it is
      already there; unchecking removes every occurrence. */
  function ToggleExperiment(selected: seq<string>, id: string, checked: bool): (r: seq<string>)
    ensures checked ==> r == selected + [id]
    ensures !checked ==> id !in r
    ensures !checked ==> forall i :: 0 <= i < |selected| && selected[i] != id ==> selected[i] in r
    ensures !checked ==> forall i :: 0 <= i < |r| ==> r[i] in selected
    ensures !checked ==> multiset(r) <= multiset(selected)
    ensures !checked ==> forall i :: 0 <= i < |selected| ==>
      multiset(r)[selected[i]] == if selected[i] == id then 0 else multiset(selected)[selected[i]]
  {
    if checked then selected + [id]
    else
      var keep := (x: string) => x != id;
      FilterKeepsCounts(selected, keep);
      Filter(selected, keep)
  }

  /** Unchecking works id by id: it removes from each half and joins the
      results, and it drops a single id exactly when that id is the one
      unchecked. So the other ids stay in their order. */
  lemma UncheckKeepsOrder(a: seq<string>, b: seq<string>, id: string, y: string)
    ensures ToggleExperiment(a + b, id, false) == ToggleExperiment(a, id, false) + ToggleExperiment(b, id, false)
    ensures ToggleExperiment([y], id, false) == if y != id then [y] else []
  {
    FilterConcat(a, b, (x: string) => x != id);
    FilterSingleton(y, (x: string) => x != id);
  }

  /** A click on a checkbox: the box shows `includes(id)`, so the click asks
      for the opposite. */
  function ClickExperiment(selected: seq<string>, id: string): (r: seq<string>)
    ensures id in r <==> id !in selected
  {
    ToggleExperiment(selected, id, id !in selected)
  }

  /** Clicking keeps a duplicate-free selection duplicate-free, and clicking
      the same box twice gives back the same set of ids. */
  lemma ClickPreservesNoDuplicates(selected: seq<string>, id: string)
    requires NoDuplicates(selected)
    ensures NoDuplicates(ClickExperiment(selected, id))
    ensures forall x :: x in ClickExperiment(ClickExperiment(selected, id), id) <==> x in selected
  {
    var keep := (x: string) => x != id;
    if id in selected {
      FilterNoDuplicates(selected, keep);
      var once := Filter(selected, keep);
      assert ClickExperiment(once, id) == once + [id];
      forall x ensures x in once + [id] <==> x in selected {
        if x in selected && x != id {
          var i :| 0 <= i < |selected| && selected[i] == x;
        }
      }
    } else {
      AppendNoDuplicates(selected, id);
      var once := selected + [id];
      assert once[..|selected|] == selected;
      FilterConcat(selected, [id], keep);
      FilterAll(selected, keep);
      assert Filter([id], keep) == [];
    }
  }

  lemma {:induction false} AppendNoDuplicates(s: seq<string>, x: string)
    requires NoDuplicates(s) && x !in s
    ensures NoDuplicates(s + [x])
  {
    if |s| > 0 {
      AppendNoDuplicates(s[1..], x);
      assert (s + [x])[1..] == s[1..] + [x];
    }
  }

  lemma {:induction false} FilterNoDuplicates(s: seq<string>, p: string -> bool)
    requires NoDuplicates(s)
    ensures NoDuplicates(Filter(s, p))
  {
    if |s| > 0 {
      FilterNoDuplicates(s[1..], p);
      var rest := Filter(s[1..], p);
      if p(s[0]) {
        assert ([s[0]] + rest)[1..] == rest;
      }
    }
  }

  /** The handler itself does not guard against duplicates: checking a box
      that is already checked lists the id twice. */
  lemma CheckingTwiceDuplicates()
    ensures ToggleExperiment(InitialSelection, "baseline", true) == ["baseline", "no-js", "baseline"]
    ensures !NoDuplicates(ToggleExperiment(InitialSelection, "baseline", true))
  {
    var r := ToggleExperiment(InitialSelection, "baseline", true);
    assert r[1..][1] == r[0];
  }

  /** `selectAllExperiments`: every enabled option, in the panel's order. */
  function SelectAll(): (r: seq<string>)
    ensures NoDuplicates(r) && forall i :: 0 <= i < |ExperimentOptions| ==> ExperimentOptions[i] in r
  {
    ExperimentOptions
  }

  /** `clearAllExperiments`. */
  function ClearAll(): (r: seq<string>)
    ensures |r| == 0
  {
    []
  }

  // ---------------------------------------------------------------------
  // Custom settings

  datatype Device = Desktop | Mobile | Both
  datatype Throttling = NoThrottling | Slow3G | Fast3G | Fast4G

  datatype Settings = Settings(
    device: Device,
    throttling: Throttling,
    timeout: int,
    maxConcurrent: int,
    generateHtml: bool,
    generateJson: bool,
    emailNotifications: bool)

  const InitialSettings: Settings := Settings(Desktop, Fast3G, 30, 3, true, false, false)

  /** One change of the settings form. The number fields carry what
      `parseInt` made of the input. */
  datatype Change =
    | SetDevice(d: Device)
    | SetThrottling(t: Throttling)
    | SetTimeout(n: Number)
    | SetMaxConcurrent(n: Number)
    | SetGenerateHtml(b: bool)
    | SetGenerateJson(b: bool)
    | SetEmailNotifications(b: bool)

  /** A field is replaced and the rest spread unchanged; an empty, zero or
      unparsable number falls back to 30 seconds or 3 jobs. */
  function ApplyChange(s: Settings, c: Change): (r: Settings)
    ensures c.SetTimeout? ==> r == s.(timeout := OrElse(c.n, 30))
    ensures c.SetMaxConcurrent? ==> r == s.(maxConcurrent := OrElse(c.n, 3))
    ensures !c.SetTimeout? ==> r.timeout == s.timeout
    ensures !c.SetMaxConcurrent? ==> r.maxConcurrent == s.maxConcurrent
  {
    match c
    case SetDevice(d) => s.(device := d)
    case SetThrottling(t) => s.(throttling := t)
    case SetTimeout(n) => s.(timeout := OrElse(n, 30))
    case SetMaxConcurrent(n) => s.(maxConcurrent := OrElse(n, 3))
    case SetGenerateHtml(b) => s.(generateHtml := b)
    case SetGenerateJson(b) => s.(generateJson := b)
    case SetEmailNotifications(b) => s.(emailNotifications := b)
  }

  datatype Field = DeviceField | ThrottlingField | TimeoutField | MaxConcurrentField
                 | GenerateHtmlField | GenerateJsonField | EmailField

  /** The fields in which two settings records differ. */
  function Differing(a: Settings, b: Settings): set<Field> {
    (if a.device != b.device then {DeviceField} else {})
    + (if a.throttling != b.throttling then {ThrottlingField} else {})
    + (if a.timeout != b.timeout then {TimeoutField} else {})
    + (if a.maxConcurrent != b.maxConcurrent then {MaxConcurrentField} else {})
    + (if a.generateHtml != b.generateHtml then {GenerateHtmlField} else {})
    + (if a.generateJson != b.generateJson then {GenerateJsonField} else {})
    + (if a.emailNotifications != b.emailNotifications then {EmailField} else {})
  }

  /** The field a change is addressed to. */
  function Target(c: Change): Field {
    match c
    case SetDevice(_) => DeviceField
    case SetThrottling(_) => ThrottlingField
    case SetTimeout(_) => TimeoutField
    case SetMaxConcurrent(_) => MaxConcurrentField
    case SetGenerateHtml(_) => GenerateHtmlField
    case SetGenerateJson(_) => GenerateJsonField
    case SetEmailNotifications(_) => EmailField
  }

  /** Every change touches its own field and nothing else; a settings record
      differs from its predecessor in at most that field. */
  lemma ChangeTouchesOneField(s: Settings, c: Change)
    ensures Differing(s, ApplyChange(s, c)) <= {Target(c)}
  {
  }

  /** The number fields never hold 0: starting from the initial settings,
      any sequence of changes leaves a non-zero timeout and concurrency.
      A negative number typed in is kept. */
  lemma {:induction false} NumbersNeverZero(s: Settings, cs: seq<Change>)
    requires s.timeout != 0 && s.maxConcurrent != 0
    ensures var r := ApplyAll(s, cs); r.timeout != 0 && r.maxConcurrent != 0
    decreases |cs|
  {
    if |cs| > 0 {
      NumbersNeverZero(ApplyChange(s, cs[0]), cs[1..]);
    }
  }

  function ApplyAll(s: Settings, cs: seq<Change>): Settings
    decreases |cs|
  {
    if |cs| == 0 then s else ApplyAll(ApplyChange(s, cs[0]), cs[1..])
  }
}

=== FILE: batch_jobs.dfy ===
/** The batch URL testing page: the URL list, its validation pass, the job
    list and the handlers that create, retry and cancel jobs, and the
    per-status counts. */
module BatchJobs {
  import opened Common

  // ---------------------------------------------------------------------
  // Jobs

  /** A job status. The page compares statuses as strings, so any other
      string is carried as `Other`. */
  datatype Status = Pending | Running | Completed | Failed | Cancelled | Other(name: string)

  /** One row of the job list. Timestamps are ISO strings or null. */
  datatype Job = Job(
    id: string,
    url: string,
    experiments: seq<string>,
    status: Status,
    progress: int,
    startedAt: Option<string>,
    completedAt: Option<string>,
    error: Option<string>)

  /** One entry of the validation pass. */
  datatype ValidationResult = ValidationResult(
    url: string,
    isValid: bool,
    isDuplicate: bool,
    error: Option<string>)

  /** The state of the page that its handlers change. */
  datatype Page = Page(
    urls: seq<string>,
    validation: Option<seq<ValidationResult>>,
    selectedExperiments: seq<string>,
    jobs: seq<Job>,
    isProcessing: bool)

  const InvalidFormat: string := "Invalid URL format"
  const DuplicateUrl: string := "Duplicate URL"

  // ---------------------------------------------------------------------
  // The URL pattern `^https?:\/\/.+\..+`

  /** What follows `http://` or `https://`, when the string starts with one. */
  function AfterScheme(s: string): (r: Option<string>)
    ensures r.Some? <==> StartsWith(s, "http://") || StartsWith(s, "https://")
    ensures r.Some? ==> EndsWith(s, r.value) && |r.value| + 7 <= |s| <= |r.value| + 8
  {
    if StartsWith(s, "https://") then Some(s[8..])
    else if StartsWith(s, "http://") then Some(s[7..])
    else None
  }

  /** `.+\..+` matched at the start of `rest`: a dot at position `k >= 1`
      with no line terminator before it and one more non-terminator after
      it (the pattern is not anchored at the end). */
  predicate HostPattern(rest: string) {
    exists k :: 1 <= k < |rest| - 1 && DotAt(rest, k)
  }

  predicate DotAt(rest: string, k: int)
    requires 0 <= k < |rest| - 1
  {
    && rest[k] == '.'
    && (forall i :: 0 <= i < k ==> !IsLineTerminator(rest[i]))
    && !IsLineTerminator(rest[k + 1])
  }

  predicate MatchesUrlPattern(s: string) {
    var rest := AfterScheme(s);
    rest.Some? && HostPattern(rest.value)
  }

  // ---------------------------------------------------------------------
  // Validation (handleValidateUrls)

  function ValidateOne(urls: seq<string>, i: nat): ValidationResult
    requires i < |urls|
  {
    var url := urls[i];
    var isValidUrl := MatchesUrlPattern(url);
    var isDuplicate := IndexOf(urls, url) != i;
    ValidationResult(
      url,
      isValidUrl && !isDuplicate,
      isDuplicate,
      if !isValidUrl then Some(InvalidFormat) else if isDuplicate then Some(DuplicateUrl) else None)
  }

  /** One result per URL, in input order. A URL is a duplicate exactly when
      the same string occurs earlier; it is valid exactly when it matches the
      pattern and is not a duplicate; the format error wins over the
      duplicate error. */
  function ValidateUrls(urls: seq<string>): (r: seq<ValidationResult>)
    ensures |r| == |urls|
    ensures forall i :: 0 <= i < |r| ==> r[i].url == urls[i]
    ensures forall i :: 0 <= i < |r| ==> (r[i].isDuplicate <==> urls[i] in urls[..i])
    ensures forall i :: 0 <= i < |r| ==>
      (r[i].isValid <==> MatchesUrlPattern(urls[i]) && urls[i] !in urls[..i])
    ensures forall i :: 0 <= i < |r| ==>
      r[i].error == (if !MatchesUrlPattern(urls[i]) then Some(InvalidFormat)
                     else if urls[i] in urls[..i] then Some(DuplicateUrl)
                     else None)
  {
    seq(|urls|, i requires 0 <= i < |urls| => ValidateOne(urls, i))
  }

  /** No two valid results carry the same URL: validation keeps the first
      occurrence of each well-formed URL and only that one. */
  lemma ValidUrlsDistinct(urls: seq<string>, i: nat, j: nat)
    requires i < j < |urls|
    requires ValidateUrls(urls)[i].isValid && ValidateUrls(urls)[j].isValid
    ensures urls[i] != urls[j]
  {
    var r := ValidateUrls(urls);
    assert urls[..j][i] == urls[i];
  }

  /** Every well-formed URL of the list has exactly one valid result: the one
      at its first occurrence. */
  lemma WellFormedUrlValidOnce(urls: seq<string>, u: string)
    requires u in urls && MatchesUrlPattern(u)
    ensures var r := ValidateUrls(urls);
      var k := IndexOf(urls, u);
      && r[k].isValid
      && forall i :: 0 <= i < |urls| && urls[i] == u && i != k ==> !r[i].isValid
  {
    var r := ValidateUrls(urls);
    var k := IndexOf(urls, u);
    forall i | 0 <= i < |urls| && urls[i] == u && i != k
      ensures !r[i].isValid
    {
      if i > k {
        assert urls[..i][k] == u;
      } else {
        assert false;
      }
    }
  }

  /** `handleValidateUrls`: with no URLs nothing changes (a warning toast is
      shown); otherwise the results replace the previous ones. */
  function HandleValidateUrls(p: Page): (r: Page)
    ensures |p.urls| == 0 ==> r == p
    ensures |p.urls| > 0 ==> r.validation.Some? && |r.validation.value| == |p.urls|
    ensures |p.urls| > 0 ==> r.validation == Some(ValidateUrls(p.urls))
    ensures r.urls == p.urls && r.jobs == p.jobs && r.selectedExperiments == p.selectedExperiments
    ensures r == p.(validation := r.validation)
  {
    if |p.urls| == 0 then p
    else p.(validation := Some(ValidateUrls(p.urls)))
  }

  /** The toast kind after validating: a warning for an empty list, success
      when at least one URL is valid, an error otherwise. */
  datatype ValidateToast = NoUrlsWarning | ValidationSucceeded | ValidationFailed

  function ValidateToastKind(urls: seq<string>): (t: ValidateToast)
    ensures t == NoUrlsWarning <==> |urls| == 0
    ensures t == ValidationSucceeded <==>
      exists i :: 0 <= i < |urls| && MatchesUrlPattern(urls[i]) && urls[i] !in urls[..i]
  {
    if |urls| == 0 then NoUrlsWarning
    else
      var results := ValidateUrls(urls);
      var valid := Filter(results, (v: ValidationResult) => v.isValid);
      if |valid| > 0 then
        assert valid[0] in results;
        ValidationSucceeded
      else
        ValidationFailed
  }

  // ---------------------------------------------------------------------
  // URL list handlers

  /** `handleUrlsChange`: the new list replaces the old and the validation
      results are cleared. */
  function HandleUrlsChange(p: Page, newUrls: seq<string>): (r: Page)
    ensures r.urls == newUrls && r.validation.None?
    ensures r.jobs == p.jobs && r.selectedExperiments == p.selectedExperiments
  {
    p.(urls := newUrls, validation := None)
  }

  /** `handleClearValidation`. */
  function HandleClearValidation(p: Page): (r: Page)
    ensures r.validation.None? && r.urls == p.urls && r.jobs == p.jobs
  {
    p.(validation := None)
  }

  /** `handleRemoveUrl`: every entry equal to the URL leaves both the URL list
      and the validation results (when there are any); the rest keep their
      order. */
  function HandleRemoveUrl(p: Page, u: string): (r: Page)
    ensures u !in r.urls
    ensures forall i :: 0 <= i < |p.urls| && p.urls[i] != u ==> p.urls[i] in r.urls
    ensures forall x :: x in r.urls ==> x in p.urls
    ensures r.validation.None? <==> p.validation.None?
    ensures r.validation.Some? ==>
      forall i :: 0 <= i < |r.validation.value| ==>
        r.validation.value[i].url != u && r.validation.value[i] in p.validation.value
    ensures r.jobs == p.jobs && r.selectedExperiments == p.selectedExperiments
    ensures multiset(r.urls) <= multiset(p.urls)
    ensures forall i :: 0 <= i < |p.urls| ==>
      multiset(r.urls)[p.urls[i]] == if p.urls[i] == u then 0 else multiset(p.urls)[p.urls[i]]
    ensures r.validation.Some? ==>
      && multiset(r.validation.value) <= multiset(p.validation.value)
      && forall i :: 0 <= i < |p.validation.value| ==>
           var res := p.validation.value[i];
           multiset(r.validation.value)[res] == if res.url == u then 0 else multiset(p.validation.value)[res]
  {
    p.(urls := WithoutUrl(p.urls, u),
       validation := match p.validation
         case None => None
         case Some(v) => Some(WithoutResultsFor(v, u)))
  }

  /** The URL list without the entries equal to `u`. */
  function WithoutUrl(urls: seq<string>, u: string): (r: seq<string>)
    ensures u !in r
    ensures forall i :: 0 <= i < |urls| && urls[i] != u ==> urls[i] in r
    ensures forall x :: x in r ==> x in urls
    ensures multiset(r) <= multiset(urls)
    ensures forall i :: 0 <= i < |urls| ==>
      multiset(r)[urls[i]] == if urls[i] == u then 0 else multiset(urls)[urls[i]]
  {
    var r := Filter(urls, (x: string) => x != u);
    FilterKeepsCounts(urls, (x: string) => x != u);
    assert forall x :: x in r ==> x in urls by {
      forall x | x in r ensures x in urls {
        var i :| 0 <= i < |r| && r[i] == x;
      }
    }
    r
  }

  /** The validation results without those for `u`. */
  function WithoutResultsFor(v: seq<ValidationResult>, u: string): (r: seq<ValidationResult>)
    ensures forall i :: 0 <= i < |r| ==> r[i].url != u && r[i] in v
    ensures multiset(r) <= multiset(v)
    ensures forall i :: 0 <= i < |v| ==>
      multiset(r)[v[i]] == if v[i].url == u then 0 else multiset(v)[v[i]]
  {
    FilterKeepsCounts(v, (res: ValidationResult) => res.url != u);
    Filter(v, (res: ValidationResult) => res.url != u)
  }

  /** Removing a URL works entry by entry, in order: on a list split in two
      it removes from each half and joins the results, and it drops a
      single entry exactly when that entry is the URL. So the kept URLs are
      the list with the removed ones gone, in their order. */
  lemma RemoveUrlKeepsOrder(p: Page, u: string, a: seq<string>, b: seq<string>, x: string)
    ensures HandleRemoveUrl(p.(urls := a + b), u).urls
         == HandleRemoveUrl(p.(urls := a), u).urls + HandleRemoveUrl(p.(urls := b), u).urls
    ensures HandleRemoveUrl(p.(urls := [x]), u).urls == if x == u then [] else [x]
  {
    FilterConcat(a, b, (y: string) => y != u);
    FilterSingleton(x, (y: string) => y != u);
  }

  /** The same for the validation results: entry by entry, in order. */
  lemma RemoveResultKeepsOrder(p: Page, u: string, a: seq<ValidationResult>, b: seq<ValidationResult>,
                               x: ValidationResult)
    ensures HandleRemoveUrl(p.(validation := Some(a + b)), u).validation
         == Some(HandleRemoveUrl(p.(validation := Some(a)), u).validation.value
                 + HandleRemoveUrl(p.(validation := Some(b)), u).validation.value)
    ensures HandleRemoveUrl(p.(validation := Some([x])), u).validation
         == Some(if x.url == u then [] else [x])
  {
    FilterConcat(a, b, (res: ValidationResult) => res.url != u);
    FilterSingleton(x, (res: ValidationResult) => res.url != u);
  }

  // ---------------------------------------------------------------------
  // Starting a batch (handleStartBatch and its timer)

  /** The warning `handleStartBatch` shows instead of starting. */
  datatype StartWarning = NoUrlsProvided | NoExperimentsSelected

  function StartBatchWarning(p: Page): (w: Option<StartWarning>)
    ensures w == None <==> |p.urls| > 0 && |p.selectedExperiments| > 0
    ensures |p.urls| == 0 ==> w == Some(NoUrlsProvided)
  {
    if |p.urls| == 0 then Some(NoUrlsProvided)
    else if |p.selectedExperiments| == 0 then Some(NoExperimentsSelected)
    else None
  }

  /** The click: with a warning nothing changes; otherwise the page is
      marked as processing until the timer fires. */
  function HandleStartBatch(p: Page): (r: Page)
    ensures StartBatchWarning(p).Some? ==> r == p
    ensures StartBatchWarning(p).None? ==> r == p.(isProcessing := true)
  {
    if StartBatchWarning(p).Some? then p else p.(isProcessing := true)
  }

  /** A new job's id: the prefix "batch-", the start time and the job's
      index, separated by a dash. */
  function NewJobId(now: nat, index: nat): string {
    "batch-" + NatToString(now) + "-" + NatToString(index)
  }

  /** Ids made at the same instant differ when their indexes differ. */
  lemma NewJobIdsDistinct(now: nat, i: nat, j: nat)
    requires i != j
    ensures NewJobId(now, i) != NewJobId(now, j)
  {
    var prefix := "batch-" + NatToString(now) + "-";
    assert NewJobId(now, i) == prefix + NatToString(i);
    assert NewJobId(now, j) == prefix + NatToString(j);
    if NewJobId(now, i) == NewJobId(now, j) {
      assert NatToString(i) == NewJobId(now, i)[|prefix|..];
      assert NatToString(j) == NewJobId(now, j)[|prefix|..];
      NatToStringInjective(i, j);
    }
  }

  /** One pending job per URL, in URL order, each running the given
      experiments. */
  function CreateJobs(urls: seq<string>, experiments: seq<string>, now: nat): (r: seq<Job>)
    ensures |r| == |urls|
    ensures forall i :: 0 <= i < |r| ==>
      && r[i].url == urls[i] && r[i].experiments == experiments
      && r[i].status == Pending && r[i].progress == 0
      && r[i].startedAt.None? && r[i].completedAt.None?
    ensures forall i, j :: 0 <= i < j < |r| ==> r[i].id != r[j].id
  {
    var r := seq(|urls|, i requires 0 <= i < |urls| =>
      Job(NewJobId(now, i), urls[i], experiments, Pending, 0, None, None, None));
    assert forall i, j :: 0 <= i < j < |r| ==> r[i].id != r[j].id by {
      forall i, j | 0 <= i < j < |r| ensures r[i].id != r[j].id {
        NewJobIdsDistinct(now, i, j);
      }
    }
    r
  }

  /** The timer firing: the jobs for the URLs and experiments captured at the
      click go after the existing jobs, and processing ends. */
  function CompleteBatchStart(p: Page, urls: seq<string>, experiments: seq<string>, now: nat): (r: Page)
    ensures |r.jobs| == |p.jobs| + |urls|
    ensures r.jobs[..|p.jobs|] == p.jobs
    ensures !r.isProcessing && r.urls == p.urls && r.validation == p.validation
  {
    p.(jobs := p.jobs + CreateJobs(urls, experiments, now), isProcessing := false)
  }

  /** A click with URLs and experiments, followed by its timer, appends
      exactly one pending job per URL after the existing jobs; a click
      without either adds no job. */
  lemma StartBatchAppendsJobs(p: Page, now: nat)
    ensures var started := HandleStartBatch(p);
      StartBatchWarning(p).None? ==>
        var done := CompleteBatchStart(started, p.urls, p.selectedExperiments, now);
        && done.jobs[..|p.jobs|] == p.jobs
        && |done.jobs| == |p.jobs| + |p.urls|
        && forall i :: 0 <= i < |p.urls| ==>
             done.jobs[|p.jobs| + i].url == p.urls[i]
             && done.jobs[|p.jobs| + i].status == Pending
             && done.jobs[|p.jobs| + i].experiments == p.selectedExperiments
    ensures StartBatchWarning(p).Some? ==> HandleStartBatch(p).jobs == p.jobs
  {
  }

  // ---------------------------------------------------------------------
  // Retry and cancel

  /** `handleRetryJob`: every job with that id becomes pending with progress
      0 and no error, whatever its status was; no other job changes. */
  function RetryJob(jobs: seq<Job>, id: string): (r: seq<Job>)
    ensures |r| == |jobs|
    ensures forall i :: 0 <= i < |r| ==> r[i].id == jobs[i].id && r[i].url == jobs[i].url
    ensures forall i :: 0 <= i < |r| && jobs[i].id == id ==>
      r[i].status == Pending && r[i].progress == 0 && r[i].error.None?
      && r[i].experiments == jobs[i].experiments && r[i].startedAt == jobs[i].startedAt
    ensures forall i :: 0 <= i < |r| && jobs[i].id == id ==>
      r[i].(status := jobs[i].status, progress := jobs[i].progress, error := jobs[i].error) == jobs[i]
    ensures forall i :: 0 <= i < |r| && jobs[i].id != id ==> r[i] == jobs[i]
  {
    seq(|jobs|, i requires 0 <= i < |jobs| =>
      if jobs[i].id == id then jobs[i].(status := Pending, progress := 0, error := None) else jobs[i])
  }

  /** `handleCancelJob`: every job with that id becomes cancelled with
      progress 0, whatever its status was; no other job changes. */
  function CancelJob(jobs: seq<Job>, id: string): (r: seq<Job>)
    ensures |r| == |jobs|
    ensures forall i :: 0 <= i < |r| ==> r[i].id == jobs[i].id && r[i].url == jobs[i].url
    ensures forall i :: 0 <= i < |r| && jobs[i].id == id ==>
      r[i].status == Cancelled && r[i].progress == 0
      && r[i].error == jobs[i].error && r[i].experiments == jobs[i].experiments
    ensures forall i :: 0 <= i < |r| && jobs[i].id == id ==>
      r[i].(status := jobs[i].status, progress := jobs[i].progress) == jobs[i]
    ensures forall i :: 0 <= i < |r| && jobs[i].id != id ==> r[i] == jobs[i]
  {
    seq(|jobs|, i requires 0 <= i < |jobs| =>
      if jobs[i].id == id then jobs[i].(status := Cancelled, progress := 0) else jobs[i])
  }

  /** Retrying or cancelling twice is the same as once, and an id no job has
      changes nothing. */
  lemma RetryCancelIdempotent(jobs: seq<Job>, id: string)
    ensures RetryJob(RetryJob(jobs, id), id) == RetryJob(jobs, id)
    ensures CancelJob(CancelJob(jobs, id), id) == CancelJob(jobs, id)
    ensures (forall i :: 0 <= i < |jobs| ==> jobs[i].id != id) ==>
      RetryJob(jobs, id) == jobs && CancelJob(jobs, id) == jobs
  {
  }

  /** Neither handler checks the status: a completed job can be retried and a
      failed one cancelled. */
  lemma NoStatusGuard(j: Job)
    requires j.status == Completed
    ensures RetryJob([j], j.id)[0].status == Pending
    ensures CancelJob([j.(status := Failed)], j.id)[0].status == Cancelled
  {
  }

  // ---------------------------------------------------------------------
  // Status counts

  datatype Stats = Stats(total: nat, pending: nat, running: nat, completed: nat, failed: nat, cancelled: nat)

  function CountStatus(jobs: seq<Job>, s: Status): nat {
    Count(jobs, (j: Job) => j.status == s)
  }

  /** The stats object: the list length and one count per known status. */
  function StatusCounts(jobs: seq<Job>): (st: Stats)
    ensures st.total == |jobs|
    ensures st.pending <= st.total && st.running <= st.total && st.completed <= st.total
    ensures st.failed <= st.total && st.cancelled <= st.total
  {
    Stats(|jobs|,
      CountStatus(jobs, Pending), CountStatus(jobs, Running), CountStatus(jobs, Completed),
      CountStatus(jobs, Failed), CountStatus(jobs, Cancelled))
  }

  predicate KnownStatus(s: Status) {
    !s.Other?
  }

  /** Splitting off the first job of a count. */
  lemma CountStatusHead(jobs: seq<Job>, s: Status)
    requires |jobs| > 0
    ensures CountStatus(jobs, s) == (if jobs[0].status == s then 1 else 0) + CountStatus(jobs[1..], s)
  {
    assert jobs == [jobs[0]] + jobs[1..];
    FilterConcat([jobs[0]], jobs[1..], (j: Job) => j.status == s);
  }

  /** The five counts of a list, summed. */
  function CountSum(jobs: seq<Job>): nat {
    CountStatus(jobs, Pending) + CountStatus(jobs, Running) + CountStatus(jobs, Completed)
    + CountStatus(jobs, Failed) + CountStatus(jobs, Cancelled)
  }

  /** A job with one of the five statuses adds exactly one to the sum. */
  lemma CountSumHead(jobs: seq<Job>)
    requires |jobs| > 0 && KnownStatus(jobs[0].status)
    ensures CountSum(jobs) == 1 + CountSum(jobs[1..])
  {
    CountStatusHead(jobs, Pending);
    CountStatusHead(jobs, Running);
    CountStatusHead(jobs, Completed);
    CountStatusHead(jobs, Failed);
    CountStatusHead(jobs, Cancelled);
  }

  /** When every job has one of the five statuses, the five counts add up to
      the total. */
  lemma {:induction false} CountsSumToTotal(jobs: seq<Job>)
    requires forall i :: 0 <= i < |jobs| ==> KnownStatus(jobs[i].status)
    ensures var st := StatusCounts(jobs);
      st.pending + st.running + st.completed + st.failed + st.cancelled == st.total
  {
    CountSumIsLength(jobs);
  }

  lemma {:induction false} CountSumIsLength(jobs: seq<Job>)
    requires forall i :: 0 <= i < |jobs| ==> KnownStatus(jobs[i].status)
    ensures CountSum(jobs) == |jobs|
  {
    if |jobs| > 0 {
      CountSumHead(jobs);
      CountSumIsLength(jobs[1..]);
    }
  }

  /** Retrying and cancelling never change the total. */
  lemma RetryCancelKeepTotal(jobs: seq<Job>, id: string)
    ensures StatusCounts(RetryJob(jobs, id)).total == StatusCounts(jobs).total
    ensures StatusCounts(CancelJob(jobs, id)).total == StatusCounts(jobs).total
  {
  }
}

=== FILE: breadcrumb.dfy ===
/** The breadcrumb trail: Home, then one crumb for each prefix of the
    current path that names a page of the route map. */
module Breadcrumb {
  import opened Common

  datatype Crumb = Crumb(title: string, path: string, icon: string)

  /** A page of the route map: its label and icon. */
  datatype Route = Route(title: string, icon: string)

  /** `routeMap`: the five pages. */
  function RouteOf(path: string): (r: Option<Route>)
    ensures r.Some? <==> path in RouteKeys
  {
    if path == "/dashboard-home" then Some(Route("Dashboard", "LayoutDashboard"))
    else if path == "/experiment-results-analysis" then Some(Route("Results Analysis", "BarChart3"))
    else if path == "/batch-url-testing" then Some(Route("Batch Testing", "Globe"))
    else if path == "/historical-data-trends" then Some(Route("Historical Trends", "TrendingUp"))
    else if path == "/experiment-configuration" then Some(Route("Configuration", "Settings"))
    else None
  }

  const RouteKeys: set<string> :=
    {"/dashboard-home", "/experiment-results-analysis", "/batch-url-testing",
     "/historical-data-trends", "/experiment-configuration"}

  const Home: Crumb := Crumb("Home", "/dashboard-home", "Home")

  /** No slash after the leading one. */
  predicate OneSegment(path: string) {
    |path| > 1 && path[0] == '/' && forall i :: 1 <= i < |path| ==> path[i] != '/'
  }

  /** Every key of the route map is a slash followed by one segment. */
  lemma RouteKeysOneSegment(path: string)
    ensures RouteOf(path).Some? ==> OneSegment(path)
  {
    if path == "/dashboard-home" {
      assert OneSegment(path);
    } else if path == "/experiment-results-analysis" {
      assert OneSegment(path);
    } else if path == "/batch-url-testing" {
      assert OneSegment(path);
    } else if path == "/historical-data-trends" {
      assert OneSegment(path);
    } else if path == "/experiment-configuration" {
      assert OneSegment(path);
    }
  }

  /** The path's segments between slashes, with the empty ones dropped. */
  function Segments(pathname: string): (r: seq<string>)
    ensures forall i :: 0 <= i < |r| ==> r[i] != "" && '/' !in r[i]
  {
    Filter(Split(pathname, '/'), NonEmpty)
  }

  predicate NonEmpty(s: string) {
    s != ""
  }

  /** A path written as a slash before its segments joined by slashes
      splits back into those segments; the root path `/` has none. */
  lemma {:induction false} SegmentsOfPath(segs: seq<string>)
    requires forall i :: 0 <= i < |segs| ==> segs[i] != "" && '/' !in segs[i]
    ensures Segments("/" + Join(segs, "/")) == segs
  {
    var parts := [""] + segs;
    forall i | 0 <= i < |parts| ensures '/' !in parts[i] {
      if i > 0 {
        assert parts[i] == segs[i - 1];
      }
    }
    if |segs| == 0 {
      assert Split("/"[1..], '/') == [""];
      assert Split("/", '/') == parts + [""];
      FilterHead(parts + [""], NonEmpty);
      assert (parts + [""])[1..] == [""];
      FilterSingleton("", NonEmpty);
    } else {
      JoinCons("", segs, "/");
      assert "" + "/" + Join(segs, "/") == "/" + Join(segs, "/");
      SplitJoin(parts, '/');
      FilterHead(parts, NonEmpty);
      assert parts[1..] == segs;
      FilterAll(segs, NonEmpty);
    }
  }

  /** The crumbs for the remaining segments, `base` being the path walked
      so far. */
  function Walk(segs: seq<string>, base: string): (r: seq<Crumb>)
    ensures |r| <= |segs|
    ensures forall i :: 0 <= i < |r| ==> RouteOf(r[i].path).Some? && r[i].path != "/dashboard-home"
    ensures forall i :: 0 <= i < |r| ==> r[i].title == RouteOf(r[i].path).value.title
    ensures forall i :: 0 <= i < |r| ==> r[i].icon == RouteOf(r[i].path).value.icon
  {
    if |segs| == 0 then []
    else
      var path := base + "/" + segs[0];
      var route := RouteOf(path);
      (if route.Some? && path != "/dashboard-home" then [Crumb(route.value.title, path, route.value.icon)] else [])
      + Walk(segs[1..], path)
  }

  /** `generateBreadcrumbs`: any custom list (a JavaScript array is truthy
      even when empty) is returned as it is. */
  function Generate(custom: Option<seq<Crumb>>, pathname: string): (r: seq<Crumb>)
    ensures custom.Some? ==> r == custom.value
    ensures custom.None? ==> |r| >= 1 && r[0] == Home && |r| <= 1 + |Segments(pathname)|
    ensures custom.None? ==> forall i :: 1 <= i < |r| ==>
      RouteOf(r[i].path).Some? && r[i].path != "/dashboard-home"
  {
    if custom.Some? then custom.value
    else [Home] + Walk(Segments(pathname), "")
  }

  /** Every crumb's path extends `base` by at least one segment. */
  predicate Below(r: seq<Crumb>, base: string) {
    forall i :: 0 <= i < |r| ==> StartsWith(r[i].path, base + "/")
  }

  /** Each crumb's path extends every earlier crumb's path. */
  predicate Nested(r: seq<Crumb>) {
    forall i, j :: 0 <= i < j < |r| ==> StartsWith(r[j].path, r[i].path + "/")
  }

  /** Each crumb's path is the walked path extended by one or more
      segments, and later crumbs extend earlier ones. */
  lemma {:induction false} WalkPathsGrow(segs: seq<string>, base: string)
    ensures Below(Walk(segs, base), base)
    ensures Nested(Walk(segs, base))
  {
    if |segs| > 0 {
      var path := base + "/" + segs[0];
      var rest := Walk(segs[1..], path);
      WalkPathsGrow(segs[1..], path);
      WalkHead(segs, base);
      assert path[..|base + "/"|] == base + "/";
      ExtendsBase(base, path, rest);
      GrowingCrumbs(path, rest);
    }
  }

  /** Paths below a walked path are below the path it was walked from. */
  lemma ExtendsBase(base: string, path: string, rest: seq<Crumb>)
    requires StartsWith(path, base + "/") && Below(rest, path)
    ensures Below(HeadCrumb(path) + rest, base)
  {
    var head := HeadCrumb(path);
    var r := head + rest;
    forall i | 0 <= i < |r|
      ensures StartsWith(r[i].path, base + "/")
    {
      if i >= |head| {
        var p := rest[i - |head|].path;
        assert r[i] == rest[i - |head|];
        assert p[..|path + "/"|] == path + "/";
        assert (path + "/")[..|base + "/"|] == base + "/";
      } else {
        assert r[i].path == path;
      }
    }
  }

  /** The walked path's crumb, if any, is extended by every later one. */
  lemma GrowingCrumbs(path: string, rest: seq<Crumb>)
    requires Below(rest, path) && Nested(rest)
    ensures Nested(HeadCrumb(path) + rest)
  {
    var head := HeadCrumb(path);
    var r := head + rest;
    forall i, j | 0 <= i < j < |r|
      ensures StartsWith(r[j].path, r[i].path + "/")
    {
      assert r[j] == rest[j - |head|];
      if i < |head| {
        assert r[i].path == path;
      } else {
        assert r[i] == rest[i - |head|];
      }
    }
  }

  /** Below the first level no route can match: the walk from a non-empty
      path yields no crumb. */
  lemma {:induction false} NoDeeperCrumbs(segs: seq<string>, base: string)
    requires |base| > 0
    ensures Walk(segs, base) == []
  {
    if |segs| > 0 {
      var path := base + "/" + segs[0];
      assert path[|base|] == '/';
      RouteKeysOneSegment(path);
      NoDeeperCrumbs(segs[1..], path);
    }
  }

  /** The walk starts from the empty path. */
  lemma FromRoot(seg: string)
    ensures "" + "/" + seg == "/" + seg
  {
  }

  /** The first step of the walk: the crumb for the first segment, if its
      path names a page, followed by the walk from that path. */
  lemma WalkHead(segs: seq<string>, base: string)
    requires |segs| > 0
    ensures var path := base + "/" + segs[0];
      Walk(segs, base) == HeadCrumb(path) + Walk(segs[1..], path)
  {
  }

  /** The crumb a walked path contributes: none unless it names a page
      other than the dashboard. */
  function HeadCrumb(path: string): (r: seq<Crumb>)
    ensures |r| <= 1
    ensures |r| == 1 <==> RouteOf(path).Some? && path != "/dashboard-home"
    ensures |r| == 1 ==> r[0] == Crumb(RouteOf(path).value.title, path, RouteOf(path).value.icon)
  {
    if RouteOf(path).Some? && path != "/dashboard-home" then [Crumb(RouteOf(path).value.title, path, RouteOf(path).value.icon)] else []
  }

  /** Only the first segment can contribute a crumb. */
  lemma TrailOfFirstSegment(pathname: string)
    ensures var segs := Segments(pathname);
      Generate(None, pathname) == [Home] + (if |segs| > 0 then HeadCrumb("/" + segs[0]) else [])
  {
    WalkFromRoot(Segments(pathname));
  }

  /** From the root, the walk yields at most the first segment's crumb. */
  lemma WalkFromRoot(segs: seq<string>)
    ensures Walk(segs, "") == (if |segs| > 0 then HeadCrumb("/" + segs[0]) else [])
  {
    if |segs| > 0 {
      var path := "/" + segs[0];
      FromRoot(segs[0]);
      WalkHead(segs, "");
      NoDeeperCrumbs(segs[1..], path);
      assert Walk(segs, "") == HeadCrumb(path) + [];
    }
  }

  /** So the trail is Home alone or Home and the first segment's page: the
      second crumb exists exactly when the first segment names a page other
      than the dashboard. */
  lemma AtMostTwoCrumbs(pathname: string)
    ensures var r := Generate(None, pathname);
      && |r| <= 2
      && (|r| == 2 <==>
            |Segments(pathname)| > 0
            && RouteOf("/" + Segments(pathname)[0]).Some? && "/" + Segments(pathname)[0] != "/dashboard-home")
      && (|r| == 2 ==> r[1].path == "/" + Segments(pathname)[0])
  {
    TrailOfFirstSegment(pathname);
  }

  /** The trail is rendered only with more than one crumb. */
  predicate Rendered(crumbs: seq<Crumb>) {
    |crumbs| > 1
  }

  /** A path of one segment splits into that segment. */
  lemma SegmentsOfOne(seg: string)
    requires seg != "" && '/' !in seg
    ensures Segments("/" + seg) == [seg]
  {
    var s := "/" + seg;
    assert s[1..] == seg;
    SplitNoSeparator(seg, '/');
    assert Split(s, '/') == ["", seg];
  }

  /** On a one-segment path the trail is Home and that page when the page
      is in the route map and is not the dashboard, and Home alone (so not
      rendered) otherwise. */
  lemma TrailOnPage(seg: string)
    requires seg != "" && '/' !in seg
    ensures var path := "/" + seg;
      && (RouteOf(path).Some? && path != "/dashboard-home" ==>
            Generate(None, path) == [Home, Crumb(RouteOf(path).value.title, path, RouteOf(path).value.icon)])
      && (RouteOf(path).None? || path == "/dashboard-home" ==> Generate(None, path) == [Home])
      && (Rendered(Generate(None, path)) <==> RouteOf(path).Some? && path != "/dashboard-home")
  {
    var path := "/" + seg;
    SegmentsOfOne(seg);
    TrailOfFirstSegment(path);
    var crumbs := HeadCrumb(path);
    assert Generate(None, path) == [Home] + crumbs;
  }

}

=== FILE: common.dfy ===
/** Shared vocabulary for the dashboard model: optional values, JavaScript
    numbers as produced by `parseInt`/`parseFloat`, the string operations the
    components use (`trim`, `split`, `join`, `startsWith`, `includes`), the
    order-preserving `filter` every list handler is built from, and decimal
    rendering of integers for the labels the components build. */
module Common {

  datatype Option<+T> = None | Some(value: T)

  /** A JavaScript number after `parseInt`/`parseFloat`: a finite value (in the
      unit the caller chooses: integers, milliseconds or thousandths) or NaN. */
  datatype Number = Finite(value: int) | NaN

  /** JavaScript truthiness of a number: neither NaN nor 0. */
  predicate Truthy(n: Number) {
    n.Finite? && n.value != 0
  }

  /** `n || fallback` for a number: the value when it is truthy, the fallback
      when it is NaN or 0. */
  function OrElse(n: Number, fallback: int): (r: int)
    ensures Truthy(n) ==> r == n.value
    ensures !Truthy(n) ==> r == fallback
  {
    if Truthy(n) then n.value else fallback
  }

  // ---------------------------------------------------------------------
  // Characters and trimming

  /** The ECMAScript line terminators (what `.` in a regular expression
      refuses to match). */
  predicate IsLineTerminator(c: char) {
    c == '\n' || c == '\r' || c == '\U{2028}' || c == '\U{2029}'
  }

  /** The code points `String.prototype.trim` removes: ECMAScript WhiteSpace
      (tab, vertical tab, form feed, space, no-break space, zero-width
      no-break space and the space separators) and the line terminators. */
  predicate IsWhitespace(c: char) {
    || c == '\t' || c == '\U{000B}' || c == '\U{000C}' || c == ' '
    || c == '\U{00A0}' || c == '\U{FEFF}' || c == '\U{1680}'
    || ('\U{2000}' <= c <= '\U{200A}')
    || c == '\U{202F}' || c == '\U{205F}' || c == '\U{3000}'
    || IsLineTerminator(c)
  }

  predicate AllWhitespace(s: string) {
    forall i :: 0 <= i < |s| ==> IsWhitespace(s[i])
  }

  /** Leading whitespace removed. */
  function TrimStart(s: string): (r: string)
    ensures |r| <= |s| && r == s[|s| - |r|..]
    ensures AllWhitespace(s[..|s| - |r|])
    ensures r == [] || !IsWhitespace(r[0])
  {
    if |s| > 0 && IsWhitespace(s[0]) then
      var r := TrimStart(s[1..]);
      TrimStartStep(s, r);
      r
    else s
  }

  lemma TrimStartStep(s: string, r: string)
    requires |s| > 0 && IsWhitespace(s[0])
    requires |r| <= |s| - 1 && r == s[1..][|s| - 1 - |r|..] && AllWhitespace(s[1..][..|s| - 1 - |r|])
    ensures r == s[|s| - |r|..] && AllWhitespace(s[..|s| - |r|])
  {
    assert s[1..][|s| - 1 - |r|..] == s[|s| - |r|..];
    var cut := s[..|s| - |r|];
    var rest := s[1..][..|s| - 1 - |r|];
    assert cut == [s[0]] + rest;
    forall i | 0 <= i < |cut|
      ensures IsWhitespace(cut[i])
    {
      if i > 0 {
        assert cut[i] == rest[i - 1];
      }
    }
  }

  /** Trailing whitespace removed. */
  function TrimEnd(s: string): (r: string)
    ensures |r| <= |s| && r == s[..|r|]
    ensures AllWhitespace(s[|r|..])
    ensures r == [] || !IsWhitespace(r[|r| - 1])
  {
    if |s| > 0 && IsWhitespace(s[|s| - 1]) then
      var r := TrimEnd(s[..|s| - 1]);
      TrimEndStep(s, r);
      r
    else s
  }

  lemma TrimEndStep(s: string, r: string)
    requires |s| > 0 && IsWhitespace(s[|s| - 1])
    requires |r| <= |s| - 1 && r == s[..|s| - 1][..|r|] && AllWhitespace(s[..|s| - 1][|r|..])
    ensures r == s[..|r|] && AllWhitespace(s[|r|..])
  {
    assert s[..|s| - 1][..|r|] == s[..|r|];
    forall i | 0 <= i < |s| - |r|
      ensures IsWhitespace(s[|r|..][i])
    {
      if i < |s| - 1 - |r| {
        assert s[|r|..][i] == s[..|s| - 1][|r|..][i];
      }
    }
  }

  /** `String.prototype.trim` (see `TrimCutsWhitespace` for what is cut). */
  function Trim(s: string): (r: string)
    ensures r == [] || (!IsWhitespace(r[0]) && !IsWhitespace(r[|r| - 1]))
    ensures Contains(s, r)
  {
    var t := TrimStart(s);
    var r := TrimEnd(t);
    PrefixOfSuffix(s, t, r);
    assert r != [] ==> r[0] == t[0];
    r
  }

  /** `r` is the slice of `s` starting at `k`, with only whitespace before
      and after it. */
  predicate WhitespaceAround(s: string, r: string, k: int) {
    && 0 <= k && k + |r| <= |s|
    && (forall i :: 0 <= i < |r| ==> r[i] == s[k + i])
    && (forall i :: 0 <= i < |s| && !(k <= i < k + |r|) ==> IsWhitespace(s[i]))
  }

  /** Trimming cuts whitespace at both ends and nothing else: the result is
      the slice of `s` after its leading whitespace, with only whitespace
      before and after it. */
  lemma {:induction false} TrimCutsWhitespace(s: string)
    ensures WhitespaceAround(s, Trim(s), |s| - |TrimStart(s)|)
  {
    TrimIsBothCuts(s);
    TrimStartAround(s);
    TrimEndAround(TrimStart(s));
    Compose(s, TrimStart(s), TrimEnd(TrimStart(s)));
  }

  /** Cutting leading whitespace keeps the rest in place. */
  lemma TrimStartAround(s: string)
    ensures WhitespaceAround(s, TrimStart(s), |s| - |TrimStart(s)|)
  {
    FrontCut(s, TrimStart(s));
  }

  /** Cutting trailing whitespace keeps the rest in place. */
  lemma TrimEndAround(t: string)
    ensures WhitespaceAround(t, TrimEnd(t), 0)
  {
    BackCut(t, TrimEnd(t));
  }

  lemma TrimIsBothCuts(s: string)
    ensures Trim(s) == TrimEnd(TrimStart(s))
  {
  }

  /** A whitespace prefix cut from `s` leaves `t`, in place. */
  lemma FrontCut(s: string, t: string)
    requires |t| <= |s| && t == s[|s| - |t|..] && AllWhitespace(s[..|s| - |t|])
    ensures WhitespaceAround(s, t, |s| - |t|)
  {
    var k := |s| - |t|;
    forall i | 0 <= i < k ensures IsWhitespace(s[i]) {
      assert s[..k][i] == s[i];
    }
  }

  /** A whitespace suffix cut from `t` leaves `r`, in place. */
  lemma BackCut(t: string, r: string)
    requires |r| <= |t| && r == t[..|r|] && AllWhitespace(t[|r|..])
    ensures WhitespaceAround(t, r, 0)
  {
    forall i | |r| <= i < |t| ensures IsWhitespace(t[i]) {
      assert t[|r|..][i - |r|] == t[i];
    }
  }

  /** Cutting whitespace from the front and then from the back leaves a
      piece of the string with whitespace on both sides of it. */
  lemma Compose(s: string, t: string, r: string)
    requires WhitespaceAround(s, t, |s| - |t|) && WhitespaceAround(t, r, 0)
    ensures WhitespaceAround(s, r, |s| - |t|)
  {
    var k := |s| - |t|;
    forall i | 0 <= i < |s| && !(k <= i < k + |r|) ensures IsWhitespace(s[i]) {
      if i >= k {
        assert s[i] == t[i - k];
      }
    }
  }

  /** A prefix of a suffix occurs where the suffix starts. */
  lemma PrefixOfSuffix(s: string, t: string, r: string)
    requires |t| <= |s| && t == s[|s| - |t|..]
    requires |r| <= |t| && r == t[..|r|]
    ensures OccursAt(s, r, |s| - |t|) && Contains(s, r)
  {
    assert s[|s| - |t|..|s| - |t| + |r|] == t[..|r|];
    assert OccursAt(s, r, |s| - |t|);
  }

  /** Blank in the JavaScript sense: `!s.trim()`. */
  predicate IsBlank(s: string) {
    Trim(s) == []
  }

  /** A string is blank exactly when every character is whitespace. */
  lemma {:induction false} BlankIffAllWhitespace(s: string)
    ensures IsBlank(s) <==> AllWhitespace(s)
  {
    var t := TrimStart(s);
    if !AllWhitespace(s) {
      var i :| 0 <= i < |s| && !IsWhitespace(s[i]);
      assert t[i - (|s| - |t|)] == s[i];
    }
  }

  /** Trimming only removes characters. */
  lemma TrimChars(s: string, c: char)
    requires c in Trim(s)
    ensures c in s
  {
    var r := Trim(s);
    var i :| 0 <= i <= |s| && OccursAt(s, r, i);
    OccursChars(s, r, i, c);
  }

  /** The characters of a piece that occurs in a string are in the string. */
  lemma OccursChars(s: string, r: string, i: int, c: char)
    requires OccursAt(s, r, i) && c in r
    ensures c in s
  {
    var k :| 0 <= k < |r| && r[k] == c;
    assert s[i..i + |r|][k] == r[k];
    assert s[i + k] == c;
  }

  lemma TrimKeepsOut(s: string, c: char)
    requires c !in s
    ensures c !in Trim(s)
  {
    if c in Trim(s) {
      TrimChars(s, c);
    }
  }

  /** A string with no whitespace at either end is its own trim. */
  lemma TrimUntrimmable(s: string)
    requires s == [] || (!IsWhitespace(s[0]) && !IsWhitespace(s[|s| - 1]))
    ensures Trim(s) == s
  {
  }

  /** Trimming is idempotent. */
  lemma TrimIdempotent(s: string)
    ensures Trim(Trim(s)) == Trim(s)
  {
  }

  // ---------------------------------------------------------------------
  // Prefixes, suffixes, substrings

  predicate StartsWith(s: string, prefix: string) {
    |prefix| <= |s| && s[..|prefix|] == prefix
  }

  predicate EndsWith(s: string, suffix: string) {
    |suffix| <= |s| && s[|s| - |suffix|..] == suffix
  }

  /** `s.includes(t)`. */
  predicate Contains(s: string, t: string) {
    exists i :: 0 <= i <= |s| && OccursAt(s, t, i)
  }

  /** `t` occurs in `s` starting at index `i`. */
  predicate OccursAt(s: string, t: string, i: int) {
    0 <= i <= |s| - |t| && s[i..i + |t|] == t
  }

  /** Every string includes the empty string. */
  lemma ContainsEmpty(s: string)
    ensures Contains(s, "")
  {
    assert OccursAt(s, "", 0);
  }

  /** `toLowerCase` on the ASCII letters (other characters unchanged). */
  function ToLower(s: string): (r: string)
    ensures |r| == |s|
    ensures forall i :: 0 <= i < |s| && !('A' <= s[i] <= 'Z') ==> r[i] == s[i]
    ensures forall i :: 0 <= i < |r| ==> !('A' <= r[i] <= 'Z')
  {
    seq(|s|, i requires 0 <= i < |s| =>
      if 'A' <= s[i] <= 'Z' then (s[i] as int + 32) as char else s[i])
  }

  // ---------------------------------------------------------------------
  // split and join

  /** `s.split(sep)` for a one-character separator. */
  function Split(s: string, sep: char): (r: seq<string>)
    ensures |r| >= 1
    ensures forall i :: 0 <= i < |r| ==> sep !in r[i]
  {
    if |s| == 0 then [""]
    else
      var rest := Split(s[1..], sep);
      if s[0] == sep then [""] + rest
      else [[s[0]] + rest[0]] + rest[1..]
  }

  /** The first piece of a split is the string up to the first separator:
      a prefix followed by the separator or by nothing. */
  lemma {:induction false} SplitFirst(s: string, sep: char)
    ensures var p := Split(s, sep)[0];
      StartsWith(s, p) && (|p| == |s| || s[|p|] == sep)
  {
    if |s| > 0 && s[0] != sep {
      var rest := Split(s[1..], sep);
      SplitFirst(s[1..], sep);
      var p := [s[0]] + rest[0];
      assert s[..|p|] == [s[0]] + s[1..][..|rest[0]|];
      assert |p| < |s| ==> s[|p|] == s[1..][|rest[0]|];
    }
  }

  /** Every character of a piece comes from the split string. */
  lemma {:induction false} SplitPieceChars(s: string, sep: char, i: nat, c: char)
    requires i < |Split(s, sep)| && c in Split(s, sep)[i]
    ensures c in s
  {
    if |s| > 0 {
      var rest := Split(s[1..], sep);
      if s[0] == sep {
        SplitPieceChars(s[1..], sep, i - 1, c);
      } else if i == 0 {
        if c != s[0] {
          SplitPieceChars(s[1..], sep, 0, c);
        }
      } else {
        SplitPieceChars(s[1..], sep, i, c);
      }
    }
  }

  /** `parts.join(sep)`. */
  function Join(parts: seq<string>, sep: string): (r: string)
  {
    if |parts| == 0 then ""
    else if |parts| == 1 then parts[0]
    else parts[0] + sep + Join(parts[1..], sep)
  }

  lemma {:induction false} JoinCons(p: string, parts: seq<string>, sep: string)
    requires |parts| >= 1
    ensures Join([p] + parts, sep) == p + sep + Join(parts, sep)
  {
    assert ([p] + parts)[1..] == parts;
  }

  /** Joining the pieces with the separator gives back the string. */
  lemma {:induction false} JoinSplit(s: string, sep: char)
    ensures Join(Split(s, sep), [sep]) == s
  {
    if |s| > 0 {
      var rest := Split(s[1..], sep);
      JoinSplit(s[1..], sep);
      if s[0] == sep {
        JoinCons("", rest, [sep]);
      } else {
        var r := [[s[0]] + rest[0]] + rest[1..];
        if |rest| == 1 {
          assert Join(r, [sep]) == [s[0]] + rest[0];
        } else {
          JoinCons([s[0]] + rest[0], rest[1..], [sep]);
          JoinCons(rest[0], rest[1..], [sep]);
          assert [rest[0]] + rest[1..] == rest;
        }
      }
    }
  }

  /** Splitting a join of separator-free pieces gives back the pieces. */
  lemma {:induction false} SplitJoin(parts: seq<string>, sep: char)
    requires |parts| >= 1
    requires forall i :: 0 <= i < |parts| ==> sep !in parts[i]
    ensures Split(Join(parts, [sep]), sep) == parts
  {
    if |parts| == 1 {
      SplitNoSeparator(parts[0], sep);
    } else {
      SplitJoin(parts[1..], sep);
      JoinCons(parts[0], parts[1..], [sep]);
      assert [parts[0]] + parts[1..] == parts;
      SplitAppend(parts[0], Join(parts[1..], [sep]), sep);
    }
  }

  lemma {:induction false} SplitNoSeparator(s: string, sep: char)
    requires sep !in s
    ensures Split(s, sep) == [s]
  {
    if |s| > 0 {
      SplitNoSeparator(s[1..], sep);
      assert [s[0]] + s[1..] == s;
    }
  }

  lemma {:induction false} SplitAppend(p: string, t: string, sep: char)
    requires sep !in p
    ensures Split(p + [sep] + t, sep) == [p] + Split(t, sep)
  {
    if |p| == 0 {
      assert p + [sep] + t == [sep] + t;
      assert ([sep] + t)[1..] == t;
    } else {
      var s := p + [sep] + t;
      assert s[1..] == p[1..] + [sep] + t;
      SplitAppend(p[1..], t, sep);
      assert [p[0]] + p[1..] == p;
    }
  }

  // ---------------------------------------------------------------------
  // Order-preserving filters

  /** `r` holds every element of `s` that passes `p` as often as `s` does,
      and nothing else: no element that fails, and nothing outside `s`. */
  ghost predicate KeepsCounts<T>(s: seq<T>, r: seq<T>, p: T -> bool) {
    && multiset(r) <= multiset(s)
    && forall i :: 0 <= i < |s| ==>
         multiset(r)[s[i]] == if p(s[i]) then multiset(s)[s[i]] else 0
  }

  /** `s.filter(p)`. */
  function Filter<T>(s: seq<T>, p: T -> bool): (r: seq<T>)
    ensures |r| <= |s|
    ensures forall i :: 0 <= i < |r| ==> r[i] in s && p(r[i])
    ensures forall i :: 0 <= i < |s| && p(s[i]) ==> s[i] in r
    ensures multiset(r) <= multiset(s)
  {
    if |s| == 0 then []
    else
      var rest := Filter(s[1..], p);
      FilterStep(s, rest, p);
      if p(s[0]) then [s[0]] + rest else rest
  }

  /** The inductive step of `Filter`: from the properties of the filtered
      tail to those of the whole. */
  lemma FilterStep<T>(s: seq<T>, rest: seq<T>, p: T -> bool)
    requires |s| > 0
    requires |rest| <= |s[1..]|
    requires forall i :: 0 <= i < |rest| ==> rest[i] in s[1..] && p(rest[i])
    requires forall i :: 0 <= i < |s[1..]| && p(s[1..][i]) ==> s[1..][i] in rest
    requires multiset(rest) <= multiset(s[1..])
    ensures var r := if p(s[0]) then [s[0]] + rest else rest;
      && |r| <= |s|
      && (forall i :: 0 <= i < |r| ==> r[i] in s && p(r[i]))
      && (forall i :: 0 <= i < |s| && p(s[i]) ==> s[i] in r)
      && multiset(r) <= multiset(s)
  {
    assert s == [s[0]] + s[1..];
    var r := if p(s[0]) then [s[0]] + rest else rest;
    forall i | 0 <= i < |s| && p(s[i])
      ensures s[i] in r
    {
      if i > 0 {
        assert s[i] == s[1..][i - 1];
      }
    }
  }

  /** One step of `Filter`: the head, if wanted, before the filtered tail. */
  lemma FilterHead<T>(t: seq<T>, p: T -> bool)
    requires |t| > 0
    ensures Filter(t, p) == (if p(t[0]) then [t[0]] else []) + Filter(t[1..], p)
  {
  }

  /** Filtering keeps every wanted element as often as it occurs and drops
      every other element entirely. */
  lemma {:induction false} FilterKeepsCounts<T>(s: seq<T>, p: T -> bool)
    ensures KeepsCounts(s, Filter(s, p), p)
  {
    if |s| > 0 {
      FilterKeepsCounts(s[1..], p);
      FilterCountStep(s, Filter(s[1..], p), p);
    }
  }

  lemma FilterCountStep<T>(s: seq<T>, rest: seq<T>, p: T -> bool)
    requires |s| > 0 && KeepsCounts(s[1..], rest, p)
    ensures KeepsCounts(s, if p(s[0]) then [s[0]] + rest else rest, p)
  {
    var t := s[1..];
    assert s == [s[0]] + t;
    assert multiset(s) == multiset{s[0]} + multiset(t);
    var r := if p(s[0]) then [s[0]] + rest else rest;
    assert multiset(r) == if p(s[0]) then multiset{s[0]} + multiset(rest) else multiset(rest);
    forall i | 0 <= i < |s|
      ensures multiset(r)[s[i]] == if p(s[i]) then multiset(s)[s[i]] else 0
    {
      var x := s[i];
      if x in t {
        var k :| 0 <= k < |t| && t[k] == x;
        assert multiset(rest)[t[k]] == if p(t[k]) then multiset(t)[t[k]] else 0;
      } else {
        assert multiset(t)[x] == 0;
      }
    }
  }

  /** A one-element list keeps its element exactly when it passes. */
  lemma FilterSingleton<T>(x: T, p: T -> bool)
    ensures Filter([x], p) == if p(x) then [x] else []
  {
    assert [x][1..] == [];
  }

  /** Filtering distributes over concatenation, so it keeps the relative
      order of the elements it keeps. */
  lemma {:induction false} FilterConcat<T>(a: seq<T>, b: seq<T>, p: T -> bool)
    ensures Filter(a + b, p) == Filter(a, p) + Filter(b, p)
  {
    if |a| > 0 {
      assert (a + b)[1..] == a[1..] + b;
      FilterConcat(a[1..], b, p);
    } else {
      assert a + b == b;
    }
  }

  /** A filter and its complement split the list: together they hold every
      element exactly as often as the list does. */
  lemma {:induction false} FilterPartition<T>(s: seq<T>, p: T -> bool, q: T -> bool)
    requires forall x :: q(x) == !p(x)
    ensures multiset(Filter(s, p)) + multiset(Filter(s, q)) == multiset(s)
    ensures |Filter(s, p)| + |Filter(s, q)| == |s|
  {
    if |s| > 0 {
      FilterPartition(s[1..], p, q);
      assert s == [s[0]] + s[1..];
    }
  }

  /** When every element passes, the filter is the identity. */
  lemma {:induction false} FilterAll<T>(s: seq<T>, p: T -> bool)
    requires forall i :: 0 <= i < |s| ==> p(s[i])
    ensures Filter(s, p) == s
  {
    if |s| > 0 {
      FilterAll(s[1..], p);
      assert s == [s[0]] + s[1..];
    }
  }

  /** Filters with predicates that agree on the list give the same result. */
  lemma {:induction false} FilterCongruent<T>(s: seq<T>, p: T -> bool, q: T -> bool)
    requires forall i :: 0 <= i < |s| ==> p(s[i]) == q(s[i])
    ensures Filter(s, p) == Filter(s, q)
  {
    if |s| > 0 {
      FilterCongruent(s[1..], p, q);
    }
  }

  /** Filtering twice keeps exactly what passes both filters, in order. */
  lemma {:induction false} FilterFilter<T>(s: seq<T>, p: T -> bool, q: T -> bool, pq: T -> bool)
    requires forall x :: pq(x) == (p(x) && q(x))
    ensures Filter(Filter(s, p), q) == Filter(s, pq)
  {
    if |s| > 0 {
      FilterFilter(s[1..], p, q, pq);
      if p(s[0]) {
        assert Filter(s, p) == [s[0]] + Filter(s[1..], p);
        assert ([s[0]] + Filter(s[1..], p))[1..] == Filter(s[1..], p);
      }
    }
  }

  /** A membership toggle on a list of names: `includes(x) ?
      filter(y => y !== x) : [...s, x]`. */
  function Toggle(s: seq<string>, x: string): (r: seq<string>)
    ensures x in r <==> x !in s
    ensures forall y :: y != x ==> (y in r <==> y in s)
    ensures x !in s ==> r == s + [x]
  {
    if x in s then Filter(s, (y: string) => y != x) else s + [x]
  }

  /** Toggling the same element twice restores membership of every
      element. */
  lemma ToggleTwice(s: seq<string>, x: string, y: string)
    ensures y in Toggle(Toggle(s, x), x) <==> y in s
  {
  }

  /** `s.indexOf(x)`: the first position holding `x`, or -1. */
  function IndexOf<T(==)>(s: seq<T>, x: T): (r: int)
    ensures -1 <= r < |s|
    ensures r == -1 <==> x !in s
    ensures r >= 0 ==> s[r] == x && x !in s[..r]
  {
    if |s| == 0 then -1
    else if s[0] == x then 0
    else
      var k := IndexOf(s[1..], x);
      assert k >= 0 ==> s[..k + 1] == [s[0]] + s[1..][..k];
      if k == -1 then -1 else k + 1
  }

  /** Number of elements satisfying `p`: `s.filter(p).length`. */
  function Count<T>(s: seq<T>, p: T -> bool): (n: nat)
    ensures n <= |s|
  {
    |Filter(s, p)|
  }

  // ---------------------------------------------------------------------
  // Decimal rendering

  function DigitChar(d: nat): (c: char)
    requires d < 10
    ensures '0' <= c <= '9'
  {
    (48 + d) as char
  }

  /** `String(n)` for a natural number. */
  function NatToString(n: nat): (r: string)
    ensures |r| >= 1
    ensures forall i :: 0 <= i < |r| ==> '0' <= r[i] <= '9'
    ensures n >= 10 ==> |r| >= 2
  {
    if n < 10 then [DigitChar(n)] else NatToString(n / 10) + [DigitChar(n % 10)]
  }

  /** The value of a string of decimal digits. */
  function DigitsValue(s: string): nat
    requires forall i :: 0 <= i < |s| ==> '0' <= s[i] <= '9'
  {
    if |s| == 0 then 0
    else DigitsValue(s[..|s| - 1]) * 10 + (s[|s| - 1] as int - 48)
  }

  /** Reading back a rendered number gives the number. */
  lemma {:induction false} DigitsValueOfNatToString(n: nat)
    ensures DigitsValue(NatToString(n)) == n
  {
    if n >= 10 {
      var s := NatToString(n);
      assert s[..|s| - 1] == NatToString(n / 10);
      DigitsValueOfNatToString(n / 10);
    }
  }

  /** Different numbers render differently. */
  lemma NatToStringInjective(a: nat, b: nat)
    requires NatToString(a) == NatToString(b)
    ensures a == b
  {
    DigitsValueOfNatToString(a);
    DigitsValueOfNatToString(b);
  }

  /** `String(i)` for an integer: a minus sign before the magnitude. */
  function IntToString(i: int): (r: string)
    ensures i >= 0 ==> r == NatToString(i)
    ensures i < 0 ==> r == "-" + NatToString(-i)
  {
    if i < 0 then "-" + NatToString(-i) else NatToString(i)
  }

  // ---------------------------------------------------------------------
  // Integer division

  function Abs(x: int): nat {
    if x < 0 then -x else x
  }

  lemma MulMonotone(k: int, a: int, b: int)
    requires k > 0 && a <= b
    ensures k * a <= k * b
  {
    assert k * b - k * a == k * (b - a);
  }

  /** Division by a positive number brackets the dividend. */
  lemma DivBounds(n: int, k: int)
    requires k > 0
    ensures k * (n / k) <= n < k * (n / k) + k
  {
  }

  /** Division is determined by any quotient and remainder in range. */
  lemma DivUnique(d: int, k: int, q: int, r: int)
    requires k > 0 && 0 <= r < k && d == k * q + r
    ensures d / k == q && d % k == r
  {
    var q' := d / k;
    var r' := d % k;
    assert d == k * q' + r';
    assert k * (q' - q) == r - r';
    if q' > q {
      MulMonotone(k, 1, q' - q);
    } else if q' < q {
      MulMonotone(k, 1, q - q');
    }
  }
}

=== FILE: comparison.dfy ===
/** The comparison modal: the two compared slots, the selectors that fill
    them, the per-metric difference and the improvement/attention split.
    JavaScript arrays may have holes; a slot is `None` when it is a hole or
    past the end. */
module Comparison {
  import opened Common
  import opened ResultsAnalysis

  /** The modal's initial pair: the first two selected experiments when at
      least two are selected, otherwise nothing. */
  function InitialPair(selected: seq<Experiment>): (r: seq<Option<Experiment>>)
    ensures |selected| >= 2 ==> r == [Some(selected[0]), Some(selected[1])]
    ensures |selected| < 2 ==> r == []
  {
    if |selected| >= 2 then [Some(selected[0]), Some(selected[1])] else []
  }

  /** The first experiment with the given id, if any. */
  function FindById(exps: seq<Experiment>, id: string): (r: Option<Experiment>)
    ensures r.None? <==> forall i :: 0 <= i < |exps| ==> exps[i].id != id
    ensures r.Some? ==> r.value.id == id && r.value in exps
    ensures r.Some? ==> exists i :: 0 <= i < |exps| && exps[i] == r.value && forall j :: 0 <= j < i ==> exps[j].id != id
  {
    if |exps| == 0 then None
    else if exps[0].id == id then Some(exps[0])
    else
      assert forall i :: 1 <= i < |exps| ==> exps[i] == exps[1..][i - 1];
      FindById(exps[1..], id)
  }

  /** `n` holes. */
  function Holes(n: nat): (r: seq<Option<Experiment>>)
    ensures |r| == n && forall i :: 0 <= i < n ==> r[i].None?
  {
    seq(n, _ => None)
  }

  /** `handleExperimentChange`: an unknown id changes nothing; a known one
      is written to slot `index`, which may lie past the end and so leave
      holes before it. */
  function ChangeSlot(slots: seq<Option<Experiment>>, exps: seq<Experiment>, index: nat, id: string): (r: seq<Option<Experiment>>)
    ensures FindById(exps, id).None? ==> r == slots
    ensures FindById(exps, id).Some? ==>
      |r| == (if index < |slots| then |slots| else index + 1)
      && r[index] == FindById(exps, id)
      && (forall j :: 0 <= j < |slots| && j != index ==> r[j] == slots[j])
      && (forall j :: |slots| <= j < index ==> r[j].None?)
  {
    match FindById(exps, id)
    case None => slots
    case Some(e) =>
      if index < |slots| then slots[index := Some(e)]
      else slots + Holes(index - |slots|) + [Some(e)]
  }

  /** The modal shows the comparison as soon as the array is two long. */
  predicate ShowsComparison(slots: seq<Option<Experiment>>) {
    |slots| >= 2
  }

  /** Choosing the second experiment first, from the empty pair, makes the
      array two long with a hole in front: the comparison opens with no
      first experiment, and every metric of that side reads NaN. */
  lemma SecondFirstOpensHalfEmpty(exps: seq<Experiment>, id: string)
    requires FindById(exps, id).Some?
    ensures var r := ChangeSlot([], exps, 1, id);
      ShowsComparison(r) && r[0].None? && !ReadyToCompare(r)
    ensures ParseMetric(ChangeSlot([], exps, 1, id)[0], "performanceScore").NaN?
  {
  }

  /** The condition the modal evidently means: both slots hold an
      experiment. */
  predicate ReadyToCompare(slots: seq<Option<Experiment>>) {
    |slots| >= 2 && slots[0].Some? && slots[1].Some?
  }

  /** Under the corrected condition the comparison opens exactly when both
      experiments have been chosen, in either order, and the chosen ones are
      the ones compared. */
  lemma ReadyAfterBothChosen(exps: seq<Experiment>, first: string, second: string)
    requires FindById(exps, first).Some? && FindById(exps, second).Some?
    ensures !ReadyToCompare(ChangeSlot([], exps, 0, first))
    ensures !ReadyToCompare(ChangeSlot([], exps, 1, second))
    ensures var r := ChangeSlot(ChangeSlot([], exps, 0, first), exps, 1, second);
      ReadyToCompare(r) && r[0] == FindById(exps, first) && r[1] == FindById(exps, second)
    ensures var r := ChangeSlot(ChangeSlot([], exps, 1, second), exps, 0, first);
      ReadyToCompare(r) && r[0] == FindById(exps, first) && r[1] == FindById(exps, second)
  {
  }

  /** The second selector's options: every experiment except the one in
      slot 0 (all of them while slot 0 is empty). */
  function SecondOptions(exps: seq<Experiment>, slots: seq<Option<Experiment>>): (r: seq<Experiment>)
    ensures |slots| > 0 && slots[0].Some? ==>
      forall e :: e in r <==> e in exps && e.id != slots[0].value.id
    ensures !(|slots| > 0 && slots[0].Some?) ==> r == exps
  {
    if |slots| > 0 && slots[0].Some? then
      var id := slots[0].value.id;
      Filter(exps, (e: Experiment) => e.id != id)
    else
      FilterAll(exps, (e: Experiment) => true);
      exps
  }

  // ---------------------------------------------------------------------
  // Differences

  /** A slot's metric as a number: NaN for an empty slot or a missing
      metric. */
  function ParseMetric(e: Option<Experiment>, key: string): (n: Number)
    ensures e.None? ==> n.NaN?
    ensures e.Some? && key !in e.value.metrics ==> n.NaN?
  {
    if e.None? || key !in e.value.metrics then NaN
    else match e.value.metrics[key]
      case NumValue(v) => Finite(v)
      case TextValue(p) => p
  }

  /** The parts of `getDifference` that are not floating-point text: the
      verdict and the `+` sign. */
  datatype Difference = Difference(isImprovement: bool, plus: bool)

  /** `getDifference(value1, value2, isLowerBetter)`. With NaN on either side
      every comparison is false. */
  function GetDifference(v1: Number, v2: Number, lowerBetter: bool): (d: Difference)
    ensures d.plus <==> v1.Finite? && v2.Finite? && v1.value > v2.value
    ensures d.isImprovement <==>
      (v1.Finite? && v2.Finite? && if lowerBetter then v1.value < v2.value else v1.value > v2.value)
  {
    if v1.NaN? || v2.NaN? then Difference(false, false)
    else
      var diff := v1.value - v2.value;
      Difference(if lowerBetter then diff < 0 else diff > 0, diff > 0)
  }

  /** Equal values are never an improvement, and the verdicts for the two
      orders of a pair of different values are opposite; a lower-is-better
      verdict is the higher-is-better verdict of the swapped pair. */
  lemma DifferenceAntisymmetric(a: int, b: int, lowerBetter: bool)
    ensures !GetDifference(Finite(a), Finite(a), lowerBetter).isImprovement
    ensures a != b ==>
      GetDifference(Finite(a), Finite(b), lowerBetter).isImprovement
      != GetDifference(Finite(b), Finite(a), lowerBetter).isImprovement
    ensures GetDifference(Finite(a), Finite(b), true).isImprovement
      == GetDifference(Finite(b), Finite(a), false).isImprovement
  {
  }

  /** One row of the metrics table. */
  datatype MetricSpec = MetricSpec(key: string, title: string, unit: string, lowerBetter: bool)

  const Metrics: seq<MetricSpec> := [
    MetricSpec("performanceScore", "Performance Score", "", false),
    MetricSpec("fcp", "First Contentful Paint", "s", true),
    MetricSpec("lcp", "Largest Contentful Paint", "s", true),
    MetricSpec("cls", "Cumulative Layout Shift", "", true),
    MetricSpec("fid", "First Input Delay", "ms", true),
    MetricSpec("loadTime", "Total Load Time", "s", true)]

  /** Only the score is higher-is-better. */
  lemma OnlyScoreHigherBetter(i: nat)
    requires i < |Metrics|
    ensures !Metrics[i].lowerBetter <==> Metrics[i].key == "performanceScore"
  {
  }

  /** The verdict for one metric of the two slots. */
  predicate Improved(slots: seq<Option<Experiment>>, m: MetricSpec) {
    var first := if |slots| > 0 then slots[0] else None;
    var second := if |slots| > 1 then slots[1] else None;
    GetDifference(ParseMetric(first, m.key), ParseMetric(second, m.key), m.lowerBetter).isImprovement
  }

  /** "Key Improvements" and "Areas for Attention". */
  function Summary(slots: seq<Option<Experiment>>): (r: (seq<MetricSpec>, seq<MetricSpec>))
    ensures forall i :: 0 <= i < |r.0| ==> Improved(slots, r.0[i])
    ensures forall i :: 0 <= i < |r.1| ==> !Improved(slots, r.1[i])
  {
    (Filter(Metrics, (m: MetricSpec) => Improved(slots, m)),
     Filter(Metrics, (m: MetricSpec) => !Improved(slots, m)))
  }

  /** The two lists partition the six metrics, each keeping the table's
      order: every metric is in exactly one of them. */
  lemma SummaryPartitions(slots: seq<Option<Experiment>>)
    ensures var r := Summary(slots);
      |r.0| + |r.1| == |Metrics| && multiset(r.0) + multiset(r.1) == multiset(Metrics)
    ensures var r := Summary(slots);
      forall m :: m in Metrics ==> (m in r.0 <==> Improved(slots, m)) && (m in r.1 <==> !Improved(slots, m))
  {
    var p := (m: MetricSpec) => Improved(slots, m);
    var q := (m: MetricSpec) => !Improved(slots, m);
    FilterPartition(Metrics, p, q);
  }
}

=== FILE: config_actions.dfy ===
/** The action bar of the configuration page: the save-template dialog, the
    reset confirmation and the apply button, as a state machine whose steps
    may emit one callback to the page. */
module ConfigActions {
  import opened Common

  datatype Dialogs = Dialogs(showSave: bool, showReset: bool, name: string, description: string)

  const InitialDialogs: Dialogs := Dialogs(false, false, "", "")

  /** A user action on the bar or in one of its dialogs. */
  datatype Event =
    | OpenSave
    | EditName(name: string)
    | EditDescription(description: string)
    | CancelSave
    | ConfirmSave
    | OpenReset
    | CancelReset
    | ConfirmReset
    | Apply

  /** The callback a step makes, if any. The save timestamp comes from the
      clock and is not modelled. */
  datatype Signal = NoSignal | SaveTemplate(name: string, description: string) | ResetDefaults | ApplyConfiguration

  /** The Save button of the dialog is disabled for a blank name. */
  predicate SaveDisabled(d: Dialogs) {
    IsBlank(d.name)
  }

  /** The Apply button is disabled for an invalid configuration. */
  predicate ApplyDisabled(valid: bool) {
    !valid
  }

  /** One step. A disabled button's click never reaches its handler. */
  function Step(d: Dialogs, e: Event, valid: bool): (r: (Dialogs, Signal))
    ensures r.1.SaveTemplate? ==> e == ConfirmSave && r.1 == SaveTemplate(d.name, d.description)
    ensures r.1 == ResetDefaults <==> e == ConfirmReset
    ensures r.1 == ApplyConfiguration <==> e == Apply && !ApplyDisabled(valid)
  {
    match e
    case OpenSave => (d.(showSave := true), NoSignal)
    case EditName(n) => (d.(name := n), NoSignal)
    case EditDescription(s) => (d.(description := s), NoSignal)
    case CancelSave => (d.(showSave := false), NoSignal)
    case ConfirmSave =>
      if IsBlank(d.name) then (d, NoSignal)
      else (d.(showSave := false, name := "", description := ""), SaveTemplate(d.name, d.description))
    case OpenReset => (d.(showReset := true), NoSignal)
    case CancelReset => (d.(showReset := false), NoSignal)
    case ConfirmReset => (d.(showReset := false), ResetDefaults)
    case Apply => (d, if valid then ApplyConfiguration else NoSignal)
  }

  /** Saving under a blank name does nothing at all; under any other name it
      hands the page the name exactly as typed with the description, closes
      the dialog and empties both fields. The save fires exactly when the
      button is enabled. */
  lemma SaveDialog(d: Dialogs, valid: bool)
    ensures SaveDisabled(d) ==> Step(d, ConfirmSave, valid) == (d, NoSignal)
    ensures !SaveDisabled(d) ==>
      Step(d, ConfirmSave, valid) == (Dialogs(false, d.showReset, "", ""), SaveTemplate(d.name, d.description))
    ensures Step(d, ConfirmSave, valid).1.SaveTemplate? <==> !SaveDisabled(d)
  {
  }

  /** Cancelling the dialog keeps what was typed: reopening shows it
      again. */
  lemma CancelKeepsText(d: Dialogs, valid: bool)
    ensures var closed := Step(d, CancelSave, valid).0;
      !closed.showSave && Step(closed, OpenSave, valid).0 == d.(showSave := true)
  {
  }

  /** Confirming the reset asks the page to reset and closes the
      confirmation; cancelling closes it without a callback. Neither touches
      the save dialog. */
  lemma ResetConfirmation(d: Dialogs, valid: bool)
    ensures Step(d, ConfirmReset, valid) == (d.(showReset := false), ResetDefaults)
    ensures Step(d, CancelReset, valid) == (d.(showReset := false), NoSignal)
  {
  }

  /** Only the three confirming events call the page; every other event
      only moves the dialogs. */
  lemma OnlyConfirmationsSignal(d: Dialogs, e: Event, valid: bool)
    requires !e.ConfirmSave? && !e.ConfirmReset? && !e.Apply?
    ensures Step(d, e, valid).1 == NoSignal
  {
  }
}

=== FILE: configuration.dfy ===
/** The experiment-configuration page: the general settings and custom
    parameter records, their defaults, the validity check, the templates
    that overlay the general settings, the panel toggles, and the unsaved
    flag. Number inputs hold what `parseInt`/`parseFloat` produced; the CPU
    multiplier is in thousandths. */
module Configuration {
  import opened Common

  datatype General = General(
    pageTimeout: Number,
    navigationTimeout: Number,
    deviceType: string,
    networkThrottling: string,
    clearCache: bool,
    disableJavaScript: bool,
    blockThirdParty: bool,
    cpuThrottling: bool)

  datatype CustomParams = CustomParams(
    cpuThrottling: string,
    customCpuMultiplier: Option<Number>,
    maxWaitForLoad: Number,
    formFactor: string,
    skipAuditsOnLoadFailure: bool,
    gatherModeOnly: bool,
    disableStorageReset: bool,
    enableErrorReporting: bool,
    generateHtmlReport: bool,
    generateJsonReport: bool,
    includeScreenshots: bool,
    outputDirectory: string,
    filenamePrefix: string,
    customFlags: string)

  const DefaultGeneral: General :=
    General(Finite(30), Finite(60), "desktop", "none", true, false, false, false)

  const DefaultCustom: CustomParams :=
    CustomParams("1", None, Finite(45000), "desktop", false, false, false, true, true, true, true,
      "./lighthouse-reports", "lighthouse", "")

  /** `isValidConfiguration`: a page timeout of at least 10 s, a navigation
      timeout of at least 30 s and a load wait of at least 1000 ms. NaN
      fails every comparison. */
  predicate IsValid(g: General, c: CustomParams) {
    && g.pageTimeout.Finite? && g.pageTimeout.value >= 10
    && g.navigationTimeout.Finite? && g.navigationTimeout.value >= 30
    && c.maxWaitForLoad.Finite? && c.maxWaitForLoad.value >= 1000
  }

  /** The defaults are a valid configuration, and each of the three bounds
      is needed: lowering any one value below its bound makes the
      configuration invalid. */
  lemma DefaultsValid(n: int)
    ensures IsValid(DefaultGeneral, DefaultCustom)
    ensures n < 10 ==> !IsValid(DefaultGeneral.(pageTimeout := Finite(n)), DefaultCustom)
    ensures n < 30 ==> !IsValid(DefaultGeneral.(navigationTimeout := Finite(n)), DefaultCustom)
    ensures n < 1000 ==> !IsValid(DefaultGeneral, DefaultCustom.(maxWaitForLoad := Finite(n)))
    ensures !IsValid(DefaultGeneral.(pageTimeout := NaN), DefaultCustom)
  {
  }

  // ---------------------------------------------------------------------
  // Templates

  /** The part of the general settings a template sets; absent keys are
      left alone by the spread. */
  datatype TemplateSettings = TemplateSettings(
    deviceType: Option<string>,
    networkThrottling: Option<string>,
    pageTimeout: Option<int>,
    clearCache: Option<bool>,
    disableJavaScript: Option<bool>,
    blockThirdParty: Option<bool>)

  datatype Template = Template(id: int, name: string, experiments: seq<string>, settings: TemplateSettings)

  function Pick<T>(o: Option<T>, current: T): T {
    if o.Some? then o.value else current
  }

  /** The general settings with every field the template sets taken from
      the template. */
  function Overlay(g: General, t: TemplateSettings): (r: General)
    ensures t.deviceType.Some? ==> r.deviceType == t.deviceType.value
    ensures t.deviceType.None? ==> r.deviceType == g.deviceType
    ensures t.networkThrottling.Some? ==> r.networkThrottling == t.networkThrottling.value
    ensures t.networkThrottling.None? ==> r.networkThrottling == g.networkThrottling
    ensures t.pageTimeout.Some? ==> r.pageTimeout == Finite(t.pageTimeout.value)
    ensures t.pageTimeout.None? ==> r.pageTimeout == g.pageTimeout
    ensures t.clearCache.Some? ==> r.clearCache == t.clearCache.value
    ensures t.clearCache.None? ==> r.clearCache == g.clearCache
    ensures t.disableJavaScript.Some? ==> r.disableJavaScript == t.disableJavaScript.value
    ensures t.disableJavaScript.None? ==> r.disableJavaScript == g.disableJavaScript
    ensures t.blockThirdParty.Some? ==> r.blockThirdParty == t.blockThirdParty.value
    ensures t.blockThirdParty.None? ==> r.blockThirdParty == g.blockThirdParty
    ensures r.navigationTimeout == g.navigationTimeout && r.cpuThrottling == g.cpuThrottling
  {
    General(
      if t.pageTimeout.Some? then Finite(t.pageTimeout.value) else g.pageTimeout,
      g.navigationTimeout,
      Pick(t.deviceType, g.deviceType),
      Pick(t.networkThrottling, g.networkThrottling),
      Pick(t.clearCache, g.clearCache),
      Pick(t.disableJavaScript, g.disableJavaScript),
      Pick(t.blockThirdParty, g.blockThirdParty),
      g.cpuThrottling)
  }

  /** Applying a template twice is applying it once, and a later template
      wins on the keys both set. */
  lemma OverlayIdempotent(g: General, t: TemplateSettings, u: TemplateSettings)
    ensures Overlay(Overlay(g, t), t) == Overlay(g, t)
    ensures u.pageTimeout.Some? ==> Overlay(Overlay(g, t), u).pageTimeout == Finite(u.pageTimeout.value)
  {
  }

  /** The four built-in templates. */
  const Templates: seq<Template> := [
    Template(1, "Mobile Performance Audit", ["baseline", "no-js", "block-third-party", "block-render-blocking"],
      TemplateSettings(Some("mobile"), Some("slow-3g"), Some(45), Some(true), None, None)),
    Template(2, "Desktop Optimization Test", ["baseline", "block-unused", "first-party-only"],
      TemplateSettings(Some("desktop"), Some("none"), Some(30), Some(true), None, None)),
    Template(3, "Third-party Impact Analysis", ["baseline", "block-third-party", "first-party-only"],
      TemplateSettings(Some("desktop"), Some("fast-3g"), Some(60), None, None, Some(true))),
    Template(4, "JavaScript Dependency Test", ["baseline", "no-js"],
      TemplateSettings(Some("mobile"), Some("slow-3g"), Some(30), None, Some(true), None))]

  /** Every built-in template sets a page timeout of at least 10 s, so
      applying one to a configuration with valid navigation and load-wait
      values yields a valid configuration, even from a NaN page timeout. */
  lemma TemplatesKeepValid(g: General, c: CustomParams, i: nat)
    requires i < |Templates|
    requires g.navigationTimeout.Finite? && g.navigationTimeout.value >= 30
    requires c.maxWaitForLoad.Finite? && c.maxWaitForLoad.value >= 1000
    ensures IsValid(Overlay(g, Templates[i].settings), c)
  {
  }

  // ---------------------------------------------------------------------
  // Page state

  datatype PanelName = GeneralPanel | TemplatesPanel | CustomPanel

  datatype Panels = Panels(general: bool, templates: bool, custom: bool)

  const InitialPanels: Panels := Panels(true, false, false)

  /** `togglePanel`: one flag flipped. */
  function TogglePanel(p: Panels, name: PanelName): (r: Panels)
    ensures name == GeneralPanel ==> r == p.(general := !p.general)
    ensures name == TemplatesPanel ==> r == p.(templates := !p.templates)
    ensures name == CustomPanel ==> r == p.(custom := !p.custom)
  {
    match name
    case GeneralPanel => p.(general := !p.general)
    case TemplatesPanel => p.(templates := !p.templates)
    case CustomPanel => p.(custom := !p.custom)
  }

  /** Whether a panel is open. */
  function IsOpen(p: Panels, name: PanelName): bool {
    match name
    case GeneralPanel => p.general
    case TemplatesPanel => p.templates
    case CustomPanel => p.custom
  }

  /** Toggling flips the named panel only, and twice restores it. */
  lemma TogglePanelFlipsOne(p: Panels, name: PanelName, other: PanelName)
    ensures IsOpen(TogglePanel(p, name), name) == !IsOpen(p, name)
    ensures other != name ==> IsOpen(TogglePanel(p, name), other) == IsOpen(p, other)
    ensures TogglePanel(TogglePanel(p, name), name) == p
  {
  }

  datatype Page = Page(
    general: General,
    custom: CustomParams,
    panels: Panels,
    unsaved: bool,
    selectedTemplate: Option<int>)

  /** The page's effect on its two records: whenever a handler puts a new
      record object in place, the effect marks the page unsaved after the
      render. Saving and applying replace no record. The effect also runs
      once after the first render (see `Mount`). */
  function AfterEffect(p: Page, replaced: bool): (r: Page)
    ensures replaced ==> r == p.(unsaved := true)
    ensures !replaced ==> r == p
  {
    if replaced then p.(unsaved := true) else p
  }

  /** The state the page starts from: the default records, the general
      panel open, no template and the flag false. */
  const InitialPage: Page := Page(DefaultGeneral, DefaultCustom, InitialPanels, false, None)

  /** Mounting: the effect runs after the first render as after any other,
      so the page comes up marked unsaved while holding the defaults. */
  function Mount(): (r: Page)
    ensures r.unsaved
    ensures r.general == DefaultGeneral && r.custom == DefaultCustom && IsValid(r.general, r.custom)
    ensures r.panels == InitialPanels && r.selectedTemplate.None?
  {
    AfterEffect(InitialPage, true)
  }

  /** The page as loaded is the page after a reset as written: both hold the
      defaults and both report unsaved changes, whatever came before the
      reset except for the panels and the selected template. */
  lemma LoadLikeReset(p: Page)
    requires p.panels == InitialPanels && p.selectedTemplate.None?
    ensures Mount() == ResetAsWritten(p)
    ensures Mount() == ResetDefaults(p).(unsaved := true)
  {
  }

  /** `handleTemplateSelect`: the template is remembered and overlaid; the
      custom parameters stay. */
  function SelectTemplate(p: Page, t: Template): (r: Page)
    ensures r.general == Overlay(p.general, t.settings) && r.custom == p.custom
    ensures r.selectedTemplate == Some(t.id) && r.unsaved && r.panels == p.panels
  {
    AfterEffect(p.(selectedTemplate := Some(t.id), general := Overlay(p.general, t.settings)), true)
  }

  /** `handleSaveTemplate` and `handleApplyConfiguration`: a toast and a
      cleared unsaved flag; no setting changes. */
  function SaveOrApply(p: Page): (r: Page)
    ensures !r.unsaved
    ensures r.(unsaved := p.unsaved) == p
  {
    AfterEffect(p.(unsaved := false), false)
  }

  /** `handleResetDefaults` as written: both records are replaced and the
      flag cleared, but the new records trigger the effect, which sets the
      flag again. */
  function ResetAsWritten(p: Page): (r: Page)
    ensures r.general == DefaultGeneral && r.custom == DefaultCustom
  {
    AfterEffect(p.(general := DefaultGeneral, custom := DefaultCustom, unsaved := false), true)
  }

  /** The reset's `setHasUnsavedChanges(false)` never shows: after the
      effect the page reports unsaved changes, even though it holds exactly
      the defaults. */
  lemma ResetLeavesUnsaved(p: Page)
    ensures ResetAsWritten(p).unsaved
    ensures ResetAsWritten(p) == ResetDefaults(p).(unsaved := true)
  {
  }

  /** The reset as evidently intended: both records back to exactly the
      defaults, a valid configuration, nothing unsaved, panels and selected
      template untouched; resetting twice is resetting once. */
  function ResetDefaults(p: Page): (r: Page)
    ensures r.general == DefaultGeneral && r.custom == DefaultCustom && IsValid(r.general, r.custom)
    ensures !r.unsaved
    ensures r.panels == p.panels && r.selectedTemplate == p.selectedTemplate
  {
    p.(general := DefaultGeneral, custom := DefaultCustom, unsaved := false)
  }

  lemma ResetIdempotent(p: Page)
    ensures ResetDefaults(ResetDefaults(p)) == ResetDefaults(p)
  {
  }
}

=== FILE: custom_params.dfy ===
/** The custom parameters panel: one-field updates, the validation map, the
    custom-flags text and the preset flags. `JSON.parse` and
    `JSON.stringify` are the parameters `parse` (the object's keys and
    values, or `None` when it throws) and `stringify`. */
module CustomParameters {
  import opened Common
  import opened Configuration

  /** The validation messages present: "Must be at least 1000ms", "Must be
      at least 1x", "Invalid JSON format". */
  datatype Errors = Errors(maxWaitForLoad: bool, customCpuMultiplier: bool, customFlags: bool)

  const NoErrors: Errors := Errors(false, false, false)

  /** `validateParameters`: a fresh map. A value of 0 or NaN is falsy and
      so never reported. */
  function Validate(c: CustomParams): (e: Errors)
    ensures e.maxWaitForLoad <==> Truthy(c.maxWaitForLoad) && c.maxWaitForLoad.value < 1000
    ensures e.customCpuMultiplier <==>
      c.customCpuMultiplier.Some? && Truthy(c.customCpuMultiplier.value) && c.customCpuMultiplier.value.value < 1000
    ensures !e.customFlags
  {
    Errors(
      Truthy(c.maxWaitForLoad) && c.maxWaitForLoad.value < 1000,
      c.customCpuMultiplier.Some? && Truthy(c.customCpuMultiplier.value) && c.customCpuMultiplier.value.value < 1000,
      false)
  }

  /** A load wait of 0 or NaN raises no error in the panel, yet it makes
      the page's configuration invalid. */
  lemma FalsyWaitUnreported(g: General, c: CustomParams)
    requires !Truthy(c.maxWaitForLoad)
    ensures !Validate(c).maxWaitForLoad
    ensures !IsValid(g, c)
  {
  }

  /** One `handleParameterChange(field, value)` call. */
  datatype ParamChange =
    | SetCpuThrottling(s: string)
    | SetCustomCpuMultiplier(n: Number)
    | SetMaxWaitForLoad(n: Number)
    | SetFormFactor(s: string)
    | SetSkipAuditsOnLoadFailure(b: bool)
    | SetGatherModeOnly(b: bool)
    | SetDisableStorageReset(b: bool)
    | SetEnableErrorReporting(b: bool)
    | SetGenerateHtmlReport(b: bool)
    | SetGenerateJsonReport(b: bool)
    | SetIncludeScreenshots(b: bool)
    | SetOutputDirectory(s: string)
    | SetFilenamePrefix(s: string)
    | SetCustomFlags(s: string)

  function ApplyParam(c: CustomParams, ch: ParamChange): CustomParams {
    match ch
    case SetCpuThrottling(s) => c.(cpuThrottling := s)
    case SetCustomCpuMultiplier(n) => c.(customCpuMultiplier := Some(n))
    case SetMaxWaitForLoad(n) => c.(maxWaitForLoad := n)
    case SetFormFactor(s) => c.(formFactor := s)
    case SetSkipAuditsOnLoadFailure(b) => c.(skipAuditsOnLoadFailure := b)
    case SetGatherModeOnly(b) => c.(gatherModeOnly := b)
    case SetDisableStorageReset(b) => c.(disableStorageReset := b)
    case SetEnableErrorReporting(b) => c.(enableErrorReporting := b)
    case SetGenerateHtmlReport(b) => c.(generateHtmlReport := b)
    case SetGenerateJsonReport(b) => c.(generateJsonReport := b)
    case SetIncludeScreenshots(b) => c.(includeScreenshots := b)
    case SetOutputDirectory(s) => c.(outputDirectory := s)
    case SetFilenamePrefix(s) => c.(filenamePrefix := s)
    case SetCustomFlags(s) => c.(customFlags := s)
  }

  /** The fields of the record. */
  datatype Field = CpuThrottlingField | CpuMultiplierField | MaxWaitField | FormFactorField
                 | SkipAuditsField | GatherModeField | StorageResetField | ErrorReportingField
                 | HtmlReportField | JsonReportField | ScreenshotsField | OutputDirectoryField
                 | FilenamePrefixField | CustomFlagsField

  /** The fields in which two records differ. */
  function Differing(a: CustomParams, b: CustomParams): set<Field> {
    (if a.cpuThrottling != b.cpuThrottling then {CpuThrottlingField} else {})
    + (if a.customCpuMultiplier != b.customCpuMultiplier then {CpuMultiplierField} else {})
    + (if a.maxWaitForLoad != b.maxWaitForLoad then {MaxWaitField} else {})
    + (if a.formFactor != b.formFactor then {FormFactorField} else {})
    + (if a.skipAuditsOnLoadFailure != b.skipAuditsOnLoadFailure then {SkipAuditsField} else {})
    + (if a.gatherModeOnly != b.gatherModeOnly then {GatherModeField} else {})
    + (if a.disableStorageReset != b.disableStorageReset then {StorageResetField} else {})
    + (if a.enableErrorReporting != b.enableErrorReporting then {ErrorReportingField} else {})
    + (if a.generateHtmlReport != b.generateHtmlReport then {HtmlReportField} else {})
    + (if a.generateJsonReport != b.generateJsonReport then {JsonReportField} else {})
    + (if a.includeScreenshots != b.includeScreenshots then {ScreenshotsField} else {})
    + (if a.outputDirectory != b.outputDirectory then {OutputDirectoryField} else {})
    + (if a.filenamePrefix != b.filenamePrefix then {FilenamePrefixField} else {})
    + (if a.customFlags != b.customFlags then {CustomFlagsField} else {})
  }

  function Target(ch: ParamChange): Field {
    match ch
    case SetCpuThrottling(_) => CpuThrottlingField
    case SetCustomCpuMultiplier(_) => CpuMultiplierField
    case SetMaxWaitForLoad(_) => MaxWaitField
    case SetFormFactor(_) => FormFactorField
    case SetSkipAuditsOnLoadFailure(_) => SkipAuditsField
    case SetGatherModeOnly(_) => GatherModeField
    case SetDisableStorageReset(_) => StorageResetField
    case SetEnableErrorReporting(_) => ErrorReportingField
    case SetGenerateHtmlReport(_) => HtmlReportField
    case SetGenerateJsonReport(_) => JsonReportField
    case SetIncludeScreenshots(_) => ScreenshotsField
    case SetOutputDirectory(_) => OutputDirectoryField
    case SetFilenamePrefix(_) => FilenamePrefixField
    case SetCustomFlags(_) => CustomFlagsField
  }

  /** The panel's own state: the flags text box and the validation map. */
  datatype Panel = Panel(flagsText: string, errors: Errors)

  /** What a handler leaves: the panel, and the record handed to the page
      if any. */
  datatype Outcome = Outcome(panel: Panel, forwarded: Option<CustomParams>)

  /** `handleParameterChange`: the record with one field replaced is
      validated afresh and handed to the page. */
  function HandleParameterChange(p: Panel, c: CustomParams, ch: ParamChange): (o: Outcome)
    ensures o.forwarded.Some? && o.forwarded.value == ApplyParam(c, ch)
    ensures o.panel == p.(errors := Validate(o.forwarded.value))
  {
    var updated := ApplyParam(c, ch);
    Outcome(p.(errors := Validate(updated)), Some(updated))
  }

  /** Each change replaces its own field and keeps every other one. */
  lemma ChangeTouchesOneField(c: CustomParams, ch: ParamChange)
    ensures Differing(c, ApplyParam(c, ch)) <= {Target(ch)}
  {
    match ch
    case SetCpuThrottling(_) =>
    case SetCustomCpuMultiplier(_) =>
    case SetMaxWaitForLoad(_) =>
    case SetFormFactor(_) =>
    case SetSkipAuditsOnLoadFailure(_) =>
    case SetGatherModeOnly(_) =>
    case SetDisableStorageReset(_) =>
    case SetEnableErrorReporting(_) =>
    case SetGenerateHtmlReport(_) =>
    case SetGenerateJsonReport(_) =>
    case SetIncludeScreenshots(_) =>
    case SetOutputDirectory(_) =>
    case SetFilenamePrefix(_) =>
    case SetCustomFlags(_) =>
  }

  /** Validation replaces the whole map: a change that leaves a valid record
      clears every earlier error, a JSON error included. */
  lemma ValidUpdateClearsErrors(p: Panel, c: CustomParams, ch: ParamChange)
    requires var u := ApplyParam(c, ch);
      !(Truthy(u.maxWaitForLoad) && u.maxWaitForLoad.value < 1000)
      && !(u.customCpuMultiplier.Some? && Truthy(u.customCpuMultiplier.value) && u.customCpuMultiplier.value.value < 1000)
    ensures HandleParameterChange(p, c, ch).panel.errors == NoErrors
  {
  }

  /** `handleCustomFlagsChange`: the text box always takes the value. Blank
      or parseable text is forwarded like any other field; other text only
      adds the JSON error to the current map and is not forwarded. */
  function HandleCustomFlagsChange(p: Panel, c: CustomParams, value: string,
                                   parse: string -> Option<map<string, string>>): (o: Outcome)
    ensures o.panel.flagsText == value
    ensures IsBlank(value) || parse(value).Some? ==>
      o.forwarded == Some(c.(customFlags := value)) && o.panel.errors == Validate(c.(customFlags := value))
    ensures !IsBlank(value) && parse(value).None? ==>
      o.forwarded.None? && o.panel.errors == p.errors.(customFlags := true)
  {
    if !IsBlank(value) && parse(value).None? then
      Outcome(Panel(value, p.errors.(customFlags := true)), None)
    else
      var o := HandleParameterChange(p, c, SetCustomFlags(value));
      o.(panel := o.panel.(flagsText := value))
  }

  /** The current flags merged with a preset: on a shared key the preset's
      value wins. */
  function Merge(current: map<string, string>, flag: map<string, string>): (r: map<string, string>)
    ensures r.Keys == current.Keys + flag.Keys
    ensures forall k :: k in flag ==> r[k] == flag[k]
    ensures forall k :: k in current && k !in flag ==> r[k] == current[k]
  {
    current + flag
  }

  /** `addPresetFlag`: an empty text box counts as `{}`; text that does not
      parse leaves everything as it was. */
  function AddPresetFlag(p: Panel, c: CustomParams, flag: map<string, string>,
                         parse: string -> Option<map<string, string>>,
                         stringify: map<string, string> -> string): (o: Outcome)
    ensures var current := if p.flagsText == "" then Some(map[]) else parse(p.flagsText);
      && (current.None? ==> o == Outcome(p, None))
      && (current.Some? ==>
            var text := stringify(Merge(current.value, flag));
            o.panel.flagsText == text && o.forwarded == Some(c.(customFlags := text)))
  {
    var current := if p.flagsText == "" then Some(map[]) else parse(p.flagsText);
    match current
    case None => Outcome(p, None)
    case Some(m) =>
      var text := stringify(Merge(m, flag));
      var o := HandleParameterChange(p, c, SetCustomFlags(text));
      o.(panel := o.panel.(flagsText := text))
  }

  /** Adding a preset to an empty box, or to text holding the preset's keys
      already, forwards text whose parse (when `parse` reads back what
      `stringify` writes) holds the preset's values. */
  lemma PresetRoundTrip(p: Panel, c: CustomParams, flag: map<string, string>,
                        parse: string -> Option<map<string, string>>,
                        stringify: map<string, string> -> string)
    requires p.flagsText == "" || parse(p.flagsText).Some?
    requires forall m :: parse(stringify(m)) == Some(m)
    ensures var o := AddPresetFlag(p, c, flag, parse, stringify);
      o.forwarded.Some? && parse(o.forwarded.value.customFlags).Some?
      && forall k :: k in flag ==>
           k in parse(o.forwarded.value.customFlags).value && parse(o.forwarded.value.customFlags).value[k] == flag[k]
  {
  }
}

=== FILE: dashboard.dfy ===
/** The dashboard's single-URL run: starting a suite of six experiments,
    the queue of runs, cancelling, clearing, pausing, and the state once the
    simulated run has finished. The random steps by which the interval
    advances the experiments are not modelled; `FinishRun` is the state
    after its last tick, and a `Session` records which intervals are still
    scheduled. `Date.now()` is the parameter `now`. */
module Dashboard {
  import opened Common

  datatype ExperimentStatus = Pending | Running | Completed

  /** One experiment of the suite. */
  datatype Experiment = Experiment(id: string, status: ExperimentStatus, progress: int, estimatedTime: Option<string>)

  /** One entry of the run queue. */
  datatype QueueItem = QueueItem(id: int, url: string, status: string, progress: int, estimatedTime: string)

  /** The header's view of the run. */
  datatype HeaderState = HeaderState(isRunning: bool, progress: int)

  datatype Home = Home(
    experiments: seq<Experiment>,
    isRunning: bool,
    currentUrl: string,
    queue: seq<QueueItem>,
    isPaused: bool,
    header: HeaderState)

  const InitialHome: Home := Home([], false, "", [], false, HeaderState(false, 0))

  /** The six experiment types, in the order the suite runs them. */
  const SuiteTypes: seq<string> := [
    "baseline", "js-disabled", "third-party-blocked",
    "render-blocking-eliminated", "unused-resources-blocked", "first-party-only"]

  predicate Reset(e: Experiment) {
    e.status == Pending && e.progress == 0 && e.estimatedTime.None?
  }

  /** The suite before it runs: one pending experiment per type. */
  function InitialExperiments(): (r: seq<Experiment>)
    ensures |r| == 6
    ensures forall i :: 0 <= i < 6 ==> r[i].id == SuiteTypes[i] && Reset(r[i])
  {
    seq(6, i requires 0 <= i < 6 => Experiment(SuiteTypes[i], Pending, 0, None))
  }

  /** `handleStartExperiment`. The new run goes in front of the queue,
      running at 0%; the earlier entries follow unchanged. */
  function StartExperiment(h: Home, url: string, now: int): (r: Home)
    ensures r.currentUrl == url && r.isRunning && r.header == HeaderState(true, 0)
    ensures r.experiments == InitialExperiments()
    ensures |r.queue| == |h.queue| + 1 && r.queue[1..] == h.queue
    ensures r.queue[0] == QueueItem(now, url, "running", 0, "15-20 min")
    ensures r.isPaused == h.isPaused
  {
    Home(InitialExperiments(), true, url, [QueueItem(now, url, "running", 0, "15-20 min")] + h.queue,
      h.isPaused, HeaderState(true, 0))
  }

  /** The queue without the entries carrying `id`. */
  function RemoveQueued(queue: seq<QueueItem>, id: int): (r: seq<QueueItem>)
    ensures forall i :: 0 <= i < |r| ==> r[i].id != id && r[i] in queue
    ensures forall i :: 0 <= i < |queue| && queue[i].id != id ==> queue[i] in r
    ensures multiset(r) <= multiset(queue)
    ensures forall i :: 0 <= i < |queue| ==>
      multiset(r)[queue[i]] == if queue[i].id == id then 0 else multiset(queue)[queue[i]]
  {
    FilterKeepsCounts(queue, (q: QueueItem) => q.id != id);
    Filter(queue, (q: QueueItem) => q.id != id)
  }

  /** Removal works entry by entry, in order: the queue without the
      entries carrying `id`, every other entry where it was. */
  lemma RemoveQueuedKeepsOrder(a: seq<QueueItem>, b: seq<QueueItem>, id: int, x: QueueItem)
    ensures RemoveQueued(a + b, id) == RemoveQueued(a, id) + RemoveQueued(b, id)
    ensures RemoveQueued([x], id) == if x.id == id then [] else [x]
  {
    FilterConcat(a, b, (q: QueueItem) => q.id != id);
    FilterSingleton(x, (q: QueueItem) => q.id != id);
  }

  /** The completion branch of the simulation: the run is over, the header
      shows 100% and the run's queue entry goes. */
  function FinishRun(h: Home, queueId: int): (r: Home)
    ensures !r.isRunning && r.header == HeaderState(false, 100)
    ensures r.queue == RemoveQueued(h.queue, queueId)
    ensures r.experiments == h.experiments && r.currentUrl == h.currentUrl
  {
    h.(isRunning := false, header := HeaderState(false, 100), queue := RemoveQueued(h.queue, queueId))
  }

  /** Every experiment back to pending at 0% with no estimate. */
  function ResetAll(experiments: seq<Experiment>): (r: seq<Experiment>)
    ensures |r| == |experiments|
    ensures forall i :: 0 <= i < |r| ==> r[i].id == experiments[i].id && Reset(r[i])
  {
    seq(|experiments|, i requires 0 <= i < |experiments| =>
      experiments[i].(status := Pending, progress := 0, estimatedTime := None))
  }

  /** `handleCancelExperiment`: the entry goes in any case; when a run is
      active it also stops and its experiments are reset. */
  function CancelExperiment(h: Home, queueId: int): (r: Home)
    ensures r.queue == RemoveQueued(h.queue, queueId)
    ensures h.isRunning ==>
      !r.isRunning && r.header == HeaderState(false, 0) && r.experiments == ResetAll(h.experiments)
    ensures !h.isRunning ==> r == h.(queue := RemoveQueued(h.queue, queueId))
  {
    var h1 := h.(queue := RemoveQueued(h.queue, queueId));
    if h.isRunning then
      h1.(isRunning := false, header := HeaderState(false, 0), experiments := ResetAll(h.experiments))
    else h1
  }

  /** `handleClearQueue`. */
  function ClearQueue(h: Home): (r: Home)
    ensures r.queue == [] && r.experiments == [] && !r.isRunning && r.header == HeaderState(false, 0)
    ensures r.isPaused == h.isPaused && r.currentUrl == h.currentUrl
  {
    h.(queue := [], isRunning := false, header := HeaderState(false, 0), experiments := [])
  }

  /** `handlePauseQueue`: only the flag changes. */
  function PauseQueue(h: Home): (r: Home)
    ensures r.isPaused != h.isPaused
    ensures r.(isPaused := h.isPaused) == h
  {
    h.(isPaused := !h.isPaused)
  }

  /** The title of the pause toast names the state being left. */
  function PauseToastTitle(h: Home): (t: string)
    ensures h.isPaused ==> t == "Queue Resumed"
    ensures !h.isPaused ==> t == "Queue Paused"
  {
    if h.isPaused then "Queue Resumed" else "Queue Paused"
  }

  /** Pausing twice restores the state. */
  lemma PauseTwice(h: Home)
    ensures PauseQueue(PauseQueue(h)) == h
  {
  }

  /** A run started with a fresh id and then finished leaves the queue as it
      was before the start. */
  lemma StartThenFinish(h: Home, url: string, now: int)
    requires forall i :: 0 <= i < |h.queue| ==> h.queue[i].id != now
    ensures FinishRun(StartExperiment(h, url, now), now).queue == h.queue
    ensures FinishRun(StartExperiment(h, url, now), now).header == HeaderState(false, 100)
  {
    var item := QueueItem(now, url, "running", 0, "15-20 min");
    var p := (q: QueueItem) => q.id != now;
    FilterConcat([item], h.queue, p);
    FilterAll(h.queue, p);
  }

  /** A run started with a fresh id and then cancelled leaves the queue as it
      was, the run stopped and all six experiments reset. */
  lemma StartThenCancel(h: Home, url: string, now: int)
    requires forall i :: 0 <= i < |h.queue| ==> h.queue[i].id != now
    ensures var r := CancelExperiment(StartExperiment(h, url, now), now);
      && r.queue == h.queue && !r.isRunning && r.header == HeaderState(false, 0)
      && |r.experiments| == 6
      && forall i :: 0 <= i < 6 ==> r.experiments[i].id == SuiteTypes[i] && Reset(r.experiments[i])
  {
    var item := QueueItem(now, url, "running", 0, "15-20 min");
    var p := (q: QueueItem) => q.id != now;
    FilterConcat([item], h.queue, p);
    FilterAll(h.queue, p);
  }

  /** Cancelling an id that is not queued while nothing runs changes
      nothing. */
  lemma CancelAbsentIdle(h: Home, queueId: int)
    requires !h.isRunning
    requires forall i :: 0 <= i < |h.queue| ==> h.queue[i].id != queueId
    ensures CancelExperiment(h, queueId) == h
  {
    FilterAll(h.queue, (q: QueueItem) => q.id != queueId);
  }

  // ---------------------------------------------------------------------
  // The progress interval

  /** The page together with the queue ids of the progress intervals that
      are still scheduled. Each start schedules one; only its own completion
      branch clears it. */
  datatype Session = Session(home: Home, intervals: seq<int>)

  /** `handleStartExperiment` with the interval it schedules. */
  function StartSession(s: Session, url: string, now: int): (r: Session)
    ensures r.home == StartExperiment(s.home, url, now)
    ensures now in r.intervals
    ensures forall i :: 0 <= i < |s.intervals| ==> s.intervals[i] in r.intervals
  {
    Session(StartExperiment(s.home, url, now), s.intervals + [now])
  }

  /** The interval's completion branch for run `queueId`: when that interval
      is still scheduled it stops itself and finishes the run (the page also
      toasts 'All Experiments Completed'); a cleared interval never ticks. */
  function CompleteTick(s: Session, queueId: int): (r: Session)
    ensures queueId in s.intervals ==> r.home == FinishRun(s.home, queueId) && queueId !in r.intervals
    ensures queueId !in s.intervals ==> r == s
  {
    if queueId in s.intervals then
      Session(FinishRun(s.home, queueId), Filter(s.intervals, (q: int) => q != queueId))
    else s
  }

  /** `handleCancelExperiment` as written: the interval stays scheduled. */
  function CancelLeavingInterval(s: Session, queueId: int): (r: Session)
    ensures r.home == CancelExperiment(s.home, queueId)
    ensures r.intervals == s.intervals
  {
    Session(CancelExperiment(s.home, queueId), s.intervals)
  }

  /** `handleClearQueue` as written: every interval stays scheduled. */
  function ClearLeavingIntervals(s: Session): (r: Session)
    ensures r.home == ClearQueue(s.home)
    ensures r.intervals == s.intervals
  {
    Session(ClearQueue(s.home), s.intervals)
  }

  /** A cancelled run still completes: after start and cancel the header
      reads not running at 0 and the six experiments are pending under
      the ids the interval looks up, so it keeps advancing them, and its
      completion branch then reports the cancelled run as done at 100%. */
  lemma CancelledRunStillCompletes(s: Session, url: string, now: int)
    requires forall i :: 0 <= i < |s.home.queue| ==> s.home.queue[i].id != now
    ensures var c := CancelLeavingInterval(StartSession(s, url, now), now);
      && c.home.header == HeaderState(false, 0)
      && now in c.intervals
      && (forall i :: 0 <= i < 6 ==> c.home.experiments[i].id == SuiteTypes[i])
      && CompleteTick(c, now).home.header == HeaderState(false, 100)
  {
  }

  /** After a clear the intervals are still scheduled, but there is no
      experiment left for them to advance, so they never reach their
      completion branch. */
  lemma ClearedRunKeepsTicking(s: Session, url: string, now: int)
    ensures var c := ClearLeavingIntervals(StartSession(s, url, now));
      now in c.intervals && c.home.experiments == []
  {
  }

  /** Cancelling that also clears the run's interval. */
  function CancelStoppingInterval(s: Session, queueId: int): (r: Session)
    ensures r.home == CancelExperiment(s.home, queueId)
    ensures queueId !in r.intervals
    ensures forall i :: 0 <= i < |s.intervals| && s.intervals[i] != queueId ==> s.intervals[i] in r.intervals
  {
    Session(CancelExperiment(s.home, queueId), Filter(s.intervals, (q: int) => q != queueId))
  }

  /** Clearing that also clears every interval. */
  function ClearStoppingIntervals(s: Session): (r: Session)
    ensures r.home == ClearQueue(s.home)
    ensures r.intervals == []
  {
    Session(ClearQueue(s.home), [])
  }

  /** With the interval cleared, a cancelled run stays cancelled: no
      completion can follow, the header keeps reading not running at 0. */
  lemma CancelStopsRun(s: Session, url: string, now: int)
    requires forall i :: 0 <= i < |s.home.queue| ==> s.home.queue[i].id != now
    ensures var c := CancelStoppingInterval(StartSession(s, url, now), now);
      && c.home.header == HeaderState(false, 0)
      && CompleteTick(c, now) == c
  {
  }

  /** With every interval cleared, no run can complete after a clear. */
  lemma ClearStopsRuns(s: Session, queueId: int)
    ensures var c := ClearStoppingIntervals(s);
      CompleteTick(c, queueId) == c && c.home.header == HeaderState(false, 0)
  {
  }
}

=== FILE: date_range.dfy ===
/** The date range selector of the historical trends page: a select of
    predefined ranges, a custom start/end form and three quick actions. The
    selector notifies the page of a chosen range; the dates are the text of
    the two date inputs. */
module DateRange {
  import opened Common

  /** What the page is told. */
  datatype Notice = Predefined(value: string) | Custom(startDate: string, endDate: string)

  datatype Selector = Selector(startDate: string, endDate: string, showCustom: bool)

  const InitialSelector: Selector := Selector("", "", false)

  /** The select's values. */
  const RangeValues: seq<string> := ["7d", "30d", "90d", "6m", "1y", "custom"]

  /** The quick actions: This Week, This Month, This Quarter. */
  datatype QuickAction = ThisWeek | ThisMonth | ThisQuarter

  function QuickValue(q: QuickAction): string {
    match q
    case ThisWeek => "7d"
    case ThisMonth => "30d"
    case ThisQuarter => "90d"
  }

  datatype Event =
    | RangeChange(value: string)
    | EditStart(date: string)
    | EditEnd(date: string)
    | Apply
    | Cancel
    | Quick(action: QuickAction)

  /** `handleRangeChange`: "custom" opens the form without telling the
      page; any other value closes the form and reports the range. */
  function HandleRangeChange(s: Selector, value: string): (r: (Selector, Option<Notice>))
    ensures value == "custom" ==> r == (s.(showCustom := true), None)
    ensures value != "custom" ==> r.0 == s.(showCustom := false) && r.1 == Some(Predefined(value))
  {
    if value == "custom" then (s.(showCustom := true), None)
    else (s.(showCustom := false), Some(Predefined(value)))
  }

  /** `handleCustomRangeApply`: with both dates filled in, reports them and
      closes the form; otherwise does nothing. */
  function HandleApply(s: Selector): (r: (Selector, Option<Notice>))
    ensures s.startDate == "" || s.endDate == "" ==> r == (s, None)
    ensures s.startDate != "" && s.endDate != "" ==>
      r == (s.(showCustom := false), Some(Custom(s.startDate, s.endDate)))
  {
    if s.startDate != "" && s.endDate != "" then (s.(showCustom := false), Some(Custom(s.startDate, s.endDate)))
    else (s, None)
  }

  /** One event. The range select exists only while the form is closed;
      the date inputs, the Apply button and Cancel only while it is open;
      the quick actions always. */
  function Step(s: Selector, e: Event): (r: (Selector, Option<Notice>))
    ensures r.1.Some? ==> !r.0.showCustom
    ensures r.0.startDate != s.startDate ==> e.EditStart?
    ensures r.0.endDate != s.endDate ==> e.EditEnd?
  {
    match e
    case RangeChange(v) => if !s.showCustom then HandleRangeChange(s, v) else (s, None)
    case EditStart(d) => if s.showCustom then (s.(startDate := d), None) else (s, None)
    case EditEnd(d) => if s.showCustom then (s.(endDate := d), None) else (s, None)
    case Apply => if s.showCustom then HandleApply(s) else (s, None)
    case Cancel => (s.(showCustom := false), None)
    case Quick(q) => HandleRangeChange(s, QuickValue(q))
  }

  /** Apply reports a custom range exactly when the form is open with both
      dates filled in, and reports those dates. */
  lemma ApplyReportsBothDates(s: Selector)
    ensures Step(s, Apply).1.Some? <==> s.showCustom && s.startDate != "" && s.endDate != ""
    ensures Step(s, Apply).1.Some? ==> Step(s, Apply).1.value == Custom(s.startDate, s.endDate)
  {
  }

  /** Cancel closes the form without telling the page and keeps the typed
      dates, so reopening shows them again. */
  lemma CancelKeepsDates(s: Selector)
    ensures Step(s, Cancel) == (s.(showCustom := false), None)
    ensures Step(Step(s, Cancel).0, RangeChange("custom")).0 == s.(showCustom := true)
  {
  }

  /** The quick actions call the range handler with 7, 30 and 90 days, even
      while the form is open (which closes it), and each reports its
      predefined range; with the form closed each is the same as choosing
      that range in the select. */
  lemma QuickActionsArePredefined(s: Selector, q: QuickAction)
    ensures Step(s, Quick(q)) == HandleRangeChange(s, QuickValue(q))
    ensures !s.showCustom ==> Step(s, Quick(q)) == Step(s, RangeChange(QuickValue(q)))
    ensures Step(s, Quick(q)).1 == Some(Predefined(QuickValue(q)))
    ensures QuickValue(q) in RangeValues && QuickValue(q) != "custom"
  {
  }

  /** Only a range change other than "custom", a quick action and a
      successful Apply tell the page anything. */
  lemma OnlyChoicesNotify(s: Selector, e: Event)
    requires Step(s, e).1.Some?
    ensures (e.RangeChange? && e.value != "custom" && !s.showCustom) || e.Quick? || (e.Apply? && s.showCustom)
  {
  }
}

=== FILE: filter_sidebar.dfy ===
/** The filter sidebar of the results page. It keeps its own copy of the
    filter record and, on every change, hands the same new record to the
    page. */
module FilterSidebar {
  import opened Common
  import opened ResultsAnalysis

  /** One `handleFilterChange(key, value)` call. */
  datatype FilterChange =
    | SetTypes(types: seq<string>)
    | SetCategories(categories: seq<string>)
    | SetRange(range: string)
    | SetSortBy(sortBy: string)
    | SetSortOrder(order: string)

  /** The sidebar's new copy and the record passed to the page. */
  datatype Update = Update(local: Filters, sent: Filters)

  /** `handleFilterChange`: one key replaced, the others kept, and the page
      receives exactly the sidebar's new record. */
  function HandleFilterChange(f: Filters, c: FilterChange): (u: Update)
    ensures u.sent == u.local
    ensures c.SetTypes? ==> u.local == f.(experimentTypes := c.types)
    ensures c.SetCategories? ==> u.local == f.(metricCategories := c.categories)
    ensures c.SetRange? ==> u.local == f.(performanceRange := c.range)
    ensures c.SetSortBy? ==> u.local == f.(sortBy := c.sortBy)
    ensures c.SetSortOrder? ==> u.local == f.(sortOrder := c.order)
  {
    var g := match c
      case SetTypes(t) => f.(experimentTypes := t)
      case SetCategories(k) => f.(metricCategories := k)
      case SetRange(r) => f.(performanceRange := r)
      case SetSortBy(s) => f.(sortBy := s)
      case SetSortOrder(o) => f.(sortOrder := o);
    Update(g, g)
  }

  /** `handleExperimentTypeToggle`. */
  function ToggleType(f: Filters, t: string): (u: Update)
    ensures u.sent == u.local
    ensures u.local.(experimentTypes := f.experimentTypes) == f
    ensures t in u.local.experimentTypes <==> t !in f.experimentTypes
    ensures forall x :: x != t ==> (x in u.local.experimentTypes <==> x in f.experimentTypes)
  {
    HandleFilterChange(f, SetTypes(Toggle(f.experimentTypes, t)))
  }

  /** `handleMetricCategoryToggle`. */
  function ToggleCategory(f: Filters, c: string): (u: Update)
    ensures u.sent == u.local
    ensures u.local.(metricCategories := f.metricCategories) == f
    ensures c in u.local.metricCategories <==> c !in f.metricCategories
    ensures forall x :: x != c ==> (x in u.local.metricCategories <==> x in f.metricCategories)
  {
    HandleFilterChange(f, SetCategories(Toggle(f.metricCategories, c)))
  }

  /** Toggling a type twice restores which types are selected, and removing
      a type drops every copy of it. */
  lemma ToggleTypeTwice(f: Filters, t: string, x: string)
    ensures x in ToggleType(ToggleType(f, t).local, t).local.experimentTypes <==> x in f.experimentTypes
    ensures t in f.experimentTypes ==>
      forall i :: 0 <= i < |ToggleType(f, t).local.experimentTypes| ==> ToggleType(f, t).local.experimentTypes[i] != t
  {
    ToggleTwice(f.experimentTypes, t, x);
  }

  /** `clearAllFilters`: the page's initial filters. */
  function ClearAll(): (u: Update)
    ensures u.sent == u.local == InitialFilters
  {
    Update(InitialFilters, InitialFilters)
  }

  /** `getActiveFilterCount`: one for selected types, one for selected
      categories, one for a chosen range. */
  function ActiveCount(f: Filters): (n: nat)
    ensures n <= 3
    ensures n == 0 <==> |f.experimentTypes| == 0 && |f.metricCategories| == 0 && f.performanceRange == ""
  {
    (if |f.experimentTypes| > 0 then 1 else 0)
    + (if |f.metricCategories| > 0 then 1 else 0)
    + (if f.performanceRange != "" then 1 else 0)
  }

  /** The Clear button is disabled when no filter is active. */
  predicate ClearDisabled(f: Filters) {
    ActiveCount(f) == 0
  }

  /** After clearing, nothing is active and Clear is disabled; the sort
      settings never count as a filter, and while Clear is disabled every
      experiment passes the filters. */
  lemma ClearDisablesClear(f: Filters)
    ensures ClearDisabled(ClearAll().local)
    ensures ActiveCount(f.(sortBy := "", sortOrder := "")) == ActiveCount(f)
    ensures ClearDisabled(f) ==> forall e :: Matches(f, e)
  {
  }

  /** Selected metric categories count as an active filter, but the page's
      effect never reads them: the shown list does not depend on them. */
  lemma CategoriesNeverFilter(exps: seq<Experiment>, f: Filters, categories: seq<string>)
    ensures Visible(exps, f.(metricCategories := categories)) == Visible(exps, f)
    ensures |categories| > 0 ==> ActiveCount(f.(metricCategories := categories)) > 0
  {
    var g := f.(metricCategories := categories);
    FilterCongruent(exps, (e: Experiment) => Matches(f, e), (e: Experiment) => Matches(g, e));
    FilterStageMatches(exps, f);
    FilterStageMatches(exps, g);
  }
}

=== FILE: frequency.dfy ===
/** The experiment frequency chart's totals: per data row a count for each
    of six experiment types (absent counts read as 0), the grand total, the
    per-type totals and their share of the total. */
module Frequency {
  import opened Common

  /** The keys of `experimentTypeColors`, in order. */
  const Types: seq<string> :=
    ["baseline", "no-js", "no-third-party", "no-render-blocking", "unused-resources", "first-party-only"]

  /** A data row: a date and counts, keyed by name. */
  type DataRow = map<string, int>

  /** A row's count for a type, absent counts reading as 0. */
  function CountOf(row: DataRow, t: string): (n: int)
    ensures t !in row ==> n == 0
    ensures t in row ==> n == row[t]
  {
    if t in row then row[t] else 0
  }

  /** The inner `reduce`: a row's counts summed over some types. */
  function RowSum(row: DataRow, types: seq<string>): int {
    if |types| == 0 then 0 else CountOf(row, types[0]) + RowSum(row, types[1..])
  }

  /** `totalExperiments`: the six counts of every row, summed. */
  function TotalExperiments(data: seq<DataRow>): int {
    if |data| == 0 then 0 else RowSum(data[0], Types) + TotalExperiments(data[1..])
  }

  /** `typeTotal`: one type's counts summed over the rows. */
  function TypeTotal(data: seq<DataRow>, t: string): int {
    if |data| == 0 then 0 else CountOf(data[0], t) + TypeTotal(data[1..], t)
  }

  /** The per-type totals of some types, summed. */
  function SumOfTypeTotals(data: seq<DataRow>, types: seq<string>): int {
    if |types| == 0 then 0 else TypeTotal(data, types[0]) + SumOfTypeTotals(data, types[1..])
  }

  /** Splitting off the first row of every per-type total. */
  lemma {:induction false} SumOfTypeTotalsCons(data: seq<DataRow>, types: seq<string>)
    requires |data| > 0
    ensures SumOfTypeTotals(data, types) == RowSum(data[0], types) + SumOfTypeTotals(data[1..], types)
  {
    if |types| > 0 {
      SumOfTypeTotalsCons(data, types[1..]);
    }
  }

  lemma {:induction false} SumOfTypeTotalsEmpty(types: seq<string>)
    ensures SumOfTypeTotals([], types) == 0
  {
    if |types| > 0 {
      SumOfTypeTotalsEmpty(types[1..]);
    }
  }

  /** The six per-type totals add up to the total, whatever the rows. */
  lemma {:induction false} TypeTotalsSumToTotal(data: seq<DataRow>)
    ensures SumOfTypeTotals(data, Types) == TotalExperiments(data)
  {
    if |data| == 0 {
      SumOfTypeTotalsEmpty(Types);
    } else {
      SumOfTypeTotalsCons(data, Types);
      TypeTotalsSumToTotal(data[1..]);
    }
  }

  /** Every count is a natural number. */
  predicate NonNegative(data: seq<DataRow>) {
    forall i, k :: 0 <= i < |data| && k in data[i] ==> data[i][k] >= 0
  }

  lemma {:induction false} TypeTotalNonNegative(data: seq<DataRow>, t: string)
    requires NonNegative(data)
    ensures TypeTotal(data, t) >= 0
  {
    if |data| > 0 {
      assert NonNegative(data[1..]) by {
        forall i, k | 0 <= i < |data[1..]| && k in data[1..][i]
          ensures data[1..][i][k] >= 0
        {
          assert data[1..][i] == data[i + 1];
        }
      }
      TypeTotalNonNegative(data[1..], t);
    }
  }

  /** A listed type's total is at most the sum over the list. */
  lemma {:induction false} TypeTotalWithinSum(data: seq<DataRow>, types: seq<string>, t: string)
    requires NonNegative(data) && t in types
    ensures 0 <= TypeTotal(data, t) <= SumOfTypeTotals(data, types)
  {
    TypeTotalNonNegative(data, types[0]);
    if types[0] != t {
      TypeTotalWithinSum(data, types[1..], t);
    } else if |types| > 1 {
      SumOfTypeTotalsNonNegative(data, types[1..]);
    } else {
      assert SumOfTypeTotals(data, types[1..]) == 0;
    }
  }

  lemma {:induction false} SumOfTypeTotalsNonNegative(data: seq<DataRow>, types: seq<string>)
    requires NonNegative(data)
    ensures SumOfTypeTotals(data, types) >= 0
  {
    if |types| > 0 {
      TypeTotalNonNegative(data, types[0]);
      SumOfTypeTotalsNonNegative(data, types[1..]);
    }
  }

  /** With natural-number counts, each type's total is between 0 and the
      grand total. */
  lemma TypeTotalBounded(data: seq<DataRow>, t: string)
    requires NonNegative(data) && t in Types
    ensures 0 <= TypeTotal(data, t) <= TotalExperiments(data)
  {
    TypeTotalWithinSum(data, Types, t);
    TypeTotalsSumToTotal(data);
  }

  /** Keys outside the six types never count: changing one in every row
      leaves the total as it was. */
  lemma {:induction false} RowSumIgnoresOtherKeys(row: DataRow, types: seq<string>, k: string, v: int)
    requires k !in types
    ensures RowSum(row[k := v], types) == RowSum(row, types)
  {
    if |types| > 0 {
      RowSumIgnoresOtherKeys(row, types[1..], k, v);
    }
  }

  function SetInEveryRow(data: seq<DataRow>, k: string, v: int): (r: seq<DataRow>)
    ensures |r| == |data|
    ensures forall i :: 0 <= i < |r| ==> r[i] == data[i][k := v]
  {
    seq(|data|, i requires 0 <= i < |data| => data[i][k := v])
  }

  lemma {:induction false} TotalIgnoresOtherKeys(data: seq<DataRow>, k: string, v: int)
    requires k !in Types
    ensures TotalExperiments(SetInEveryRow(data, k, v)) == TotalExperiments(data)
  {
    if |data| > 0 {
      RowSumIgnoresOtherKeys(data[0], Types, k, v);
      assert SetInEveryRow(data, k, v)[1..] == SetInEveryRow(data[1..], k, v);
      TotalIgnoresOtherKeys(data[1..], k, v);
    }
  }

  /** The share shown under a type, in tenths of a percent rounded half up:
      0 when there are no experiments at all. */
  function PercentTenths(typeTotal: int, total: int): (p: int)
    ensures total <= 0 ==> p == 0
    ensures total > 0 && 0 <= typeTotal <= total ==> 0 <= p <= 1000
    ensures total > 0 && typeTotal == total ==> p == 1000
    ensures total > 0 ==> 2 * total * p <= 2000 * typeTotal + total < 2 * total * p + 2 * total
  {
    if total > 0 then
      ShareBounds(typeTotal, total);
      DivBounds(2000 * typeTotal + total, 2 * total);
      (2000 * typeTotal + total) / (2 * total)
    else 0
  }

  lemma ShareBounds(t: int, total: int)
    requires total > 0
    ensures 0 <= t <= total ==> 0 <= (2000 * t + total) / (2 * total) <= 1000
    ensures (2000 * total + total) / (2 * total) == 1000
  {
    DivUnique(2000 * total + total, 2 * total, 1000, total);
    if 0 <= t <= total {
      var q := (2000 * t + total) / (2 * total);
      assert 2 * total * q <= 2000 * t + total < 2 * total * q + 2 * total;
      if q > 1000 {
        MulMonotone(2 * total, 1001, q);
      }
      if q < 0 {
        MulMonotone(2 * total, q, -1);
      }
    }
  }

  /** The share shown is the nearest tenth of a percent to the exact share
      (halves rounding up): within half a tenth, and no other tenth is
      closer. */
  lemma PercentNearest(typeTotal: int, total: int, q: int)
    requires total > 0
    ensures var p := PercentTenths(typeTotal, total);
      var exact := 1000 * typeTotal;
      Abs(exact - p * total) * 2 <= total
      && Abs(exact - q * total) >= Abs(exact - p * total)
  {
    var p := PercentTenths(typeTotal, total);
    var tp := p * total;
    assert 2 * total * p == 2 * tp;
    if q > p {
      MulMonotone(total, p + 1, q);
      assert total * (p + 1) == tp + total;
    } else if q < p {
      MulMonotone(total, q, p - 1);
      assert total * (p - 1) == tp - total;
    }
  }
}

=== FILE: history_table.dfy ===
/** The historical data table: a case-insensitive search over URL and
    experiment type, a sort on any column, and pagination with a window of
    at most five page buttons. A row's date is the timestamp `new Date(date)`
    yields, NaN when the text is not a date. */
module HistoryTable {
  import opened Common
  import opened Sorting
  import opened ResultsAnalysis

  datatype Row = Row(
    date: Number,
    url: string,
    experimentType: string,
    device: string,
    performance: int,
    fcp: int,
    lcp: int,
    cls: int,
    fid: int)

  /** The sortable columns (the actions column is not sortable). */
  datatype Column = DateCol | UrlCol | TypeCol | DeviceCol | PerformanceCol | FcpCol | LcpCol | ClsCol | FidCol

  /** A cell as the comparator's `<` and `>` see it: an invalid date
      compares false with everything. */
  function CellValue(r: Row, c: Column): (v: SortValue)
    ensures v.Missing? <==> c == DateCol && r.date.NaN?
  {
    match c
    case DateCol => if r.date.Finite? then Num(r.date.value) else Missing
    case UrlCol => Text(r.url)
    case TypeCol => Text(r.experimentType)
    case DeviceCol => Text(r.device)
    case PerformanceCol => Num(r.performance)
    case FcpCol => Num(r.fcp)
    case LcpCol => Num(r.lcp)
    case ClsCol => Num(r.cls)
    case FidCol => Num(r.fid)
  }

  // ---------------------------------------------------------------------
  // Search

  /** The search test: the lower-cased URL or experiment type includes the
      lower-cased term. */
  predicate MatchesSearch(r: Row, term: string) {
    Contains(ToLower(r.url), ToLower(term)) || Contains(ToLower(r.experimentType), ToLower(term))
  }

  /** The rows the search keeps, each as often as it occurs, in order. */
  function Searched(rows: seq<Row>, term: string): (r: seq<Row>)
    ensures |r| <= |rows|
    ensures forall x :: x in r <==> x in rows && MatchesSearch(x, term)
    ensures multiset(r) <= multiset(rows)
    ensures forall i :: 0 <= i < |rows| ==>
      multiset(r)[rows[i]] == if MatchesSearch(rows[i], term) then multiset(rows)[rows[i]] else 0
  {
    FilterKeepsCounts(rows, (x: Row) => MatchesSearch(x, term));
    Filter(rows, (x: Row) => MatchesSearch(x, term))
  }

  /** An empty search keeps every row, in order. */
  lemma EmptySearchKeepsAll(rows: seq<Row>)
    ensures Searched(rows, "") == rows
  {
    forall x | x in rows
      ensures MatchesSearch(x, "")
    {
      ContainsEmpty(ToLower(x.url));
    }
    FilterAll(rows, (x: Row) => MatchesSearch(x, ""));
  }

  /** Lower-casing twice is lower-casing once. */
  lemma ToLowerIdempotent(s: string)
    ensures ToLower(ToLower(s)) == ToLower(s)
  {
  }

  /** The search ignores the case of the term. */
  lemma SearchIgnoresCase(rows: seq<Row>, term: string)
    ensures Searched(rows, ToLower(term)) == Searched(rows, term)
  {
    ToLowerIdempotent(term);
    FilterCongruent(rows, (x: Row) => MatchesSearch(x, ToLower(term)), (x: Row) => MatchesSearch(x, term));
  }

  // ---------------------------------------------------------------------
  // Sorting

  datatype SortConfig = SortConfig(key: Column, ascending: bool)

  /** The table opens sorted by date, newest first. */
  const InitialSort: SortConfig := SortConfig(DateCol, false)

  /** The comparator returns -1, 1 or 0; it puts `a` after `b` exactly when
      `b`'s cell is smaller in ascending order, or `a`'s cell is smaller in
      descending order. */
  function RowAfter(s: SortConfig): (Row, Row) -> bool {
    KeyAfter((r: Row) => CellValue(r, s.key), s.ascending)
  }

  /** The rows the table lists: the search result sorted by the current
      column. */
  function Listed(rows: seq<Row>, term: string, s: SortConfig): (r: seq<Row>)
    ensures |r| == |Searched(rows, term)|
    ensures multiset(r) == multiset(Searched(rows, term))
    ensures forall x :: x in r <==> x in rows && MatchesSearch(x, term)
  {
    var found := Searched(rows, term);
    var r := Sort(found, RowAfter(s));
    assert forall x :: x in r <==> x in multiset(r);
    assert forall x :: x in found <==> x in multiset(found);
    r
  }

  /** On any column other than the date, and on the date when every date
      parses, no listed row goes after a later one. */
  lemma ListedOrdered(rows: seq<Row>, term: string, s: SortConfig)
    requires s.key == DateCol ==> forall i :: 0 <= i < |rows| ==> rows[i].date.Finite?
    ensures Ordered(Listed(rows, term, s), RowAfter(s))
  {
    var found := Searched(rows, term);
    var key := (r: Row) => CellValue(r, s.key);
    forall i | 0 <= i < |found|
      ensures !key(found[i]).Missing?
    {
      assert found[i] in rows;
    }
    SortOrdered(found, key, s.ascending);
  }

  /** `handleSort`: the same column while ascending turns descending; any
      other click sorts the clicked column ascending. */
  function HandleSort(s: SortConfig, key: Column): (r: SortConfig)
    ensures r.key == key
    ensures !r.ascending <==> s.key == key && s.ascending
  {
    SortConfig(key, !(s.key == key && s.ascending))
  }

  /** Clicking one column repeatedly alternates its direction, starting
      ascending for a new column; from the initial state, the date column's
      first click turns it ascending. */
  lemma SortClicksAlternate(s: SortConfig, key: Column)
    ensures s.key != key ==> HandleSort(s, key).ascending
    ensures HandleSort(HandleSort(s, key), key).ascending == !HandleSort(s, key).ascending
    ensures HandleSort(InitialSort, DateCol) == SortConfig(DateCol, true)
  {
  }

  // ---------------------------------------------------------------------
  // Pagination

  function Min(a: int, b: int): int {
    if a <= b then a else b
  }

  function Max(a: int, b: int): int {
    if a >= b then a else b
  }

  /** A `slice` index: a negative index counts from the end; the result is
      clipped to the list. */
  function SliceIndex(i: int, n: nat): (k: nat)
    ensures k <= n
    ensures 0 <= i ==> k == Min(i, n)
  {
    if i < 0 then Max(n + i, 0) else Min(i, n)
  }

  /** `s.slice(start, end)`. */
  function Slice<T>(s: seq<T>, start: int, end: int): seq<T> {
    var a := SliceIndex(start, |s|);
    var b := SliceIndex(end, |s|);
    if a <= b then s[a..b] else []
  }

  /** The rows page `p` shows: positions `(p-1)*size` up to `p*size`,
      clipped to the list. */
  function PageRows<T>(list: seq<T>, p: int, size: nat): (r: seq<T>)
    requires size > 0
    ensures p >= 1 ==> (p - 1) * size >= 0 && |r| <= size
    ensures p >= 1 ==> r == list[Min((p - 1) * size, |list|)..Min((p - 1) * size + size, |list|)]
  {
    var start := (p - 1) * size;
    StartNonNegative(p, size);
    Slice(list, start, start + size)
  }

  lemma StartNonNegative(p: int, size: nat)
    ensures p >= 1 ==> (p - 1) * size >= 0
  {
    if p >= 1 && size > 0 {
      MulMonotone(size, 0, p - 1);
    }
  }

  /** A page that starts inside the list shows between one and `size`
      rows. */
  lemma PageRowsNonEmpty<T>(list: seq<T>, p: int, size: nat)
    requires size > 0 && p >= 1 && (p - 1) * size < |list|
    ensures 0 < |PageRows(list, p, size)| <= size
  {
  }

  /** A page that starts at or past the end of the list shows nothing. */
  lemma PageRowsPastEnd<T>(list: seq<T>, p: int, size: nat)
    requires size > 0 && p >= 1 && (p - 1) * size >= |list|
    ensures PageRows(list, p, size) == []
  {
  }

  /** An in-range page starts inside a list that needs `total` pages. */
  lemma PageStartInside(p: int, size: nat, total: nat, n: nat)
    requires size > 0 && 1 <= p <= total && size * (total - 1) < n
    ensures (p - 1) * size < n
  {
    MulMonotone(size, p - 1, total - 1);
  }

  /** `Math.ceil(n / size)`, characterised by the two bounds that define a
      ceiling: the pages hold the list, and one page fewer would not. */
  function TotalPages(n: nat, size: nat): (t: nat)
    requires size > 0
    ensures size * (t - 1) < n <= size * t
    ensures t == 0 <==> n == 0
  {
    CeilBounds(n, size);
    (n + size - 1) / size
  }

  lemma CeilBounds(n: nat, size: nat)
    requires size > 0
    ensures var t := (n + size - 1) / size;
      t >= 0 && size * (t - 1) < n <= size * t && (t == 0 <==> n == 0)
  {
    var t := (n + size - 1) / size;
    DivBounds(n + size - 1, size);
    assert size * (t - 1) == size * t - size;
    if t < 0 {
      MulMonotone(size, t, -1);
    }
  }

  /** A non-empty list that fits on one page needs exactly one. */
  lemma TotalPagesOne(n: nat, size: nat)
    requires size > 0 && 0 < n <= size
    ensures TotalPages(n, size) == 1
  {
    DivUnique(n + size - 1, size, 1, n - 1);
  }

  /** Pages 1 to `k`, one after the other. */
  function Pages<T>(list: seq<T>, size: nat, k: nat): seq<T>
    requires size > 0
  {
    if k == 0 then [] else Pages(list, size, k - 1) + PageRows(list, k, size)
  }

  /** The first `k` pages are the list's first `k * size` rows. */
  lemma {:induction false} PagesPrefix<T>(list: seq<T>, size: nat, k: nat)
    requires size > 0
    ensures k * size >= 0 && Pages(list, size, k) == list[..Min(k * size, |list|)]
  {
    MulMonotone(size, 0, k);
    if k > 0 {
      PagesPrefix(list, size, k - 1);
      MulSucc(k, size);
      var a := Min((k - 1) * size, |list|);
      var b := Min(k * size, |list|);
      assert PageRows(list, k, size) == list[a..b];
      assert list[..a] + list[a..b] == list[..b];
    }
  }

  lemma MulSucc(k: nat, size: nat)
    requires k > 0
    ensures (k - 1) * size >= 0 && k * size == (k - 1) * size + size
  {
    MulMonotone(size + 1, 0, k - 1);
  }

  /** Pages 1 to `TotalPages` put together are exactly the list, and every
      row is on some page. */
  lemma AllPagesReproduce<T>(list: seq<T>, size: nat)
    requires size > 0
    ensures Pages(list, size, TotalPages(|list|, size)) == list
  {
    var t := TotalPages(|list|, size);
    PagesPrefix(list, size, t);
    assert t * size == size * t >= |list|;
    assert Min(t * size, |list|) == |list|;
    assert list[..|list|] == list;
  }

  /** The number on button `i` of the window. */
  function ButtonNumber(p: int, t: nat, i: nat): int {
    if t <= 5 then i + 1
    else if p <= 3 then i + 1
    else if p >= t - 2 then t - 4 + i
    else p - 2 + i
  }

  /** The page buttons: `min(5, totalPages)` consecutive numbers. */
  function PageButtons(p: int, t: nat): (r: seq<int>)
    ensures |r| == Min(5, t)
    ensures forall i :: 0 <= i < |r| - 1 ==> r[i + 1] == r[i] + 1
    ensures 1 <= p <= t ==> forall i :: 0 <= i < |r| ==> 1 <= r[i] <= t
  {
    seq(Min(5, t), i requires 0 <= i < Min(5, t) => ButtonNumber(p, t, i))
  }

  /** With the current page in range, its button is in the window, so it is
      the highlighted one; the window starts at page 1 on the first three
      pages and ends at the last page on the last three. */
  lemma ButtonsHoldCurrent(p: int, t: nat)
    requires 1 <= p <= t
    ensures p in PageButtons(p, t)
    ensures p <= 3 ==> PageButtons(p, t)[0] == 1
    ensures p >= t - 2 ==> PageButtons(p, t)[|PageButtons(p, t)| - 1] == t
  {
    var r := PageButtons(p, t);
    if t <= 5 || p <= 3 {
      assert r[p - 1] == p;
    } else if p >= t - 2 {
      assert r[p - t + 4] == p;
    } else {
      assert r[2] == p;
    }
  }

  /** The Previous and Next buttons. */
  function Previous(p: int): (r: int)
    ensures r == Max(p - 1, 1)
  {
    if p - 1 >= 1 then p - 1 else 1
  }

  function Next(p: int, t: nat): (r: int)
    ensures r == Min(p + 1, t)
  {
    if p + 1 <= t then p + 1 else t
  }

  // ---------------------------------------------------------------------
  // The table as a state machine

  /** The page sizes the select offers. */
  datatype SizeOption = Ten | TwentyFive | Fifty | Hundred

  function SizeOf(o: SizeOption): (n: nat)
    ensures n > 0
  {
    match o
    case Ten => 10
    case TwentyFive => 25
    case Fifty => 50
    case Hundred => 100
  }

  datatype Table = Table(sort: SortConfig, term: string, page: int, size: SizeOption)

  const InitialTable: Table := Table(InitialSort, "", 1, Ten)

  datatype Event =
    | SortBy(key: Column)
    | Search(term: string)
    | ChangeSize(size: SizeOption)
    | PreviousPage
    | NextPage
    | GoTo(page: int)

  function Total(rows: seq<Row>, t: Table): nat {
    TotalPages(|Searched(rows, t.term)|, SizeOf(t.size))
  }

  /** The pagination bar is rendered only with more than one page. */
  predicate ShowsControls(rows: seq<Row>, t: Table) {
    Total(rows, t) > 1
  }

  /** What the table shows. */
  function Shown(rows: seq<Row>, t: Table): seq<Row> {
    PageRows(Listed(rows, t.term, t.sort), t.page, SizeOf(t.size))
  }

  /** The page is one that exists, or page 1 of an empty list. */
  predicate PageInRange(rows: seq<Row>, t: Table) {
    1 <= t.page <= Max(Total(rows, t), 1)
  }

  /** The events that do not touch the search: a disabled button or a hidden
      control does nothing. */
  function StepControls(rows: seq<Row>, t: Table, e: Event): (r: Table)
    requires !e.Search?
    ensures r.term == t.term
  {
    var total := Total(rows, t);
    match e
    case SortBy(k) => t.(sort := HandleSort(t.sort, k))
    case ChangeSize(o) => if total > 1 then t.(size := o, page := 1) else t
    case PreviousPage => if total > 1 && t.page != 1 then t.(page := Previous(t.page)) else t
    case NextPage => if total > 1 && t.page != total then t.(page := Next(t.page, total)) else t
    case GoTo(k) => if total > 1 && k in PageButtons(t.page, total) then t.(page := k) else t
  }

  /** One event as written: typing in the search box changes only the
      term. */
  function StepAsWritten(rows: seq<Row>, t: Table, e: Event): (r: Table)
    ensures e.Search? ==> r == t.(term := e.term)
    ensures !e.Search? ==> r == StepControls(rows, t, e)
  {
    if e.Search? then t.(term := e.term) else StepControls(rows, t, e)
  }

  /** A search that leaves fewer matching rows than the current page needs
      keeps the page number: the table shows no rows although some match,
      the pagination bar is gone, and the page is out of range. With 25 rows
      on pages of 10, page 3, and a search matching 5 of them, the table is
      empty. */
  lemma SearchStrandsPage(rows: seq<Row>, t: Table, term: string)
    requires t.page >= 2
    requires 0 < |Searched(rows, term)| <= SizeOf(t.size)
    ensures var u := StepAsWritten(rows, t, Search(term));
      && |Listed(rows, u.term, u.sort)| > 0
      && Shown(rows, u) == []
      && !ShowsControls(rows, u)
      && !PageInRange(rows, u)
  {
    var u := StepAsWritten(rows, t, Search(term));
    assert u == t.(term := term);
    var list := Listed(rows, term, t.sort);
    assert |list| == |Searched(rows, term)|;
    LaterPageOfOne(list, t.page, SizeOf(t.size));
  }

  /** A list that fits on one page has one page, and every later page is
      empty. */
  lemma LaterPageOfOne<T>(list: seq<T>, p: int, size: nat)
    requires size > 0 && p >= 2 && 0 < |list| <= size
    ensures TotalPages(|list|, size) == 1 && PageRows(list, p, size) == []
  {
    MulMonotone(size, 1, p - 1);
    PageRowsPastEnd(list, p, size);
    TotalPagesOne(|list|, size);
  }

  /** One event as evidently intended: a new search goes back to page 1, as
      a new page size does. */
  function Step(rows: seq<Row>, t: Table, e: Event): (r: Table)
    ensures e.Search? ==> r == t.(term := e.term, page := 1)
    ensures !e.Search? ==> r == StepControls(rows, t, e)
  {
    if e.Search? then t.(term := e.term, page := 1) else StepControls(rows, t, e)
  }

  /** Every event keeps the page in range. */
  lemma StepKeepsPageInRange(rows: seq<Row>, t: Table, e: Event)
    requires PageInRange(rows, t)
    ensures PageInRange(rows, Step(rows, t, e))
  {
    var total := Total(rows, t);
    var u := Step(rows, t, e);
    match e
    case Search(_) =>
      assert u.page == 1;
    case ChangeSize(_) =>
      assert u.page == 1 || u == t;
    case SortBy(_) =>
      SameTotal(rows, t, u);
    case PreviousPage =>
      SameTotal(rows, t, u);
    case NextPage =>
      SameTotal(rows, t, u);
    case GoTo(k) =>
      SameTotal(rows, t, u);
      if total > 1 && k in PageButtons(t.page, total) {
        var i :| 0 <= i < |PageButtons(t.page, total)| && PageButtons(t.page, total)[i] == k;
      }
  }

  /** The number of pages depends on the search term and the page size
      only. */
  lemma SameTotal(rows: seq<Row>, t: Table, u: Table)
    requires t.term == u.term && t.size == u.size
    ensures Total(rows, t) == Total(rows, u)
  {
  }

  /** With the page in range, a non-empty list shows a non-empty page of at
      most the page size, whose rows are the list's rows from position
      `(page-1)*size` on. */
  lemma InRangePageShowsRows(rows: seq<Row>, t: Table)
    requires PageInRange(rows, t)
    ensures var list := Listed(rows, t.term, t.sort);
      |list| > 0 ==> 0 < |Shown(rows, t)| <= SizeOf(t.size)
  {
    var list := Listed(rows, t.term, t.sort);
    assert |list| == |Searched(rows, t.term)|;
    if |list| > 0 {
      ExistingPageNonEmpty(list, t.page, SizeOf(t.size));
    }
  }

  /** Any page from 1 to the last of a non-empty list holds rows. */
  lemma ExistingPageNonEmpty<T>(list: seq<T>, p: int, size: nat)
    requires size > 0 && |list| > 0 && 1 <= p <= Max(TotalPages(|list|, size), 1)
    ensures 0 < |PageRows(list, p, size)| <= size
  {
    PageStartInside(p, size, TotalPages(|list|, size), |list|);
    PageRowsNonEmpty(list, p, size);
  }

  /** Previous and Next stay within the pages, and each is disabled exactly
      on the page it cannot leave. */
  lemma PreviousNextClamp(p: int, total: nat)
    requires 1 <= p <= total
    ensures 1 <= Previous(p) <= p && p <= Next(p, total) <= total
    ensures Previous(p) == p <==> p == 1
    ensures Next(p, total) == p <==> p == total
  {
  }
}

=== FILE: metrics_table.dfy ===
/** The metrics comparison table of the results page: its own sort state,
    the expanded rows, the score colour, and the change against the
    baseline experiment. */
module MetricsTable {
  import opened Common
  import opened Sorting
  import opened ResultsAnalysis

  /** The table's sort state; `None` is the initial `key: null`. */
  datatype SortConfig = SortConfig(key: Option<string>, ascending: bool)

  const InitialSort: SortConfig := SortConfig(None, true)

  /** `sortedExperiments`: the list itself while no key is set, otherwise a
      sorted copy. */
  function SortedExperiments(exps: seq<Experiment>, c: SortConfig): (r: seq<Experiment>)
    ensures c.key.None? || c.key.value == "" ==> r == exps
    ensures multiset(r) == multiset(exps)
  {
    if c.key.None? || c.key.value == "" then exps
    else Sort(exps, KeyAfter((e: Experiment) => MetricKey(e, c.key.value), c.ascending))
  }

  /** With a key that every experiment has, the rows are ordered by that
      metric in the chosen direction. */
  lemma SortedByMetric(exps: seq<Experiment>, c: SortConfig)
    requires c.key.Some? && c.key.value != ""
    requires forall i :: 0 <= i < |exps| ==> c.key.value in exps[i].metrics
    ensures Ordered(SortedExperiments(exps, c), KeyAfter((e: Experiment) => MetricKey(e, c.key.value), c.ascending))
  {
    SortOrdered(exps, (e: Experiment) => MetricKey(e, c.key.value), c.ascending);
  }

  /** `handleSort`: the same key while ascending turns descending; any other
      click sorts ascending by the clicked key. */
  function HandleSort(c: SortConfig, key: string): (r: SortConfig)
    ensures r.key == Some(key)
    ensures !r.ascending <==> c.key == Some(key) && c.ascending
  {
    SortConfig(Some(key), !(c.key == Some(key) && c.ascending))
  }

  /** Clicking a column header alternates its direction, starting
      ascending: two clicks on a fresh column give descending, three give
      ascending again. */
  lemma SortClicksAlternate(c: SortConfig, key: string)
    requires c.key != Some(key)
    ensures HandleSort(c, key).ascending
    ensures !HandleSort(HandleSort(c, key), key).ascending
    ensures HandleSort(HandleSort(HandleSort(c, key), key), key) == HandleSort(c, key)
  {
  }

  /** `toggleRowExpansion` on the set of expanded ids. */
  function ToggleRow(expanded: set<string>, id: string): (r: set<string>)
    ensures id in r <==> id !in expanded
    ensures r - {id} == expanded - {id}
  {
    if id in expanded then expanded - {id} else expanded + {id}
  }

  /** Toggling a row twice restores the expanded set. */
  lemma ToggleRowTwice(expanded: set<string>, id: string)
    ensures ToggleRow(ToggleRow(expanded, id), id) == expanded
  {
  }

  /** What the change badge shows: green or red, and whether the figure
      carries a `+`. The percentage itself is a floating-point figure and
      is not modelled. */
  datatype Change = Change(isImprovement: bool, plus: bool)

  /** `getMetricChange`: nothing for a baseline of 0 or NaN; otherwise the
      sign of `(current - baseline) / baseline`. A NaN current value makes
      both comparisons false. */
  function MetricChange(current: Number, baseline: Number): (r: Option<Change>)
    ensures r.None? <==> !Truthy(baseline)
    ensures r.Some? ==> (r.value.isImprovement <==>
      current.Finite? && (current.value - baseline.value) * baseline.value < 0)
    ensures r.Some? ==> (r.value.plus <==>
      current.Finite? && (current.value - baseline.value) * baseline.value > 0)
  {
    if !Truthy(baseline) then None
    else if current.NaN? then Some(Change(false, false))
    else
      var d := current.value - baseline.value;
      var b := baseline.value;
      SignOfQuotient(d, b);
      Some(Change(d * b < 0, d * b > 0))
  }

  /** The sign of `d / b` is the sign of `d * b`. */
  lemma SignOfQuotient(d: int, b: int)
    requires b != 0
    ensures d * b < 0 <==> (d < 0 && b > 0) || (d > 0 && b < 0)
    ensures d * b > 0 <==> (d > 0 && b > 0) || (d < 0 && b < 0)
  {
    if d > 0 && b > 0 { MulMonotone(d, 1, b); }
    if d < 0 && b < 0 { MulMonotone(-d, 1, -b); }
    if d > 0 && b < 0 { MulMonotone(d, 1, -b); }
    if d < 0 && b > 0 { MulMonotone(-d, 1, b); }
  }

  /** The rule counts lower as better for every column, the performance
      score included: against a positive baseline a higher score is shown
      red with a `+`, a lower one green. */
  lemma HigherScoreShownWorse(current: int, baseline: int)
    requires baseline > 0
    ensures current > baseline ==> MetricChange(Finite(current), Finite(baseline)) == Some(Change(false, true))
    ensures current < baseline ==> MetricChange(Finite(current), Finite(baseline)) == Some(Change(true, false))
    ensures current == baseline ==> MetricChange(Finite(current), Finite(baseline)) == Some(Change(false, false))
  {
    SignOfQuotient(current - baseline, baseline);
  }

  /** The first experiment of the baseline type, if any. */
  function BaselineOf(exps: seq<Experiment>): (r: Option<Experiment>)
    ensures r.None? <==> forall i :: 0 <= i < |exps| ==> exps[i].kind != "baseline"
    ensures r.Some? ==> r.value.kind == "baseline"
    ensures r.Some? ==>
      exists i :: (0 <= i < |exps| && exps[i] == r.value && forall j :: 0 <= j < i ==> exps[j].kind != "baseline")
  {
    if |exps| == 0 then None
    else if exps[0].kind == "baseline" then Some(exps[0])
    else
      var rest := BaselineOf(exps[1..]);
      assert forall i :: 1 <= i < |exps| ==> exps[i] == exps[1..][i - 1];
      rest
  }

  /** A row shows change badges when there is a baseline and the row is not
      the baseline itself. */
  predicate ShowsChange(exps: seq<Experiment>, e: Experiment) {
    BaselineOf(exps).Some? && e.id != BaselineOf(exps).value.id
  }

  /** No list without a baseline experiment shows a badge, and the baseline
      row never does. */
  lemma BaselineRowPlain(exps: seq<Experiment>, e: Experiment)
    ensures (forall i :: 0 <= i < |exps| ==> exps[i].kind != "baseline") ==> !ShowsChange(exps, e)
    ensures BaselineOf(exps) == Some(e) ==> !ShowsChange(exps, e)
  {
  }
}

=== FILE: progress_summary.dfy ===
/** The batch progress summary: the overall percentage and the colour and
    icon of a batch or job status. */
module ProgressSummary {
  import opened Common
  import opened BatchJobs

  /** The completed share of the batch as a whole percentage, or 0 for an
      empty batch. The model rounds the exact share half up: rounding a
      non-negative `x` is `floor(x + 1/2)`, which here is
      `(200 * completed + total) / (2 * total)`. The page rounds a double
      product instead, which can fall just below a half (29 of 200 gives
      14.499999999999998 and shows 14, where this gives 15). */
  function OverallProgress(st: Stats): (p: int)
    ensures st.total == 0 ==> p == 0
    ensures st.total > 0 ==> p >= 0
    ensures st.total > 0 && st.completed <= st.total ==> p <= 100
    ensures st.total > 0 ==>
      2 * st.total * p <= 200 * st.completed + st.total < 2 * st.total * p + 2 * st.total
  {
    if st.total == 0 then 0
    else
      RoundedShareBounds(st.completed, st.total);
      (200 * st.completed + st.total) / (2 * st.total)
  }

  lemma RoundedShareBounds(c: nat, t: nat)
    requires t > 0
    ensures var p := (200 * c + t) / (2 * t);
      && p >= 0
      && (c <= t ==> p <= 100)
      && 2 * t * p <= 200 * c + t < 2 * t * p + 2 * t
  {
    var p := (200 * c + t) / (2 * t);
    DivBounds(200 * c + t, 2 * t);
    if c <= t && p > 100 {
      MulMonotone(2 * t, 101, p);
    }
  }

  /** The percentage is the nearest whole number to the exact share (halves
      rounding up): it is within half a step, and no other whole number is
      closer. */
  lemma ProgressNearest(st: Stats, q: int)
    requires st.total > 0
    ensures var p := OverallProgress(st);
      var exact := 100 * st.completed;
      Abs(exact - p * st.total) * 2 <= st.total
      && Abs(exact - q * st.total) >= Abs(exact - p * st.total)
  {
    var p := OverallProgress(st);
    var t := st.total;
    var tp := p * t;
    assert 2 * t * p == 2 * tp;
    if q > p {
      MulMonotone(t, p + 1, q);
      assert t * (p + 1) == tp + t;
    } else if q < p {
      MulMonotone(t, q, p - 1);
      assert t * (p - 1) == tp - t;
    }
  }

  /** The percentage depends on the completed and total counts only, and
      completing more jobs of the same batch never lowers it. */
  lemma ProgressMonotone(a: Stats, b: Stats)
    requires a.total == b.total && a.completed <= b.completed
    ensures OverallProgress(a) <= OverallProgress(b)
    ensures a.completed == b.completed ==> OverallProgress(a) == OverallProgress(b)
  {
    if a.total > 0 {
      var t := a.total;
      var pa := OverallProgress(a);
      var pb := OverallProgress(b);
      if pa > pb {
        MulMonotone(2 * t, pb + 1, pa);
      }
    }
  }

  /** A finished batch shows 100%, and so does a large batch with one job
      left: rounding hides the last job once there are more than 200. */
  lemma FullAtCompletion(st: Stats)
    requires st.total > 0 && st.completed == st.total
    ensures OverallProgress(st) == 100
    ensures OverallProgress(Stats(1000, 0, 0, 999, 0, 0)) == 100
  {
    var t := st.total;
    DivUnique(200 * t + t, 2 * t, 100, t);
    DivUnique(200 * 999 + 1000, 2000, 100, 800);
  }

  /** A batch or job status as the summary receives it. */
  function StatusColor(s: string): (c: string)
  {
    if s == "running" then "text-accent"
    else if s == "completed" then "text-success"
    else if s == "failed" then "text-error"
    else if s == "paused" then "text-warning"
    else "text-muted-foreground"
  }

  function StatusIcon(s: string): (i: string)
  {
    if s == "running" then "Play"
    else if s == "completed" then "CheckCircle"
    else if s == "failed" then "AlertCircle"
    else if s == "paused" then "Pause"
    else "Clock"
  }

  const SummaryStatuses: seq<string> := ["running", "completed", "failed", "paused"]

  /** The four statuses the summary knows have their own colour and icon;
      every other status, pending and cancelled included, gets the muted
      colour and the clock. */
  lemma StatusLooks(s: string, i: nat, j: nat)
    requires i < j < |SummaryStatuses|
    ensures StatusColor(SummaryStatuses[i]) != StatusColor(SummaryStatuses[j])
    ensures StatusIcon(SummaryStatuses[i]) != StatusIcon(SummaryStatuses[j])
    ensures s !in SummaryStatuses <==> StatusIcon(s) == "Clock"
    ensures s !in SummaryStatuses <==> StatusColor(s) == "text-muted-foreground"
  {
    SummaryStatusesDistinct(i, j);
    OtherStatusesMuted(s);
  }

  lemma OtherStatusesMuted(s: string)
    ensures s !in SummaryStatuses <==> StatusIcon(s) == "Clock"
    ensures s !in SummaryStatuses <==> StatusColor(s) == "text-muted-foreground"
  {
  }

  lemma SummaryStatusesDistinct(i: nat, j: nat)
    requires i < j < |SummaryStatuses|
    ensures StatusColor(SummaryStatuses[i]) != StatusColor(SummaryStatuses[j])
    ensures StatusIcon(SummaryStatuses[i]) != StatusIcon(SummaryStatuses[j])
  {
  }
}

=== FILE: queue_table.dfy ===
/** The batch queue table: the status filter, the sortable columns, the
    status look, the duration column, the experiment badges and the per-row
    progress cell and action. Timestamps reach this module already parsed:
    `None` for a null field, `Some(NaN)` for a string `Date` cannot parse. */
module QueueTable {
  import opened Common
  import opened Sorting
  import opened BatchJobs

  /** The status as the page spells it. */
  function StatusName(s: Status): (r: string)
    ensures s.Other? ==> r == s.name
  {
    match s
    case Pending => "pending"
    case Running => "running"
    case Completed => "completed"
    case Failed => "failed"
    case Cancelled => "cancelled"
    case Other(n) => n
  }

  /** The spelling of the five known statuses identifies them. */
  lemma StatusNameInjective(a: Status, b: Status)
    requires !a.Other? && !b.Other?
    ensures StatusName(a) == StatusName(b) <==> a == b
  {
  }

  // ---------------------------------------------------------------------
  // Filtering

  /** The filter buttons: "all" or one status. */
  datatype StatusFilter = All | Only(status: Status)

  /** The filter buttons offered, in order. */
  const FilterButtons: seq<StatusFilter> :=
    [All, Only(Pending), Only(Running), Only(Completed), Only(Failed)]

  function FilterJobs(jobs: seq<Job>, f: StatusFilter): (r: seq<Job>)
    ensures f.All? ==> r == jobs
    ensures f.Only? ==> forall i :: 0 <= i < |r| ==> r[i].status == f.status && r[i] in jobs
    ensures f.Only? ==> forall i :: 0 <= i < |jobs| && jobs[i].status == f.status ==> jobs[i] in r
    ensures multiset(r) <= multiset(jobs)
    ensures f.Only? ==> forall i :: 0 <= i < |jobs| ==>
      multiset(r)[jobs[i]] == if jobs[i].status == f.status then multiset(jobs)[jobs[i]] else 0
  {
    match f
    case All => jobs
    case Only(s) =>
      FilterKeepsCounts(jobs, (j: Job) => j.status == s);
      Filter(jobs, (j: Job) => j.status == s)
  }

  /** A status filter works row by row, in order: the shown rows are the
      jobs of that status, each where it was. */
  lemma FilterJobsKeepsOrder(a: seq<Job>, b: seq<Job>, f: StatusFilter, x: Job)
    ensures FilterJobs(a + b, f) == FilterJobs(a, f) + FilterJobs(b, f)
    ensures FilterJobs([x], f) == if f.All? || x.status == f.status then [x] else []
  {
    if f.Only? {
      FilterConcat(a, b, (j: Job) => j.status == f.status);
      FilterSingleton(x, (j: Job) => j.status == f.status);
    }
  }

  /** The rows a status filter shows are as many as the status count of the
      stats object. */
  lemma FilterMatchesCount(jobs: seq<Job>, s: Status)
    ensures |FilterJobs(jobs, Only(s))| == CountStatus(jobs, s)
  {
  }

  // ---------------------------------------------------------------------
  // Sorting

  datatype SortField = UrlField | StatusField | CreatedAtField

  datatype SortState = SortState(field: SortField, ascending: bool)

  /** `createdAt`, descending. */
  const InitialSort: SortState := SortState(CreatedAtField, false)

  /** The value a column compares. No job carries a `createdAt`, and
      `new Date(undefined)` is an invalid date, so that column's key is
      missing for every row. */
  function SortKey(field: SortField): Job -> SortValue {
    (j: Job) =>
      match field
      case UrlField => Text(j.url)
      case StatusField => Text(StatusName(j.status))
      case CreatedAtField => Missing
  }

  /** The table's comparator answers 1 (after) or -1, never 0: ascending
      it puts `a` after `b` when `a`'s key is the greater, descending when
      it is the smaller, which is what `KeyAfter` decides. */
  function SortAfter(st: SortState): (after: (Job, Job) -> bool)
    ensures forall a: Job, b: Job :: (after(a, b) ==
      if st.ascending then Less(SortKey(st.field)(b), SortKey(st.field)(a))
      else Less(SortKey(st.field)(a), SortKey(st.field)(b)))
  {
    KeyAfter(SortKey(st.field), st.ascending)
  }

  /** The rows in the order the table shows them. */
  function VisibleJobs(jobs: seq<Job>, f: StatusFilter, st: SortState): (r: seq<Job>)
    ensures multiset(r) == multiset(FilterJobs(jobs, f))
  {
    Sort(FilterJobs(jobs, f), SortAfter(st))
  }

  /** Sorting by the URL or status column orders the rows by that column in
      the chosen direction. */
  lemma VisibleJobsOrdered(jobs: seq<Job>, f: StatusFilter, st: SortState)
    requires st.field != CreatedAtField
    ensures Ordered(VisibleJobs(jobs, f, st), SortAfter(st))
  {
    SortOrdered(FilterJobs(jobs, f), SortKey(st.field), st.ascending);
  }

  /** Sorting by the created column compares invalid dates only: every
      comparison is false, the comparator answers -1 for every pair, and the
      insertion sort of this model, which moves a row only past rows it goes
      after, leaves the filtered list as it is. */
  lemma CreatedAtKeepsOrder(jobs: seq<Job>, f: StatusFilter, ascending: bool)
    ensures VisibleJobs(jobs, f, SortState(CreatedAtField, ascending)) == FilterJobs(jobs, f)
  {
    var rows := FilterJobs(jobs, f);
    var after := SortAfter(SortState(CreatedAtField, ascending));
    forall i, j | 0 <= i < |rows| && 0 <= j < |rows|
      ensures !after(rows[i], rows[j])
    {
    }
    SortNeverAfter(rows, after);
  }

  /** `handleSort`: the same column flips the direction, another column is
      selected ascending. */
  function HandleSort(st: SortState, field: SortField): (r: SortState)
    ensures r.field == field
    ensures field == st.field ==> r.ascending == !st.ascending
    ensures field != st.field ==> r.ascending
  {
    if st.field == field then st.(ascending := !st.ascending)
    else SortState(field, true)
  }

  /** Clicking the same header twice restores the previous order. */
  lemma SortTwiceRestores(st: SortState)
    ensures HandleSort(HandleSort(st, st.field), st.field) == st
  {
  }

  // ---------------------------------------------------------------------
  // Status look

  datatype StatusLook = StatusLook(color: string, bgColor: string, icon: string)

  function StatusConfig(s: Status): (c: StatusLook)
    ensures s.Other? ==> c.icon == "Circle"
  {
    match s
    case Pending => StatusLook("text-muted-foreground", "bg-muted", "Clock")
    case Running => StatusLook("text-accent", "bg-accent/10", "Play")
    case Completed => StatusLook("text-success", "bg-success/10", "CheckCircle")
    case Failed => StatusLook("text-error", "bg-error/10", "AlertCircle")
    case Cancelled => StatusLook("text-warning", "bg-warning/10", "XCircle")
    case Other(_) => StatusLook("text-muted-foreground", "bg-muted", "Circle")
  }

  /** Each known status has its own icon; an unknown status shares the
      pending colours but not its icon. */
  lemma StatusIconsDistinct(a: Status, b: Status)
    requires a != b && (!a.Other? || !b.Other?)
    ensures StatusConfig(a).icon != StatusConfig(b).icon
  {
  }

  // ---------------------------------------------------------------------
  // Duration column

  /** JavaScript's `%`: the remainder takes the sign of the dividend. */
  function JsRem(d: int, m: int): (r: int)
    requires m > 0
    ensures -m < r < m
    ensures d >= 0 ==> r == d % m
    ensures d < 0 ==> r <= 0
  {
    if d >= 0 then d % m else -((-d) % m)
  }

  /** Whole minutes of the duration, and whole seconds of the remainder
      left by JavaScript's remainder. Dafny's division by a positive number
      already floors. */
  function DurationParts(d: int): (r: (int, int))
  {
    (d / 60000, JsRem(d, 60000) / 1000)
  }

  /** For a non-negative duration the parts are whole minutes and the
      remaining whole seconds. */
  lemma DurationPartsExact(d: int)
    requires d >= 0
    ensures var (m, s) := DurationParts(d);
      0 <= s < 60 && m >= 0 && s == (d / 1000) % 60 && 60 * m + s == d / 1000
  {
    var q := d / 60000;
    var r := d % 60000;
    var s := r / 1000;
    assert r == 1000 * s + r % 1000;
    assert d == 1000 * (60 * q + s) + r % 1000;
    DivUnique(d, 1000, 60 * q + s, r % 1000);
    DivUnique(60 * q + s, 60, q, s);
  }

  /** The text `formatDuration` produces from two timestamps, each absent
      when the job's field is falsy (see `FormatJobDuration`). */
  function FormatDuration(start: Option<Number>, end: Option<Number>): (r: string)
    ensures start.None? ==> r == "-"
    ensures start.Some? && end.None? ==> r == "Running..."
    ensures start.Some? && end.Some? && (start.value.NaN? || end.value.NaN?) ==> r == "NaNs"
  {
    match (start, end)
    case (None, _) => "-"
    case (Some(_), None) => "Running..."
    case (Some(Finite(a)), Some(Finite(b))) =>
      var (m, s) := DurationParts(b - a);
      if m > 0 then IntToString(m) + "m " + IntToString(s) + "s" else IntToString(s) + "s"
    case _ => "NaNs"
  }

  /** A time field as `formatDuration` reads it: a missing field and the
      empty string are both falsy, so both count as absent; any other text
      goes through `new Date`, which is the parameter `parse`. */
  function TimeField(raw: Option<string>, parse: string -> Number): (t: Option<Number>)
    ensures t.None? <==> raw.None? || raw.value == ""
    ensures t.Some? ==> t.value == parse(raw.value)
  {
    match raw
    case Some(text) => if text == "" then None else Some(parse(text))
    case None => None
  }

  /** `formatDuration` on the job's raw start and end fields. */
  function FormatJobDuration(start: Option<string>, end: Option<string>, parse: string -> Number): (r: string)
    ensures start.None? || start == Some("") ==> r == "-"
    ensures start.Some? && start.value != "" && (end.None? || end == Some("")) ==> r == "Running..."
    ensures start.Some? && start.value != "" && end.Some? && end.value != "" ==>
      r == FormatDuration(Some(parse(start.value)), Some(parse(end.value)))
  {
    FormatDuration(TimeField(start, parse), TimeField(end, parse))
  }

  /** A finished job whose end is not before its start shows its whole
      seconds: the minutes part when there is at least one minute, then the
      remaining seconds under sixty. */
  lemma FormatDurationOfFinished(a: int, b: int)
    requires a <= b
    ensures var d := b - a;
      FormatDuration(Some(Finite(a)), Some(Finite(b))) ==
        (if d >= 60000 then NatToString(d / 60000) + "m " + NatToString((d / 1000) % 60) + "s"
         else NatToString(d / 1000) + "s")
  {
    var d := b - a;
    DurationPartsExact(d);
    if d < 60000 {
      DivUnique(d, 60000, 0, d);
    }
  }

  /** A job that ended before it started shows a negative seconds count,
      because `%` and `Math.floor` do not agree on negative numbers. */
  lemma NegativeDurationShown()
    ensures FormatDuration(Some(Finite(30500)), Some(Finite(0))) == "-31s"
  {
    assert DurationParts(-30500) == (-1, -31);
    assert NatToString(31) == "31" by {
      assert NatToString(3) == "3";
    }
  }

  // ---------------------------------------------------------------------
  // Badges, progress and actions

  /** The badge label for an experiment id; an unknown id is shown as is. */
  function BadgeLabel(exp: string): string
  {
    if exp == "baseline" then "Base"
    else if exp == "no-js" then "No JS"
    else if exp == "block-third-party" then "3rd Party"
    else if exp == "no-render-blocking" then "No Block"
    else if exp == "unused-resources" then "Unused"
    else if exp == "first-party-only" then "1st Party"
    else exp
  }

  const KnownExperiments: seq<string> :=
    ["baseline", "no-js", "block-third-party", "no-render-blocking", "unused-resources", "first-party-only"]

  /** The six known ids get six different labels, none of which is itself a
      known id; any other id is its own label. */
  lemma BadgeLabels(exp: string, i: nat, j: nat)
    requires i < j < |KnownExperiments|
    ensures BadgeLabel(KnownExperiments[i]) != BadgeLabel(KnownExperiments[j])
    ensures BadgeLabel(KnownExperiments[i]) !in KnownExperiments
    ensures exp !in KnownExperiments ==> BadgeLabel(exp) == exp
  {
    KnownLabel(i);
    KnownLabel(j);
    KnownLabelsApart(i, j);
  }

  const KnownLabels: seq<string> := ["Base", "No JS", "3rd Party", "No Block", "Unused", "1st Party"]

  lemma KnownLabel(i: nat)
    requires i < |KnownExperiments|
    ensures BadgeLabel(KnownExperiments[i]) == KnownLabels[i]
  {
  }

  lemma KnownLabelsApart(i: nat, j: nat)
    requires i < j < |KnownLabels|
    ensures KnownLabels[i] != KnownLabels[j] && KnownLabels[i] !in KnownExperiments
  {
  }

  /** The badges a row shows: the first three labels, and the number of
      further badges when there are more than three. */
  function RowBadges(experiments: seq<string>): (r: (seq<string>, Option<nat>))
    ensures |r.0| == if |experiments| < 3 then |experiments| else 3
    ensures forall i :: 0 <= i < |r.0| ==> r.0[i] == BadgeLabel(experiments[i])
    ensures r.1.Some? <==> |experiments| > 3
    ensures r.1.Some? ==> |r.0| + r.1.value == |experiments|
  {
    var n := if |experiments| < 3 then |experiments| else 3;
    var shown := seq(n, i requires 0 <= i < n => BadgeLabel(experiments[i]));
    (shown, if |experiments| > 3 then Some(|experiments| - 3) else None)
  }

  /** The progress cell: the job's percentage while running, full when
      completed, a dash otherwise. */
  datatype ProgressCell = Percent(value: int) | Dash

  function ProgressOf(j: Job): (c: ProgressCell)
    ensures c.Percent? <==> j.status == Running || j.status == Completed
    ensures j.status == Completed ==> c == Percent(100)
    ensures j.status == Running ==> c == Percent(j.progress)
  {
    if j.status == Running then Percent(j.progress)
    else if j.status == Completed then Percent(100)
    else Dash
  }

  /** The action button of a row. */
  datatype Action = View | Retry | Cancel

  function RowAction(s: Status): (a: Option<Action>)
    ensures a == Some(View) <==> s == Completed
    ensures a == Some(Retry) <==> s == Failed
    ensures a == Some(Cancel) <==> s == Running
  {
    if s == Completed then Some(View)
    else if s == Failed then Some(Retry)
    else if s == Running then Some(Cancel)
    else None
  }

  /** The row buttons lead to a state the button's status no longer offers
      that button for: a retried row offers no action, a cancelled row none
      either. */
  lemma ActionsLeaveTheirStatus(jobs: seq<Job>, i: nat)
    requires i < |jobs|
    ensures RowAction(jobs[i].status) == Some(Retry) ==>
      RowAction(RetryJob(jobs, jobs[i].id)[i].status).None?
    ensures RowAction(jobs[i].status) == Some(Cancel) ==>
      RowAction(CancelJob(jobs, jobs[i].id)[i].status).None?
  {
  }
}

=== FILE: results_analysis.dfy ===
/** The results-analysis page: the experiment records, the filter record
    with its type and score-range filters, the metric sort, and the compare
    and bulk actions. A metric held as a string is represented by what
    `parseFloat` makes of it, in the same unit as the other values of its
    column. */
module ResultsAnalysis {
  import opened Common
  import opened Sorting

  /** A metric as stored: a number, or a string of digits. */
  datatype MetricValue = NumValue(n: int) | TextValue(parsed: Number)

  /** An experiment record; a metric name missing from `metrics` reads as
      `undefined`. */
  datatype Experiment = Experiment(id: string, name: string, kind: string, metrics: map<string, MetricValue>)

  /** The value the sort comparators subtract: a string is parsed as a
      number, with NaN and 0 both giving 0; a missing metric gives NaN,
      which makes the comparator answer 0 with every other value. */
  function MetricKey(e: Experiment, key: string): (v: SortValue)
    ensures v.Missing? <==> key !in e.metrics
    ensures key in e.metrics && e.metrics[key].NumValue? ==> v == Num(e.metrics[key].n)
    ensures key in e.metrics && e.metrics[key].TextValue? ==> v == Num(OrElse(e.metrics[key].parsed, 0))
  {
    if key !in e.metrics then Missing
    else match e.metrics[key]
      case NumValue(n) => Num(n)
      case TextValue(p) => Num(OrElse(p, 0))
  }

  /** The performance score as the range comparisons see it. A score stored
      as a string is represented by its `parseFloat` value, which is what
      `ToNumber` gives for a string of digits; NaN and a missing score
      (`undefined`) fail every comparison (`None`). */
  function Score(e: Experiment): (r: Option<int>)
    ensures r.None? <==>
      ("performanceScore" !in e.metrics || e.metrics["performanceScore"] == TextValue(NaN))
    ensures r.Some? && e.metrics["performanceScore"].NumValue? ==> r.value == e.metrics["performanceScore"].n
    ensures r.Some? && e.metrics["performanceScore"].TextValue? ==>
      e.metrics["performanceScore"].parsed == Finite(r.value)
  {
    if "performanceScore" !in e.metrics then None
    else match e.metrics["performanceScore"]
      case NumValue(n) => Some(n)
      case TextValue(p) => if p.Finite? then Some(p.value) else None
  }

  // ---------------------------------------------------------------------
  // Score bands

  datatype Band = Excellent | Good | Poor

  /** The band of a score: 90 and above, 50 to 89, below 50. The same cut
      points give the score colours of the tables and the modal. */
  function BandOf(score: int): (b: Band)
    ensures b == Excellent <==> score >= 90
    ensures b == Good <==> 50 <= score < 90
    ensures b == Poor <==> score < 50
  {
    if score >= 90 then Excellent else if score >= 50 then Good else Poor
  }

  /** The tone of a score's band, as the trend card names it. */
  function BandTone(score: int): (c: string)
    ensures c == "success" <==> BandOf(score) == Excellent
    ensures c == "warning" <==> BandOf(score) == Good
    ensures c == "error" <==> BandOf(score) == Poor
  {
    if score >= 90 then "success" else if score >= 50 then "warning" else "error"
  }

  /** The text colour of a score in the history and comparison tables: the
      band's tone as a text class. */
  function ScoreColor(score: int): (c: string)
    ensures c == "text-" + BandTone(score)
    ensures c == "text-success" <==> BandOf(score) == Excellent
    ensures c == "text-warning" <==> BandOf(score) == Good
    ensures c == "text-error" <==> BandOf(score) == Poor
  {
    if score >= 90 then "text-success" else if score >= 50 then "text-warning" else "text-error"
  }

  /** The range filter's test for one experiment. An unrecognised range
      keeps everything. */
  predicate RangeKeeps(range: string, score: Option<int>) {
    if range == "excellent" then score.Some? && score.value >= 90
    else if range == "good" then score.Some? && score.value >= 50 && score.value < 90
    else if range == "poor" then score.Some? && score.value < 50
    else true
  }

  const RangeNames: seq<string> := ["excellent", "good", "poor"]

  /** The three named ranges partition the scores: a numeric score passes
      exactly the range named after its band, a missing one passes none;
      every other range passes everything. */
  lemma RangesPartitionScores(score: Option<int>, range: string)
    ensures score.Some? ==>
      (RangeKeeps("excellent", score) <==> BandOf(score.value) == Excellent)
      && (RangeKeeps("good", score) <==> BandOf(score.value) == Good)
      && (RangeKeeps("poor", score) <==> BandOf(score.value) == Poor)
    ensures score.None? ==> forall i :: 0 <= i < 3 ==> !RangeKeeps(RangeNames[i], score)
    ensures range !in RangeNames ==> RangeKeeps(range, score)
  {
  }

  // ---------------------------------------------------------------------
  // Filters

  datatype Filters = Filters(
    experimentTypes: seq<string>,
    metricCategories: seq<string>,
    performanceRange: string,
    sortBy: string,
    sortOrder: string)

  /** The page's filters before any change: nothing filtered, best score
      first. */
  const InitialFilters: Filters := Filters([], [], "", "performanceScore", "desc")

  /** The filter condition as one predicate: the type is listed (or no type
      is), and the score is in the range (or no range is chosen). */
  predicate Matches(f: Filters, e: Experiment) {
    (|f.experimentTypes| == 0 || e.kind in f.experimentTypes)
    && (f.performanceRange == "" || RangeKeeps(f.performanceRange, Score(e)))
  }

  /** The effect's two filter stages, each applied only when its filter is
      set. */
  function FilterStage(exps: seq<Experiment>, f: Filters): seq<Experiment> {
    var byType := if |f.experimentTypes| > 0 then Filter(exps, (e: Experiment) => e.kind in f.experimentTypes) else exps;
    if f.performanceRange != "" then Filter(byType, (e: Experiment) => RangeKeeps(f.performanceRange, Score(e)))
    else byType
  }

  /** The two stages keep exactly the matching experiments, in their
      original order. */
  lemma {:induction false} FilterStageMatches(exps: seq<Experiment>, f: Filters)
    ensures FilterStage(exps, f) == Filter(exps, (e: Experiment) => Matches(f, e))
  {
    var byType := (e: Experiment) => e.kind in f.experimentTypes;
    var byRange := (e: Experiment) => RangeKeeps(f.performanceRange, Score(e));
    var both := (e: Experiment) => Matches(f, e);
    if |f.experimentTypes| > 0 && f.performanceRange != "" {
      FilterFilter(exps, byType, byRange, both);
    } else if |f.experimentTypes| > 0 {
      FilterCongruent(exps, byType, both);
    } else if f.performanceRange != "" {
      FilterCongruent(exps, byRange, both);
    } else {
      FilterAll(exps, both);
    }
  }

  /** The comparator's decision: ascending for "asc", descending for any
      other order. */
  function MetricAfter(key: string, order: string): (Experiment, Experiment) -> bool {
    KeyAfter((e: Experiment) => MetricKey(e, key), order == "asc")
  }

  /** The list the page shows: the matching experiments, sorted when a sort
      metric is set. */
  function Visible(exps: seq<Experiment>, f: Filters): (r: seq<Experiment>)
    ensures multiset(r) == multiset(Filter(exps, (e: Experiment) => Matches(f, e)))
    ensures f.sortBy == "" ==> r == Filter(exps, (e: Experiment) => Matches(f, e))
  {
    FilterStageMatches(exps, f);
    var kept := FilterStage(exps, f);
    if f.sortBy != "" then Sort(kept, MetricAfter(f.sortBy, f.sortOrder)) else kept
  }

  /** When every shown experiment has the sort metric, the list is ordered
      by it: ascending for "asc", descending otherwise. */
  lemma VisibleOrdered(exps: seq<Experiment>, f: Filters)
    requires f.sortBy != ""
    requires forall i :: 0 <= i < |exps| ==> f.sortBy in exps[i].metrics
    ensures Ordered(Visible(exps, f), MetricAfter(f.sortBy, f.sortOrder))
  {
    FilterStageMatches(exps, f);
    var kept := FilterStage(exps, f);
    var key := (e: Experiment) => MetricKey(e, f.sortBy);
    forall i | 0 <= i < |kept|
      ensures !key(kept[i]).Missing?
    {
      assert kept[i] in exps;
    }
    SortOrdered(kept, key, f.sortOrder == "asc");
  }

  // ---------------------------------------------------------------------
  // Page actions

  datatype Page = Page(
    selected: seq<Experiment>,
    showComparison: bool,
    showDetail: bool,
    detail: Option<Experiment>,
    filters: Filters)

  /** `handleExperimentSelect`: open the detail modal on the experiment. */
  function SelectExperiment(p: Page, e: Experiment): (r: Page)
    ensures r.detail == Some(e) && r.showDetail
    ensures r.(detail := p.detail, showDetail := p.showDetail) == p
  {
    p.(detail := Some(e), showDetail := true)
  }

  /** `handleCompareExperiment`: compare the one experiment, leaving the
      detail modal for the comparison. */
  function CompareExperiment(p: Page, e: Experiment): (r: Page)
    ensures r.selected == [e] && r.showComparison && !r.showDetail
    ensures r.detail == p.detail && r.filters == p.filters
  {
    p.(selected := [e], showComparison := true, showDetail := false)
  }

  /** `handleBulkActions`: "compare" takes the given list and opens the
      comparison; "delete" only asks for confirmation through a toast
      message; any other action does nothing. */
  function BulkAction(p: Page, action: string, exps: seq<Experiment>): (r: (Page, Option<string>))
    ensures action == "compare" ==> r.0 == p.(selected := exps, showComparison := true) && r.1.None?
    ensures action != "compare" ==> r.0 == p
    ensures r.1.Some? <==> action == "delete"
    ensures action == "delete" ==>
      r.1.value == "Are you sure you want to delete " + NatToString(|exps|) + " experiments?"
  {
    if action == "compare" then (p.(selected := exps, showComparison := true), None)
    else if action == "delete" then
      (p, Some("Are you sure you want to delete " + NatToString(|exps|) + " experiments?"))
    else (p, None)
  }
}

=== FILE: sorting.dfy ===
/** The `Array.prototype.sort` calls of the tables and lists. A JavaScript
    comparator only decides whether one element goes after another; the
    model keeps exactly that decision (`after(a, b)` is "the comparator
    returned a positive number") and sorts by insertion, which is what a
    stable sort produces for a consistent comparator. For an inconsistent
    comparator (the batch queue table's) the engine's order is unspecified,
    and only the permutation property is claimed. */
module Sorting {
  import opened Common

  /** Insert `x` in front of the first element it does not go after. */
  function Insert<T>(x: T, s: seq<T>, after: (T, T) -> bool): (r: seq<T>)
    ensures |r| == |s| + 1
    ensures multiset(r) == multiset(s) + multiset{x}
  {
    if |s| == 0 || !after(x, s[0]) then [x] + s
    else
      assert s == [s[0]] + s[1..];
      [s[0]] + Insert(x, s[1..], after)
  }

  /** Sorting by insertion: a permutation of its input. */
  function Sort<T>(s: seq<T>, after: (T, T) -> bool): (r: seq<T>)
    ensures |r| == |s|
    ensures multiset(r) == multiset(s)
  {
    if |s| == 0 then []
    else
      assert s == [s[0]] + s[1..];
      Insert(s[0], Sort(s[1..], after), after)
  }

  // ---------------------------------------------------------------------
  // Values compared by the relational operators

  /** A sort key as JavaScript's `<` sees it: a number, a string, or a value
      that compares false with everything (an invalid `Date`, `undefined`). */
  datatype SortValue = Num(n: int) | Text(s: string) | Missing

  /** Lexicographic order on strings, as `<` compares two strings. */
  predicate LexLess(a: string, b: string) {
    if |a| == 0 then |b| > 0
    else if |b| == 0 then false
    else if a[0] != b[0] then a[0] < b[0]
    else LexLess(a[1..], b[1..])
  }

  /** `a < b` on sort keys. Within one column every key has the same kind;
      across kinds the model puts numbers first so that the relation stays a
      strict total order on the non-missing keys. */
  predicate Less(a: SortValue, b: SortValue) {
    match (a, b)
    case (Num(x), Num(y)) => x < y
    case (Text(x), Text(y)) => LexLess(x, y)
    case (Num(_), Text(_)) => true
    case _ => false
  }

  lemma {:induction false} LexLessIrreflexive(a: string)
    ensures !LexLess(a, a)
  {
    if |a| > 0 {
      LexLessIrreflexive(a[1..]);
    }
  }

  lemma {:induction false} LexLessTransitive(a: string, b: string, c: string)
    requires LexLess(a, b) && LexLess(b, c)
    ensures LexLess(a, c)
  {
    if |a| > 0 && |b| > 0 && |c| > 0 && a[0] == b[0] && b[0] == c[0] {
      LexLessTransitive(a[1..], b[1..], c[1..]);
    }
  }

  lemma {:induction false} LexLessTotal(a: string, b: string)
    requires a != b
    ensures LexLess(a, b) || LexLess(b, a)
  {
    if |a| > 0 && |b| > 0 && a[0] == b[0] {
      assert a == [a[0]] + a[1..] && b == [b[0]] + b[1..];
      LexLessTotal(a[1..], b[1..]);
    }
  }

  /** `Less` is a strict total order on the keys that are not missing. */
  lemma LessStrictTotalOrder(a: SortValue, b: SortValue, c: SortValue)
    requires !a.Missing? && !b.Missing? && !c.Missing?
    ensures !Less(a, a)
    ensures Less(a, b) && Less(b, c) ==> Less(a, c)
    ensures a != b ==> Less(a, b) || Less(b, a)
  {
    if a.Text? {
      LexLessIrreflexive(a.s);
    }
    if a.Text? && b.Text? && c.Text? && LexLess(a.s, b.s) && LexLess(b.s, c.s) {
      LexLessTransitive(a.s, b.s, c.s);
    }
    if a.Text? && b.Text? && a != b {
      LexLessTotal(a.s, b.s);
    }
  }

  /** "Not less" chains: `a <= b <= c` gives `a <= c`. */
  lemma NotLessTransitive(a: SortValue, b: SortValue, c: SortValue)
    requires !a.Missing? && !b.Missing? && !c.Missing?
    requires !Less(b, a) && !Less(c, b)
    ensures !Less(c, a)
  {
    LessStrictTotalOrder(c, a, b);
    LessStrictTotalOrder(a, b, c);
  }

  /** The "goes after" decision of a comparator over a key: ascending puts
      `a` after `b` when `key(b) < key(a)`, descending when `key(a) < key(b)`.
      Both the `a - b` numeric comparators and the `-1 / 0 / 1` comparators
      of the tables decide exactly this. */
  function KeyAfter<T>(key: T -> SortValue, ascending: bool): (T, T) -> bool
  {
    (a: T, b: T) => if ascending then Less(key(b), key(a)) else Less(key(a), key(b))
  }

  /** No element goes after a later one. */
  ghost predicate Ordered<T>(r: seq<T>, after: (T, T) -> bool) {
    forall i, j :: 0 <= i < j < |r| ==> !after(r[i], r[j])
  }

  ghost predicate KeysPresent<T>(s: seq<T>, key: T -> SortValue) {
    forall i :: 0 <= i < |s| ==> !key(s[i]).Missing?
  }

  lemma {:induction false} InsertOrdered<T>(x: T, s: seq<T>, key: T -> SortValue, ascending: bool)
    requires !key(x).Missing? && KeysPresent(s, key)
    requires Ordered(s, KeyAfter(key, ascending))
    ensures Ordered(Insert(x, s, KeyAfter(key, ascending)), KeyAfter(key, ascending))
  {
    var after := KeyAfter(key, ascending);
    if |s| > 0 && !after(x, s[0]) {
      OrderedInFront(x, s, key, ascending);
    } else if |s| > 0 {
      assert KeysPresent(s[1..], key);
      InsertOrdered(x, s[1..], key, ascending);
      OrderedBehindHead(x, s, Insert(x, s[1..], after), key, ascending);
    }
  }

  /** An element that does not go after the head of an ordered list goes
      after none of it. */
  lemma OrderedInFront<T>(x: T, s: seq<T>, key: T -> SortValue, ascending: bool)
    requires |s| > 0 && !key(x).Missing? && KeysPresent(s, key)
    requires Ordered(s, KeyAfter(key, ascending)) && !KeyAfter(key, ascending)(x, s[0])
    ensures Ordered([x] + s, KeyAfter(key, ascending))
  {
    var after := KeyAfter(key, ascending);
    var r := [x] + s;
    forall i, j | 0 <= i < j < |r|
      ensures !after(r[i], r[j])
    {
      if i == 0 && j > 1 {
        assert r[j] == s[j - 1];
        assert !after(s[0], s[j - 1]);
        if ascending {
          NotLessTransitive(key(x), key(s[0]), key(s[j - 1]));
        } else {
          NotLessTransitive(key(s[j - 1]), key(s[0]), key(x));
        }
      } else if i > 0 {
        assert r[i] == s[i - 1] && r[j] == s[j - 1];
      }
    }
  }

  /** The head of an ordered list, followed by an ordered permutation of
      its tail and an element that goes after the head, is ordered. */
  lemma OrderedBehindHead<T>(x: T, s: seq<T>, tail: seq<T>, key: T -> SortValue, ascending: bool)
    requires |s| > 0 && !key(x).Missing? && KeysPresent(s, key)
    requires Ordered(s, KeyAfter(key, ascending)) && KeyAfter(key, ascending)(x, s[0])
    requires Ordered(tail, KeyAfter(key, ascending))
    requires multiset(tail) == multiset(s[1..]) + multiset{x}
    ensures Ordered([s[0]] + tail, KeyAfter(key, ascending))
  {
    var after := KeyAfter(key, ascending);
    var r := [s[0]] + tail;
    forall i, j | 0 <= i < j < |r|
      ensures !after(r[i], r[j])
    {
      if i == 0 {
        var y := tail[j - 1];
        assert y in multiset(tail);
        if y in multiset(s[1..]) {
          var k :| 0 <= k < |s[1..]| && s[1..][k] == y;
          assert !after(s[0], s[k + 1]);
        } else {
          LessStrictTotalOrder(key(x), key(s[0]), key(x));
        }
      } else {
        assert r[i] == tail[i - 1] && r[j] == tail[j - 1];
      }
    }
  }

  /** Sorting by a key with every key present yields a list ordered by that
      key in the chosen direction. */
  lemma {:induction false} SortOrdered<T>(s: seq<T>, key: T -> SortValue, ascending: bool)
    requires KeysPresent(s, key)
    ensures Ordered(Sort(s, KeyAfter(key, ascending)), KeyAfter(key, ascending))
  {
    if |s| > 0 {
      var rest := Sort(s[1..], KeyAfter(key, ascending));
      SortOrdered(s[1..], key, ascending);
      forall i | 0 <= i < |rest|
        ensures !key(rest[i]).Missing?
      {
        assert rest[i] in multiset(s[1..]);
      }
      InsertOrdered(s[0], rest, key, ascending);
    }
  }

  /** When no element goes after any other, sorting keeps the order. This is
      the situation of a column whose keys all compare false (missing). */
  lemma {:induction false} SortNeverAfter<T>(s: seq<T>, after: (T, T) -> bool)
    requires forall i, j :: 0 <= i < |s| && 0 <= j < |s| ==> !after(s[i], s[j])
    ensures Sort(s, after) == s
  {
    if |s| > 0 {
      SortNeverAfter(s[1..], after);
      assert s == [s[0]] + s[1..];
    }
  }

  /** Stability of one insertion: among the elements picked out by `same`,
      an inserted `x` that goes after none of them comes first. */
  lemma {:induction false} InsertKeepsPicked<T>(x: T, t: seq<T>, after: (T, T) -> bool, same: T -> bool)
    requires same(x) ==> forall i :: 0 <= i < |t| && same(t[i]) ==> !after(x, t[i])
    ensures Filter(Insert(x, t, after), same) == (if same(x) then [x] else []) + Filter(t, same)
  {
    if |t| == 0 || !after(x, t[0]) {
      InsertInFront(x, t, after, same);
    } else {
      PickedInTail(x, t, after, same);
      InsertKeepsPicked(x, t[1..], after, same);
      InsertBehind(x, t, after, same);
    }
  }

  lemma InsertInFront<T>(x: T, t: seq<T>, after: (T, T) -> bool, same: T -> bool)
    requires |t| == 0 || !after(x, t[0])
    ensures Filter(Insert(x, t, after), same) == (if same(x) then [x] else []) + Filter(t, same)
  {
    assert Insert(x, t, after) == [x] + t;
    FilterCons(x, t, same);
  }

  lemma InsertBehind<T>(x: T, t: seq<T>, after: (T, T) -> bool, same: T -> bool)
    requires |t| > 0 && after(x, t[0]) && (same(x) ==> !same(t[0]))
    requires Filter(Insert(x, t[1..], after), same) == (if same(x) then [x] else []) + Filter(t[1..], same)
    ensures Filter(Insert(x, t, after), same) == (if same(x) then [x] else []) + Filter(t, same)
  {
    JoinPicked(t, Insert(x, t[1..], after), if same(x) then [x] else [], same);
  }

  /** Putting the head of `t` in front of a list whose filter differs from
      the filter of the tail only by a prefix of picked elements. */
  lemma JoinPicked<T>(t: seq<T>, inner: seq<T>, picked: seq<T>, same: T -> bool)
    requires |t| > 0
    requires Filter(inner, same) == picked + Filter(t[1..], same)
    requires picked == [] || !same(t[0])
    ensures Filter([t[0]] + inner, same) == picked + Filter(t, same)
  {
    var head := if same(t[0]) then [t[0]] else [];
    FilterCons(t[0], inner, same);
    FilterHead(t, same);
    SwapPrefixes(Filter([t[0]] + inner, same), Filter(inner, same), Filter(t, same), head, picked, Filter(t[1..], same));
  }

  /** Two prefixes one of which is empty can change places. */
  lemma SwapPrefixes<T>(joined: seq<T>, inner: seq<T>, whole: seq<T>, head: seq<T>, picked: seq<T>, rest: seq<T>)
    requires joined == head + inner && inner == picked + rest && whole == head + rest
    requires head == [] || picked == []
    ensures joined == picked + whole
  {
    if head == [] {
      assert joined == picked + rest;
    } else {
      assert joined == head + rest;
    }
  }

  lemma PickedInTail<T>(x: T, t: seq<T>, after: (T, T) -> bool, same: T -> bool)
    requires |t| > 0
    requires same(x) ==> forall i :: 0 <= i < |t| && same(t[i]) ==> !after(x, t[i])
    ensures same(x) ==> forall i :: 0 <= i < |t[1..]| && same(t[1..][i]) ==> !after(x, t[1..][i])
    ensures same(x) && after(x, t[0]) ==> !same(t[0])
  {
    if same(x) {
      forall i | 0 <= i < |t[1..]| && same(t[1..][i])
        ensures !after(x, t[1..][i])
      {
        assert t[1..][i] == t[i + 1];
      }
    }
  }

  /** Filtering a list with a known head. */
  lemma FilterCons<T>(a: T, rest: seq<T>, p: T -> bool)
    ensures Filter([a] + rest, p) == (if p(a) then [a] else []) + Filter(rest, p)
  {
    assert ([a] + rest)[0] == a;
    assert ([a] + rest)[1..] == rest;
  }

  /** The sort is stable: elements no two of which the comparator orders
      (elements with equal keys, say) come out in their input order. */
  lemma {:induction false} SortStable<T>(s: seq<T>, after: (T, T) -> bool, same: T -> bool)
    requires forall i, j :: 0 <= i < |s| && 0 <= j < |s| && same(s[i]) && same(s[j]) ==> !after(s[i], s[j])
    ensures Filter(Sort(s, after), same) == Filter(s, same)
  {
    if |s| > 0 {
      var tail := s[1..];
      TailUnordered(s, after, same);
      SortStable(tail, after, same);
      var sorted := Sort(tail, after);
      HeadBeforePicked(s, sorted, after, same);
      InsertKeepsPicked(s[0], sorted, after, same);
      FilterHead(s, same);
    }
  }

  lemma TailUnordered<T>(s: seq<T>, after: (T, T) -> bool, same: T -> bool)
    requires |s| > 0
    requires forall i, j :: 0 <= i < |s| && 0 <= j < |s| && same(s[i]) && same(s[j]) ==> !after(s[i], s[j])
    ensures var tail := s[1..];
      forall i, j :: 0 <= i < |tail| && 0 <= j < |tail| && same(tail[i]) && same(tail[j]) ==> !after(tail[i], tail[j])
  {
    var tail := s[1..];
    forall i, j | 0 <= i < |tail| && 0 <= j < |tail| && same(tail[i]) && same(tail[j])
      ensures !after(tail[i], tail[j])
    {
      assert tail[i] == s[i + 1] && tail[j] == s[j + 1];
    }
  }

  /** The head goes after no picked element of any permutation of the tail. */
  lemma HeadBeforePicked<T>(s: seq<T>, sorted: seq<T>, after: (T, T) -> bool, same: T -> bool)
    requires |s| > 0 && multiset(sorted) == multiset(s[1..])
    requires forall i, j :: 0 <= i < |s| && 0 <= j < |s| && same(s[i]) && same(s[j]) ==> !after(s[i], s[j])
    ensures same(s[0]) ==> forall i :: 0 <= i < |sorted| && same(sorted[i]) ==> !after(s[0], sorted[i])
  {
    if same(s[0]) {
      forall i | 0 <= i < |sorted| && same(sorted[i])
        ensures !after(s[0], sorted[i])
      {
        var y := sorted[i];
        assert y in multiset(sorted);
        assert y in multiset(s[1..]);
        var k :| 0 <= k < |s[1..]| && s[1..][k] == y;
        assert s[k + 1] == y;
      }
    }
  }
}

=== FILE: summary_cards.dfy ===
/** The four summary cards of the historical trends page: their change
    type, colour, colour classes and change indicator. Changes are whole
    percentages. */
module SummaryCards {
  import opened Common
  import opened ResultsAnalysis

  datatype SummaryData = SummaryData(
    totalExperiments: int,
    experimentsChange: int,
    avgPerformance: int,
    performanceChange: int,
    uniqueUrls: int,
    urlsChange: int,
    avgLoadTime: int,
    loadTimeChange: int)

  datatype ChangeType = Increase | Decrease

  datatype Card = Card(title: string, value: string, change: int, changeType: ChangeType, icon: string, color: string)

  /** The load-time card's colour: up to 2 s is good, up to 4 s fair. */
  function LoadTimeColor(ms: int): (c: string)
    ensures c == "success" <==> ms <= 2000
    ensures c == "warning" <==> 2000 < ms <= 4000
    ensures c == "error" <==> ms > 4000
  {
    if ms <= 2000 then "success" else if ms <= 4000 then "warning" else "error"
  }

  /** A slower page never gets a better load-time colour. */
  lemma LoadTimeColorMonotone(a: int, b: int)
    requires a <= b
    ensures LoadTimeColor(a) == "error" ==> LoadTimeColor(b) == "error"
    ensures LoadTimeColor(b) == "success" ==> LoadTimeColor(a) == "success"
  {
  }

  /** The four cards. For the first three an increase is a positive change;
      for the load time a negative change is marked as the increase. */
  function Cards(d: SummaryData): (r: seq<Card>)
    ensures |r| == 4
    ensures r[0].change == d.experimentsChange && r[1].change == d.performanceChange
    ensures r[2].change == d.urlsChange && r[3].change == d.loadTimeChange
    ensures forall i :: 0 <= i < 3 ==> (r[i].changeType == Increase <==> r[i].change > 0)
    ensures r[3].changeType == Increase <==> r[3].change < 0
    ensures r[0].color == "accent" && r[1].color == BandTone(d.avgPerformance)
    ensures r[2].color == "primary" && r[3].color == LoadTimeColor(d.avgLoadTime)
    ensures r[1].value == IntToString(d.avgPerformance) && r[3].value == IntToString(d.avgLoadTime) + "ms"
  {
    [ Card("Total Experiments", IntToString(d.totalExperiments), d.experimentsChange,
           if d.experimentsChange > 0 then Increase else Decrease, "Activity", "accent"),
      Card("Avg Performance Score", IntToString(d.avgPerformance), d.performanceChange,
           if d.performanceChange > 0 then Increase else Decrease, "Gauge", BandTone(d.avgPerformance)),
      Card("URLs Analyzed", IntToString(d.uniqueUrls), d.urlsChange,
           if d.urlsChange > 0 then Increase else Decrease, "Globe", "primary"),
      Card("Avg Load Time", IntToString(d.avgLoadTime) + "ms", d.loadTimeChange,
           if d.loadTimeChange < 0 then Increase else Decrease, "Clock", LoadTimeColor(d.avgLoadTime)) ]
  }

  /** `getColorClasses`: the five named palettes, and the accent classes
      for any other name. */
  function ColorClasses(color: string): (c: string)
    ensures color !in {"accent", "success", "warning", "error", "primary"} ==> c == AccentClasses
  {
    if color == "success" then "bg-success/10 text-success border-success/20"
    else if color == "warning" then "bg-warning/10 text-warning border-warning/20"
    else if color == "error" then "bg-error/10 text-error border-error/20"
    else if color == "primary" then "bg-primary/10 text-primary border-primary/20"
    else AccentClasses
  }

  const AccentClasses := "bg-accent/10 text-accent border-accent/20"

  /** The five palettes are distinct. */
  lemma ColorClassesDistinct(a: string, b: string)
    requires a in {"accent", "success", "warning", "error", "primary"}
    requires b in {"accent", "success", "warning", "error", "primary"}
    requires a != b
    ensures ColorClasses(a) != ColorClasses(b)
  {
  }

  function ChangeIcon(ct: ChangeType): string {
    if ct == Increase then "TrendingUp" else "TrendingDown"
  }

  /** `getChangeColor(changeType, isLoadTime)`: both branches are the
      same, so the flag makes no difference. */
  function ChangeColor(ct: ChangeType, isLoadTime: bool): (c: string)
    ensures c == "text-success" <==> ct == Increase
    ensures c in {"text-success", "text-error"}
  {
    if isLoadTime then (if ct == Increase then "text-success" else "text-error")
    else (if ct == Increase then "text-success" else "text-error")
  }

  lemma ChangeColorIgnoresFlag(ct: ChangeType)
    ensures ChangeColor(ct, true) == ChangeColor(ct, false)
  {
  }

  /** What a card shows about its change: nothing when the change is 0. */
  datatype Badge = Hidden | Shown(color: string, icon: string, word: string, magnitude: nat)

  /** The indicator as written: the wording and icon follow the change
      type. */
  function IndicatorAsWritten(c: Card): (r: Badge)
    ensures r.Hidden? <==> c.change == 0
    ensures r.Shown? ==> r.magnitude == Abs(c.change) && r.color == ChangeColor(c.changeType, false)
    ensures r.Shown? ==> (r.word == "Increased" <==> c.changeType == Increase)
  {
    if c.change == 0 then Hidden
    else
      var isLoadTime := Contains(c.title, "Load Time");
      Shown(ChangeColor(c.changeType, isLoadTime), ChangeIcon(c.changeType),
            if c.changeType == Increase then "Increased" else "Decreased", Abs(c.change))
  }

  /** On the load-time card the wording reverses the change: a load time
      that fell by 12% reads "Increased by 12%" with a rising icon. */
  lemma FallingLoadTimeReadsIncreased(d: SummaryData)
    requires d.loadTimeChange < 0
    ensures IndicatorAsWritten(Cards(d)[3]) == Shown("text-success", "TrendingUp", "Increased", -d.loadTimeChange)
  {
  }

  /** The indicator as evidently intended: green for good news (a rise,
      or a fall of the load time), and the word and icon saying which way
      the figure actually moved. */
  function Indicator(c: Card): (r: Badge)
    ensures r.Hidden? <==> c.change == 0
    ensures r.Shown? ==> r.magnitude == Abs(c.change) && r.color == ChangeColor(c.changeType, false)
    ensures r.Shown? ==> (r.word == "Increased" <==> c.change > 0) && (r.word == "Decreased" <==> c.change < 0)
    ensures r.Shown? ==> (r.icon == "TrendingUp" <==> c.change > 0)
  {
    if c.change == 0 then Hidden
    else
      Shown(ChangeColor(c.changeType, false), if c.change > 0 then "TrendingUp" else "TrendingDown",
            if c.change > 0 then "Increased" else "Decreased", Abs(c.change))
  }

  /** With the corrected indicator every card tells the true direction,
      and it is green exactly for good news: a rise on the first three
      cards, a fall on the load-time card. On the first three cards it
      agrees with the indicator as written. */
  lemma IndicatorsTellDirection(d: SummaryData, i: nat)
    requires i < 4
    ensures var c := Cards(d)[i];
      && (Indicator(c).Shown? ==> (Indicator(c).word == "Increased" <==> c.change > 0))
      && (Indicator(c).Shown? && i < 3 ==> (Indicator(c).color == "text-success" <==> c.change > 0))
      && (Indicator(c).Shown? && i == 3 ==> (Indicator(c).color == "text-success" <==> c.change < 0))
      && (i < 3 ==> Indicator(c) == IndicatorAsWritten(c))
  {
  }
}

=== FILE: toasts.dfy ===
/** The notification list kept by the `useToast` hook and the configuration
    the toast component picks for each type. Ids come from
    `Date.now() + Math.random()`, so they are a parameter here. */
module Toasts {
  import opened Common

  /** The `type` of a toast; anything unrecognised is carried as `Other`. */
  datatype Kind = Success | Error | Warning | Info | Other(name: string)

  /** What a caller passes to `addToast`. */
  datatype Spec = Spec(kind: Kind, title: string, message: string)

  datatype Toast = Toast(id: int, spec: Spec)

  /** `addToast`: the toast with its fresh id goes at the end. */
  function AddToast(toasts: seq<Toast>, spec: Spec, freshId: int): (r: seq<Toast>)
    ensures |r| == |toasts| + 1
    ensures r[..|toasts|] == toasts
    ensures r[|toasts|].spec == spec && r[|toasts|].id == freshId
  {
    toasts + [Toast(freshId, spec)]
  }

  /** `removeToast`: every toast with that id goes, the rest keep their order. */
  function RemoveToast(toasts: seq<Toast>, id: int): (r: seq<Toast>)
    ensures forall i :: 0 <= i < |r| ==> r[i].id != id && r[i] in toasts
    ensures forall i :: 0 <= i < |toasts| && toasts[i].id != id ==> toasts[i] in r
    ensures multiset(r) <= multiset(toasts)
    ensures forall i :: 0 <= i < |toasts| ==>
      multiset(r)[toasts[i]] == if toasts[i].id == id then 0 else multiset(toasts)[toasts[i]]
  {
    FilterKeepsCounts(toasts, (t: Toast) => t.id != id);
    Filter(toasts, (t: Toast) => t.id != id)
  }

  /** Removal works toast by toast, in order: the list without the toasts
      carrying `id`, every other toast where it was. */
  lemma RemoveToastKeepsOrder(a: seq<Toast>, b: seq<Toast>, id: int, x: Toast)
    ensures RemoveToast(a + b, id) == RemoveToast(a, id) + RemoveToast(b, id)
    ensures RemoveToast([x], id) == if x.id == id then [] else [x]
  {
    FilterConcat(a, b, (t: Toast) => t.id != id);
    FilterSingleton(x, (t: Toast) => t.id != id);
  }

  /** `clearAllToasts`. */
  function ClearAllToasts(toasts: seq<Toast>): (r: seq<Toast>)
    ensures |r| == 0
  {
    []
  }

  /** Removing an id no toast carries changes nothing. */
  lemma RemoveAbsentIsNoOp(toasts: seq<Toast>, id: int)
    requires forall i :: 0 <= i < |toasts| ==> toasts[i].id != id
    ensures RemoveToast(toasts, id) == toasts
  {
    FilterAll(toasts, (t: Toast) => t.id != id);
  }

  /** Adding a toast with a fresh id and then removing that id restores the
      list. */
  lemma AddThenRemove(toasts: seq<Toast>, spec: Spec, freshId: int)
    requires forall i :: 0 <= i < |toasts| ==> toasts[i].id != freshId
    ensures RemoveToast(AddToast(toasts, spec, freshId), freshId) == toasts
  {
    var p := (t: Toast) => t.id != freshId;
    FilterConcat(toasts, [Toast(freshId, spec)], p);
    FilterAll(toasts, p);
  }

  /** Removing is idempotent. */
  lemma RemoveIdempotent(toasts: seq<Toast>, id: int)
    ensures RemoveToast(RemoveToast(toasts, id), id) == RemoveToast(toasts, id)
  {
    var r := RemoveToast(toasts, id);
    FilterAll(r, (t: Toast) => t.id != id);
  }

  /** The container renders nothing for an empty list. */
  predicate ContainerRendered(toasts: seq<Toast>) {
    |toasts| != 0
  }

  /** The look of a toast (`getToastConfig`). */
  datatype Config = Config(icon: string, bgColor: string, textColor: string, borderColor: string)

  function ToastConfig(kind: Kind): (c: Config)
  {
    match kind
    case Success => Config("CheckCircle", "bg-success", "text-success-foreground", "border-success")
    case Error => Config("AlertCircle", "bg-error", "text-error-foreground", "border-error")
    case Warning => Config("AlertTriangle", "bg-warning", "text-warning-foreground", "border-warning")
    case _ => Config("Info", "bg-accent", "text-accent-foreground", "border-accent")
  }

  /** The four recognised types look different from one another, and every
      unrecognised type looks like `info`. */
  lemma ConfigDistinctAndDefault(k: Kind, other: string)
    ensures ToastConfig(Other(other)) == ToastConfig(Info)
    ensures k != Success && k != Error && k != Warning ==> ToastConfig(k) == ToastConfig(Info)
    ensures ToastConfig(k).icon == "Info" <==> (k != Success && k != Error && k != Warning)
  {
  }
}

=== FILE: trend_chart.dfy ===
/** The performance trend chart: its tooltip text and the trend summary
    under the chart (latest value, direction and colour for up to three
    selected metrics). A data row maps metric names to values; an absent
    metric is `undefined`. */
module TrendChart {
  import opened Common

  /** The five timing metrics, shown in milliseconds. */
  const TimingMetrics: seq<string> := ["fcp", "lcp", "fid", "ttfb", "speed-index"]

  /** `metricLabels`. */
  function MetricLabel(metric: string): Option<string> {
    if metric == "performance" then Some("Performance Score")
    else if metric == "fcp" then Some("First Contentful Paint")
    else if metric == "lcp" then Some("Largest Contentful Paint")
    else if metric == "cls" then Some("Cumulative Layout Shift")
    else if metric == "fid" then Some("First Input Delay")
    else if metric == "ttfb" then Some("Time to First Byte")
    else if metric == "speed-index" then Some("Speed Index")
    else None
  }

  /** The tooltip's value text and series name. */
  datatype Tooltip = Tooltip(text: string, title: string)

  /** `formatTooltipValue`: the score and CLS get a bare number, the timing
      metrics a number in ms under their label; any other series passes
      through as it came. Its tests are on metric keys, which is how this
      model calls it; the chart itself hands it the series label (see
      `RenderedTooltip`). */
  function FormatTooltip(value: int, name: string): (r: Tooltip)
    ensures name in TimingMetrics ==>
      r.text == IntToString(value) + "ms" && Some(r.title) == MetricLabel(name)
    ensures name !in TimingMetrics ==> r.text == IntToString(value)
    ensures name == "cls" ==> r.title == "CLS"
    ensures name == "performance" ==> r.title == "Performance Score"
    ensures name !in TimingMetrics && name != "cls" && name != "performance" ==> r.title == name
  {
    if name == "performance" then Tooltip(IntToString(value), "Performance Score")
    else if name == "cls" then Tooltip(IntToString(value), "CLS")
    else if name in TimingMetrics then Tooltip(IntToString(value) + "ms", MetricLabel(name).value)
    else Tooltip(IntToString(value), name)
  }

  /** The last character of a rendered number is a digit. */
  lemma IntToStringEndsInDigit(v: int)
    ensures var s := IntToString(v); |s| > 0 && '0' <= s[|s| - 1] <= '9'
  {
  }

  /** The unit is there exactly for the timing metrics: a tooltip text ends
      in "ms" if and only if the series is one of the five timing metrics. */
  lemma TooltipUnit(value: int, name: string)
    ensures EndsWith(FormatTooltip(value, name).text, "ms") <==> name in TimingMetrics
  {
    IntToStringEndsInDigit(value);
    var s := IntToString(value);
    if name in TimingMetrics {
      assert (s + "ms")[|s + "ms"| - 2..] == "ms";
    } else {
      assert FormatTooltip(value, name).text == s;
      assert s[|s| - 1] != 's';
    }
  }

  /** The series name the chart hands the formatter: each line is named by
      its label, and a line without one by its data key. */
  function SeriesName(metric: string): (n: string)
    ensures MetricLabel(metric).Some? ==> n == MetricLabel(metric).value
    ensures MetricLabel(metric).None? ==> n == metric
  {
    match MetricLabel(metric)
    case Some(text) => text
    case None => metric
  }

  /** The tooltip as the chart renders it: the formatter applied to the
      series name rather than to the metric key. */
  function RenderedTooltip(value: int, metric: string): (r: Tooltip)
    ensures r == FormatTooltip(value, SeriesName(metric))
  {
    FormatTooltip(value, SeriesName(metric))
  }

  /** No label is a metric key, so as rendered every branch of the
      formatter but the last is dead: a timing metric loses its unit and
      every series keeps its label as the title. */
  lemma RenderedTooltipDropsUnit(value: int, metric: string)
    requires MetricLabel(metric).Some?
    ensures RenderedTooltip(value, metric) == Tooltip(IntToString(value), MetricLabel(metric).value)
    ensures !EndsWith(RenderedTooltip(value, metric).text, "ms")
  {
    var shown := MetricLabel(metric).value;
    assert shown !in TimingMetrics && shown != "cls" && shown != "performance";
    TooltipUnit(value, shown);
  }

  // ---------------------------------------------------------------------
  // Trend summary

  type DataRow = map<string, int>

  /** The metric's values in data order, one from each row that holds
      it. */
  function Values(data: seq<DataRow>, metric: string): (r: seq<int>)
    ensures |r| <= |data|
  {
    if |data| == 0 then []
    else (if metric in data[0] then [data[0][metric]] else []) + Values(data[1..], metric)
  }

  /** Appending a row appends its value, if it has one: the values are the
      metric's values row by row. */
  lemma {:induction false} ValuesAppend(data: seq<DataRow>, row: DataRow, metric: string)
    ensures Values(data + [row], metric) == Values(data, metric) + (if metric in row then [row[metric]] else [])
  {
    if |data| > 0 {
      assert (data + [row])[1..] == data[1..] + [row];
      ValuesAppend(data[1..], row, metric);
    } else {
      assert data + [row] == [row];
    }
  }

  /** Every row holding the metric contributes, so rows that all hold it
      give one value per row, the last being the last row's. */
  lemma {:induction false} ValuesAllPresent(data: seq<DataRow>, metric: string)
    requires forall i :: 0 <= i < |data| ==> metric in data[i]
    ensures |Values(data, metric)| == |data|
    ensures forall i :: 0 <= i < |data| ==> Values(data, metric)[i] == data[i][metric]
  {
    if |data| > 0 {
      ValuesAllPresent(data[1..], metric);
    }
  }

  datatype Trend = Up | Down | Stable

  /** The `k`-th value from the end: `undefined` when there are fewer than `k`
      values. */
  function FromEnd(values: seq<int>, k: nat): (n: Number)
    requires k >= 1
    ensures n.Finite? <==> |values| >= k
  {
    if |values| >= k then Finite(values[|values| - k]) else NaN
  }

  /** Up when the latest value exceeds the previous one, down when it is
      below it, stable otherwise; with `undefined` on either side both
      comparisons are false. */
  function TrendOf(values: seq<int>): (t: Trend)
    ensures t == Up <==> |values| >= 2 && values[|values| - 1] > values[|values| - 2]
    ensures t == Down <==> |values| >= 2 && values[|values| - 1] < values[|values| - 2]
    ensures |values| < 2 ==> t == Stable
  {
    var latest := FromEnd(values, 1);
    var previous := FromEnd(values, 2);
    if latest.Finite? && previous.Finite? && latest.value > previous.value then Up
    else if latest.Finite? && previous.Finite? && latest.value < previous.value then Down
    else Stable
  }

  /** The trend depends only on the last two values. */
  lemma TrendOfLastTwo(earlier: seq<int>, a: int, b: int)
    ensures TrendOf(earlier + [a, b]) == TrendOf([a, b])
  {
  }

  /** The trend colour: for the score, up is good news; for every other
      metric (lower is better) up is bad news. */
  function TrendColor(metric: string, t: Trend): (c: string)
    ensures t == Stable ==> c == "text-muted-foreground"
    ensures metric == "performance" ==> (c == "text-success" <==> t == Up) && (c == "text-error" <==> t == Down)
    ensures metric != "performance" ==> (c == "text-success" <==> t == Down) && (c == "text-error" <==> t == Up)
  {
    if metric == "performance" then
      (if t == Up then "text-success" else if t == Down then "text-error" else "text-muted-foreground")
    else
      (if t == Up then "text-error" else if t == Down then "text-success" else "text-muted-foreground")
  }

  function Opposite(t: Trend): Trend {
    match t
    case Up => Down
    case Down => Up
    case Stable => Stable
  }

  /** The score's colours are the other metrics' colours with the
      direction reversed. */
  lemma ColorsSwapped(metric: string, t: Trend)
    requires metric != "performance"
    ensures TrendColor("performance", t) == TrendColor(metric, Opposite(t))
  {
  }

  /** One summary card. */
  datatype Summary = Summary(metric: string, latest: Number, trend: Trend, color: string)

  function SummaryOf(data: seq<DataRow>, metric: string): (s: Summary)
    ensures s.metric == metric
    ensures s.latest == FromEnd(Values(data, metric), 1)
    ensures s.trend == TrendOf(Values(data, metric))
    ensures s.color == TrendColor(metric, s.trend)
  {
    var values := Values(data, metric);
    var t := TrendOf(values);
    Summary(metric, FromEnd(values, 1), t, TrendColor(metric, t))
  }

  /** The trend summary: at most three cards, for the
      first selected metrics in order. */
  function Summaries(data: seq<DataRow>, selected: seq<string>): (r: seq<Summary>)
    ensures |r| == if |selected| < 3 then |selected| else 3
    ensures forall i :: 0 <= i < |r| ==> r[i] == SummaryOf(data, selected[i])
  {
    var shown := if |selected| < 3 then selected else selected[..3];
    seq(|shown|, i requires 0 <= i < |shown| => SummaryOf(data, shown[i]))
  }

  /** A new row with a higher value than the metric's last one makes the
      trend Up (and a lower one Down), whatever came before. */
  lemma NewRowSetsTrend(data: seq<DataRow>, row: DataRow, metric: string)
    requires metric in row && |Values(data, metric)| > 0
    ensures var last := Values(data, metric)[|Values(data, metric)| - 1];
      && (row[metric] > last ==> SummaryOf(data + [row], metric).trend == Up)
      && (row[metric] < last ==> SummaryOf(data + [row], metric).trend == Down)
      && (row[metric] == last ==> SummaryOf(data + [row], metric).trend == Stable)
      && SummaryOf(data + [row], metric).latest == Finite(row[metric])
  {
    ValuesAppend(data, row, metric);
  }
}

=== FILE: trend_filters.dfy ===
/** The filter panel of the historical trends page. It holds no filter
    state of its own: every handler hands the page a new record built from
    the page's current one. */
module TrendFilters {
  import opened Common

  datatype TrendFilters = TrendFilters(
    experimentTypes: seq<string>,
    metrics: seq<string>,
    devices: seq<string>,
    urlFilter: string)

  /** The page's filters when it opens. */
  const InitialFilters: TrendFilters :=
    TrendFilters(["baseline", "no-js"], ["performance", "fcp", "lcp"], ["desktop"], "")

  /** What the Clear button sends. */
  const ClearedFilters: TrendFilters := TrendFilters([], ["performance"], ["desktop"], "")

  /** The four handlers, one per key. */
  datatype FilterChange =
    | SetExperimentTypes(types: seq<string>)
    | SetMetrics(metrics: seq<string>)
    | SetDevices(devices: seq<string>)
    | SetUrlFilter(url: string)

  /** One handler: its key replaced, the rest kept. */
  function HandleChange(f: TrendFilters, c: FilterChange): (r: TrendFilters)
    ensures c.SetExperimentTypes? ==> r.experimentTypes == c.types && r.(experimentTypes := f.experimentTypes) == f
    ensures c.SetMetrics? ==> r.metrics == c.metrics && r.(metrics := f.metrics) == f
    ensures c.SetDevices? ==> r.devices == c.devices && r.(devices := f.devices) == f
    ensures c.SetUrlFilter? ==> r.urlFilter == c.url && r.(urlFilter := f.urlFilter) == f
  {
    match c
    case SetExperimentTypes(t) => f.(experimentTypes := t)
    case SetMetrics(m) => f.(metrics := m)
    case SetDevices(d) => f.(devices := d)
    case SetUrlFilter(u) => f.(urlFilter := u)
  }

  /** Two changes replace the same key. */
  predicate SameKey(a: FilterChange, b: FilterChange) {
    || (a.SetExperimentTypes? && b.SetExperimentTypes?)
    || (a.SetMetrics? && b.SetMetrics?)
    || (a.SetDevices? && b.SetDevices?)
    || (a.SetUrlFilter? && b.SetUrlFilter?)
  }

  /** A second change to the same key overrides the first. */
  lemma LastChangeWins(f: TrendFilters, a: FilterChange, b: FilterChange)
    requires SameKey(a, b)
    ensures HandleChange(HandleChange(f, a), b) == HandleChange(f, b)
  {
  }

  /** A device checkbox: checking appends the device, unchecking removes
      every copy of it. */
  function DeviceChange(f: TrendFilters, device: string, checked: bool): (r: TrendFilters)
    ensures r.(devices := f.devices) == f
    ensures checked ==> r.devices == f.devices + [device]
    ensures !checked ==> device !in r.devices
    ensures !checked ==> forall d :: d != device ==> (d in r.devices <==> d in f.devices)
  {
    var next := if checked then f.devices + [device] else Filter(f.devices, (d: string) => d != device);
    HandleChange(f, SetDevices(next))
  }

  /** A click on the box flips its checked state, so it toggles the
      device: afterwards the box shows the opposite, the other boxes are
      unchanged, and two clicks restore which devices are selected. */
  lemma DeviceClickToggles(f: TrendFilters, device: string, other: string)
    ensures var r := DeviceChange(f, device, device !in f.devices);
      && r.devices == Toggle(f.devices, device)
      && (device in r.devices <==> device !in f.devices)
      && (other != device ==> (other in r.devices <==> other in f.devices))
    ensures var r := DeviceChange(f, device, device !in f.devices);
      other in DeviceChange(r, device, device !in r.devices).devices <==> other in f.devices
  {
    ToggleTwice(f.devices, device, other);
  }

  /** Checking a box that is already ticked (only possible by a repeated
      event) adds a second copy. */
  lemma CheckingTwiceDuplicates(f: TrendFilters, device: string)
    ensures var r := DeviceChange(DeviceChange(f, device, true), device, true);
      |r.devices| == |f.devices| + 2 && r.devices[|r.devices| - 1] == device && r.devices[|r.devices| - 2] == device
  {
  }

  /** The active-filter badge: the values of the record that are truthy
      and non-empty, that is the non-empty lists and a non-empty URL
      filter. */
  function ActiveCount(f: TrendFilters): (n: nat)
    ensures n <= 4
    ensures n == 0 <==> f.experimentTypes == [] && f.metrics == [] && f.devices == [] && f.urlFilter == ""
  {
    (if |f.experimentTypes| > 0 then 1 else 0)
    + (if |f.metrics| > 0 then 1 else 0)
    + (if |f.devices| > 0 then 1 else 0)
    + (if f.urlFilter != "" then 1 else 0)
  }

  /** Clearing never brings the count to zero: the cleared record keeps
      the score metric and the desktop device, so it counts two, and the
      initial record counts three. */
  lemma ClearedCountsTwo(f: TrendFilters)
    ensures ActiveCount(ClearedFilters) == 2
    ensures ActiveCount(InitialFilters) == 3
    ensures ActiveCount(f.(urlFilter := "x")) == ActiveCount(f.(urlFilter := "")) + 1
  {
  }
}

=== FILE: url_input.dfy ===
/** The URL entry box of the batch page: typing one URL per line, uploading
    a CSV whose first column holds the URLs, and clearing. The file itself
    is represented by its MIME type and name; reading it is represented by
    its text, or by `None` when the read callback fails. */
module UrlInput {
  import opened Common

  const PleaseUploadCsv: string := "Please upload a CSV file"

  /** What the section holds, together with the URL list it last passed to
      the page. */
  datatype Section = Section(urlText: string, uploadError: string, urls: seq<string>)

  datatype FileInfo = FileInfo(mimeType: string, name: string)

  /** A URL as the text box produces it: non-empty, already trimmed and on
      one line. */
  predicate CleanLine(u: string) {
    |u| > 0 && !IsWhitespace(u[0]) && !IsWhitespace(u[|u| - 1]) && '\n' !in u
  }

  predicate AllClean(urls: seq<string>) {
    forall i :: 0 <= i < |urls| ==> CleanLine(urls[i])
  }

  /** A trimmed line that is not empty is clean. */
  lemma TrimmedLineClean(line: string)
    requires '\n' !in line && |Trim(line)| > 0
    ensures CleanLine(Trim(line))
  {
    TrimKeepsOut(line, '\n');
  }

  /** The lines trimmed, empty ones dropped, order kept. */
  function KeepTrimmed(lines: seq<string>): (r: seq<string>)
    requires forall i :: 0 <= i < |lines| ==> '\n' !in lines[i]
    ensures |r| <= |lines|
    ensures AllClean(r)
  {
    if |lines| == 0 then []
    else
      assert '\n' !in lines[0];
      var rest := KeepTrimmed(lines[1..]);
      UrlOfClean(lines[0], rest);
      UrlOf(lines[0]) + rest
  }

  /** What one line contributes to the list: its trimmed text, if any. */
  function UrlOf(line: string): seq<string> {
    if |Trim(line)| > 0 then [Trim(line)] else []
  }

  lemma UrlOfClean(line: string, rest: seq<string>)
    requires '\n' !in line && AllClean(rest)
    ensures |UrlOf(line)| <= 1 && AllClean(UrlOf(line) + rest)
  {
    if |Trim(line)| > 0 {
      TrimmedLineClean(line);
      ConsClean(Trim(line), rest);
    } else {
      EmptyConcat(UrlOf(line), rest);
    }
  }

  lemma ConsClean(t: string, rest: seq<string>)
    requires CleanLine(t) && AllClean(rest)
    ensures AllClean([t] + rest)
  {
    forall i | 0 <= i < |[t] + rest|
      ensures CleanLine(([t] + rest)[i])
    {
      if i > 0 {
        assert ([t] + rest)[i] == rest[i - 1];
      }
    }
  }

  /** The textarea's text split on newlines, each line trimmed, empty lines
      dropped. */
  function ParseUrlText(text: string): (r: seq<string>)
    ensures AllClean(r)
  {
    KeepTrimmed(Split(text, '\n'))
  }

  lemma {:induction false} KeepTrimmedClean(urls: seq<string>)
    requires AllClean(urls)
    ensures KeepTrimmed(urls) == urls
  {
    if |urls| > 0 {
      TailClean(urls);
      KeepTrimmedClean(urls[1..]);
      TrimUntrimmable(urls[0]);
      KeepTrimmedHead(urls);
      Reassemble(urls, KeepTrimmed(urls), KeepTrimmed(urls[1..]));
    }
  }

  /** A list that is the head of `s` before the tail of `s` is `s`. */
  lemma Reassemble<T>(s: seq<T>, r: seq<T>, tail: seq<T>)
    requires |s| > 0 && tail == s[1..] && r == [s[0]] + tail
    ensures r == s
  {
  }

  lemma TailClean(urls: seq<string>)
    requires |urls| > 0 && AllClean(urls)
    ensures AllClean(urls[1..]) && CleanLine(urls[0])
  {
    forall i | 0 <= i < |urls[1..]| ensures CleanLine(urls[1..][i]) {
      assert urls[1..][i] == urls[i + 1];
    }
  }

  /** The first step of keeping trimmed lines. */
  lemma KeepTrimmedHead(lines: seq<string>)
    requires |lines| > 0 && NoNewlines(lines)
    ensures KeepTrimmed(lines) == UrlOf(lines[0]) + KeepTrimmed(lines[1..])
  {
  }

  predicate NoNewlines(lines: seq<string>) {
    forall i :: 0 <= i < |lines| ==> '\n' !in lines[i]
  }

  /** Two blocks without newlines joined, and the tail of one, have none. */
  lemma NoNewlinesSplit(a: seq<string>, b: seq<string>)
    requires NoNewlines(a) && NoNewlines(b)
    ensures NoNewlines(a + b)
    ensures |a| > 0 ==> NoNewlines(a[1..])
  {
    forall i | 0 <= i < |a + b| ensures '\n' !in (a + b)[i] {
      if i >= |a| { assert (a + b)[i] == b[i - |a|]; }
    }
    if |a| > 0 {
      forall i | 0 <= i < |a[1..]| ensures '\n' !in a[1..][i] { assert a[1..][i] == a[i + 1]; }
    }
  }

  /** Keeping trimmed lines works line by line, in order: the lines of two
      blocks give the first block's URLs followed by the second's, and a
      single line gives its trimmed text exactly when that is not empty.
      So the result is the trimmed non-blank lines in line order. */
  lemma {:induction false} KeepTrimmedConcat(a: seq<string>, b: seq<string>)
    requires NoNewlines(a) && NoNewlines(b)
    ensures NoNewlines(a + b)
    ensures KeepTrimmed(a + b) == KeepTrimmed(a) + KeepTrimmed(b)
  {
    NoNewlinesSplit(a, b);
    if |a| == 0 {
      EmptyConcat(a, b);
    } else {
      var h := UrlOf(a[0]);
      var ta, tb := KeepTrimmed(a[1..]), KeepTrimmed(b);
      ConsConcat(a, b);
      KeepTrimmedConcat(a[1..], b);
      assert KeepTrimmed((a + b)[1..]) == ta + tb;
      KeepTrimmedHead(a + b);
      KeepTrimmedHead(a);
      Regroup(h, ta, tb);
    }
  }

  lemma EmptyConcat<T>(a: seq<T>, b: seq<T>)
    requires |a| == 0
    ensures a + b == b
  {
  }

  /** Head and tail of a concatenation whose first part is not empty. */
  lemma ConsConcat<T>(a: seq<T>, b: seq<T>)
    requires |a| > 0
    ensures (a + b)[0] == a[0] && (a + b)[1..] == a[1..] + b
  {
  }

  lemma Regroup<T>(h: seq<T>, x: seq<T>, y: seq<T>)
    ensures h + (x + y) == (h + x) + y
  {
  }

  lemma KeepTrimmedSingle(line: string)
    requires '\n' !in line
    ensures KeepTrimmed([line]) == if |Trim(line)| > 0 then [Trim(line)] else []
  {
    assert [line][1..] == [];
  }

  /** Any text is its lines joined by newlines, and such a text parses to
      the lines as `KeepTrimmed` keeps them. */
  lemma ParseUrlLines(lines: seq<string>)
    requires |lines| >= 1 && NoNewlines(lines)
    ensures ParseUrlText(Join(lines, "\n")) == KeepTrimmed(lines)
  {
    SplitJoin(lines, '\n');
  }

  /** How many lines are not blank. */
  function NonBlankCount(lines: seq<string>): nat {
    if |lines| == 0 then 0
    else (if IsBlank(lines[0]) then 0 else 1) + NonBlankCount(lines[1..])
  }

  /** As many URLs as non-blank lines, the first of them the trimmed first
      line when that is not blank. */
  lemma {:induction false} KeepTrimmedLines(lines: seq<string>)
    requires forall i :: 0 <= i < |lines| ==> '\n' !in lines[i]
    ensures |KeepTrimmed(lines)| == NonBlankCount(lines)
    ensures |lines| > 0 && !IsBlank(lines[0]) ==> KeepTrimmed(lines)[0] == Trim(lines[0])
  {
    if |lines| > 0 {
      KeepTrimmedLines(lines[1..]);
      KeepTrimmedHead(lines);
      assert |UrlOf(lines[0])| == if IsBlank(lines[0]) then 0 else 1;
    }
  }

  /** Lines that are already clean, joined with newlines, parse back to
      themselves. */
  lemma ParseJoinRoundTrip(urls: seq<string>)
    requires AllClean(urls)
    ensures ParseUrlText(Join(urls, "\n")) == urls
  {
    if |urls| == 0 {
      assert Split("", '\n') == [""];
      assert Trim("") == "";
    } else {
      SplitJoin(urls, '\n');
      KeepTrimmedClean(urls);
    }
  }

  /** Parsing is a normal form: showing the parsed list one per line and
      parsing again gives the same list. */
  lemma ParseIdempotent(text: string)
    ensures ParseUrlText(Join(ParseUrlText(text), "\n")) == ParseUrlText(text)
  {
    ParseJoinRoundTrip(ParseUrlText(text));
  }

  /** `handleTextareaChange`: the text is kept as typed and the parsed list
      goes to the page; an upload error stays. */
  function TextareaChange(sec: Section, text: string): (r: Section)
    ensures r.urlText == text && r.uploadError == sec.uploadError
    ensures forall i :: 0 <= i < |r.urls| ==> CleanLine(r.urls[i])
    ensures r.urls == ParseUrlText(text)
  {
    Section(text, sec.uploadError, ParseUrlText(text))
  }

  // ---------------------------------------------------------------------
  // CSV upload

  /** The file is accepted when its MIME type is `text/csv` or its name ends
      in `.csv`. */
  predicate AcceptsFile(f: FileInfo) {
    f.mimeType == "text/csv" || EndsWith(f.name, ".csv")
  }

  /** The first cell of a line: the trimmed line up to its first comma. */
  function FirstCell(line: string): (c: string)
    ensures ',' !in c
    ensures forall x :: x in c ==> x in line
    ensures StartsWith(Trim(line), c) && (|c| == |Trim(line)| || Trim(line)[|c|] == ',')
  {
    var c := Split(Trim(line), ',')[0];
    SplitFirst(Trim(line), ',');
    assert forall x :: x in c ==> x in line by {
      forall x | x in c ensures x in line {
        SplitPieceChars(Trim(line), ',', 0, x);
        TrimChars(line, x);
      }
    }
    c
  }

  /** A cell as the CSV reader keeps it: non-empty, on one line, without
      a comma. */
  predicate CleanCell(c: string) {
    |c| > 0 && ',' !in c && '\n' !in c
  }

  predicate AllCells(cells: seq<string>) {
    forall i :: 0 <= i < |cells| ==> CleanCell(cells[i])
  }

  lemma ConsCell(c: string, rest: seq<string>)
    requires CleanCell(c) && AllCells(rest)
    ensures AllCells([c] + rest)
  {
    forall i | 0 <= i < |[c] + rest|
      ensures CleanCell(([c] + rest)[i])
    {
      if i > 0 {
        assert ([c] + rest)[i] == rest[i - 1];
      }
    }
  }

  /** The first cell of each line, empty cells dropped, order kept. */
  function KeepFirstCells(lines: seq<string>): (r: seq<string>)
    requires forall i :: 0 <= i < |lines| ==> '\n' !in lines[i]
    ensures |r| <= |lines|
    ensures AllCells(r)
  {
    if |lines| == 0 then []
    else
      assert '\n' !in lines[0];
      var rest := KeepFirstCells(lines[1..]);
      CellOfClean(lines[0], rest);
      CellOf(lines[0]) + rest
  }

  /** What one line contributes to the upload: its first cell, if any. */
  function CellOf(line: string): seq<string> {
    if |FirstCell(line)| > 0 then [FirstCell(line)] else []
  }

  lemma CellOfClean(line: string, rest: seq<string>)
    requires '\n' !in line && AllCells(rest)
    ensures |CellOf(line)| <= 1 && AllCells(CellOf(line) + rest)
  {
    var c := FirstCell(line);
    if |c| > 0 {
      assert '\n' !in c;
      ConsCell(c, rest);
    } else {
      EmptyConcat(CellOf(line), rest);
    }
  }

  /** Keeping first cells works line by line, in order, like keeping
      trimmed lines: two blocks give the first block's cells followed by the
      second's, and a single line gives its first cell exactly when that is
      not empty. */
  lemma {:induction false} KeepFirstCellsConcat(a: seq<string>, b: seq<string>)
    requires NoNewlines(a) && NoNewlines(b)
    ensures NoNewlines(a + b)
    ensures KeepFirstCells(a + b) == KeepFirstCells(a) + KeepFirstCells(b)
  {
    NoNewlinesSplit(a, b);
    if |a| == 0 {
      EmptyConcat(a, b);
    } else {
      var h := CellOf(a[0]);
      var ta, tb := KeepFirstCells(a[1..]), KeepFirstCells(b);
      ConsConcat(a, b);
      KeepFirstCellsConcat(a[1..], b);
      assert KeepFirstCells((a + b)[1..]) == ta + tb;
      KeepFirstCellsHead(a + b);
      KeepFirstCellsHead(a);
      Regroup(h, ta, tb);
    }
  }

  lemma KeepFirstCellsHead(lines: seq<string>)
    requires |lines| > 0 && NoNewlines(lines)
    ensures KeepFirstCells(lines) == CellOf(lines[0]) + KeepFirstCells(lines[1..])
  {
  }

  lemma KeepFirstCellsSingle(line: string)
    requires '\n' !in line
    ensures KeepFirstCells([line]) == if |FirstCell(line)| > 0 then [FirstCell(line)] else []
  {
    assert [line][1..] == [];
  }

  /** A file is its lines joined by newlines, and such a file gives the
      lines' first cells as `KeepFirstCells` keeps them. */
  lemma CsvLines(lines: seq<string>)
    requires |lines| >= 1 && NoNewlines(lines)
    ensures CsvUrls(Join(lines, "\n")) == KeepFirstCells(lines)
  {
    SplitJoin(lines, '\n');
  }

  /** The first cell of each trimmed line, empty cells dropped. */
  function CsvUrls(csv: string): (r: seq<string>)
    ensures AllCells(r)
  {
    KeepFirstCells(Split(csv, '\n'))
  }

  /** Lines without commas: the first cell is the whole trimmed line. */
  lemma {:induction false} FirstCellsOfPlainLines(lines: seq<string>)
    requires forall i :: 0 <= i < |lines| ==> '\n' !in lines[i] && ',' !in lines[i]
    ensures KeepFirstCells(lines) == KeepTrimmed(lines)
  {
    if |lines| > 0 {
      FirstCellsOfPlainLines(lines[1..]);
      TrimKeepsOut(lines[0], ',');
      SplitNoSeparator(Trim(lines[0]), ',');
    }
  }

  /** A CSV with a single column reads exactly like the same text typed into
      the box. */
  lemma SingleColumnCsvIsText(csv: string)
    requires ',' !in csv
    ensures CsvUrls(csv) == ParseUrlText(csv)
  {
    var lines := Split(csv, '\n');
    forall i | 0 <= i < |lines|
      ensures ',' !in lines[i]
    {
      if ',' in lines[i] {
        SplitPieceChars(csv, '\n', i, ',');
      }
    }
    FirstCellsOfPlainLines(lines);
  }

  /** `handleFileUpload` followed by the reader's callback. No file changes
      nothing; a rejected file sets an error and keeps the list. A failed
      read fires the reader's error event, which has no handler, so nothing
      changes either (`contents` is then None). A successful read replaces
      the list with the first-column URLs, shows them one per line and
      clears the error. The callback's catch branch, which would set "Error
      reading CSV file", is unreachable: splitting, trimming and filtering a
      string never throw. */
  function UploadFile(sec: Section, file: Option<FileInfo>, contents: Option<string>): (r: Section)
    ensures file.None? ==> r == sec
    ensures file.Some? && !AcceptsFile(file.value) ==>
      r == sec.(uploadError := PleaseUploadCsv)
    ensures file.Some? && AcceptsFile(file.value) && contents.None? ==> r == sec
    ensures file.Some? && AcceptsFile(file.value) && contents.Some? ==>
      r.urls == CsvUrls(contents.value) && r.uploadError == []
      && r.urlText == Join(r.urls, "\n")
  {
    match file
    case None => sec
    case Some(f) =>
      if !AcceptsFile(f) then sec.(uploadError := PleaseUploadCsv)
      else match contents
        case None => sec
        case Some(csv) =>
          var urls := CsvUrls(csv);
          Section(Join(urls, "\n"), "", urls)
  }

  /** After a successful upload of a single-column CSV whose lines carry no
      surrounding spaces, the box's text parses back to the uploaded list:
      editing the box afterwards starts from the same URLs. */
  lemma UploadThenTextAgree(sec: Section, f: FileInfo, csv: string)
    requires AcceptsFile(f) && ',' !in csv
    ensures var r := UploadFile(sec, Some(f), Some(csv));
      ParseUrlText(r.urlText) == r.urls
  {
    SingleColumnCsvIsText(csv);
    ParseIdempotent(csv);
  }

  /** `clearUrls`. */
  function ClearUrls(sec: Section): (r: Section)
    ensures r.urlText == [] && r.uploadError == [] && r.urls == []
  {
    Section("", "", [])
  }
}

=== FILE: url_panel.dfy ===
/** The dashboard's URL box: validation, normalisation and the start and
    Enter guards. `new URL(...)` is the parameter `parse`: it yields the
    parsed URL's protocol, or `None` when the constructor throws. */
module UrlPanel {
  import opened Common

  const UrlRequired: string := "URL is required"
  const HttpOnly: string := "URL must use HTTP or HTTPS protocol"
  const InvalidUrl: string := "Please enter a valid URL"

  /** Input not starting with `http` gets an `https://` prefix. */
  function Normalize(u: string): (r: string)
    ensures StartsWith(r, "http")
    ensures StartsWith(u, "http") ==> r == u
    ensures !StartsWith(u, "http") ==> r == "https://" + u && EndsWith(r, u)
  {
    if StartsWith(u, "http") then u else "https://" + u
  }

  /** Normalising twice is normalising once. */
  lemma NormalizeIdempotent(u: string)
    ensures Normalize(Normalize(u)) == Normalize(u)
  {
  }

  /** `validateURL`: the empty string means valid. */
  function ValidateUrl(u: string, parse: string -> Option<string>): (e: string)
    ensures e == UrlRequired <==> IsBlank(u)
    ensures e == "" <==> !IsBlank(u) && parse(Normalize(u)) in {Some("http:"), Some("https:")}
    ensures e == InvalidUrl <==> !IsBlank(u) && parse(Normalize(u)).None?
  {
    if IsBlank(u) then UrlRequired
    else match parse(Normalize(u))
      case None => InvalidUrl
      case Some(protocol) => if protocol == "http:" || protocol == "https:" then "" else HttpOnly
  }

  datatype Panel = Panel(url: string, error: string)

  /** The error shown is the one the current text deserves: none for blank
      text, the validation result otherwise. Typing establishes it. */
  predicate Consistent(p: Panel, parse: string -> Option<string>) {
    p.error == (if IsBlank(p.url) then "" else ValidateUrl(p.url, parse))
  }

  /** `handleURLChange`: blank text clears the error without validating. */
  function ChangeUrl(p: Panel, text: string, parse: string -> Option<string>): (r: Panel)
    ensures r.url == text
    ensures IsBlank(text) ==> r.error == ""
    ensures Consistent(r, parse)
  {
    Panel(text, if IsBlank(text) then "" else ValidateUrl(text, parse))
  }

  /** `handleStartExperiment`: on an error the panel shows it and nothing
      starts; otherwise the start callback receives the normalised URL. */
  function StartClicked(p: Panel, parse: string -> Option<string>): (r: (Panel, Option<string>))
    ensures r.1.Some? <==> ValidateUrl(p.url, parse) == ""
    ensures r.1.Some? ==> r.1.value == Normalize(p.url) && r.0 == p
    ensures r.1.None? ==> r.0 == p.(error := ValidateUrl(p.url, parse))
  {
    var e := ValidateUrl(p.url, parse);
    if e != "" then (p.(error := e), None) else (p, Some(Normalize(p.url)))
  }

  /** The start button is enabled for non-blank text with no error while
      nothing runs; Enter uses the same guard. */
  predicate StartEnabled(p: Panel, running: bool) {
    !IsBlank(p.url) && p.error == "" && !running
  }

  /** `handleKeyPress` for the Enter key. */
  function EnterPressed(p: Panel, running: bool, parse: string -> Option<string>): (r: (Panel, Option<string>))
    ensures !StartEnabled(p, running) ==> r == (p, None)
    ensures StartEnabled(p, running) ==> r == StartClicked(p, parse)
  {
    if StartEnabled(p, running) then StartClicked(p, parse) else (p, None)
  }

  /** In a panel reached by typing, Enter with the guard satisfied always
      starts, with the normalised URL; a started URL is always an http(s)
      URL according to the parser. */
  lemma EnterStartsWhenEnabled(p: Panel, running: bool, parse: string -> Option<string>)
    requires Consistent(p, parse) && StartEnabled(p, running)
    ensures var r := EnterPressed(p, running, parse);
      r.1 == Some(Normalize(p.url)) && parse(r.1.value) in {Some("http:"), Some("https:")}
  {
  }
}

=== FILE: validation_view.dfy ===
/** What the validation results panel derives from the results: the three
    groups it lists, the message under each invalid URL and the truncated
    list of valid URLs. */
module ValidationView {
  import opened Common
  import opened BatchJobs

  /** The panel's three lists. A duplicate appears both among the invalid
      URLs and among the duplicates. */
  datatype Groups = Groups(valid: seq<ValidationResult>, invalid: seq<ValidationResult>, duplicates: seq<ValidationResult>)

  predicate IsValid(v: ValidationResult) { v.isValid }
  predicate IsInvalid(v: ValidationResult) { !v.isValid }
  predicate IsDuplicate(v: ValidationResult) { v.isDuplicate }

  /** The three filters, each in result order. */
  function GroupsOf(results: seq<ValidationResult>): (g: Groups)
    ensures |g.valid| + |g.invalid| == |results|
    ensures multiset(g.valid) + multiset(g.invalid) == multiset(results)
    ensures KeepsCounts(results, g.valid, IsValid)
    ensures KeepsCounts(results, g.invalid, IsInvalid)
    ensures KeepsCounts(results, g.duplicates, IsDuplicate)
    ensures forall i :: 0 <= i < |results| && results[i].isDuplicate ==> results[i] in g.duplicates
    ensures forall i :: 0 <= i < |g.duplicates| ==> g.duplicates[i].isDuplicate
  {
    FilterPartition(results, IsValid, IsInvalid);
    FilterKeepsCounts(results, IsValid);
    FilterKeepsCounts(results, IsInvalid);
    FilterKeepsCounts(results, IsDuplicate);
    Groups(Filter(results, IsValid), Filter(results, IsInvalid), Filter(results, IsDuplicate))
  }

  /** `None` when there are no results (the panel renders nothing). */
  function PanelGroups(results: seq<ValidationResult>): (g: Option<Groups>)
    ensures g.None? <==> |results| == 0
    ensures g.Some? ==> g.value == GroupsOf(results)
    ensures g.Some? ==>
      && |g.value.valid| + |g.value.invalid| == |results|
      && multiset(g.value.valid) + multiset(g.value.invalid) == multiset(results)
    ensures g.Some? ==>
      && (forall i :: 0 <= i < |g.value.valid| ==> g.value.valid[i].isValid)
      && (forall i :: 0 <= i < |g.value.invalid| ==> !g.value.invalid[i].isValid)
      && (forall i :: 0 <= i < |g.value.duplicates| ==> g.value.duplicates[i].isDuplicate)
    ensures g.Some? ==> forall i :: 0 <= i < |results| && results[i].isDuplicate ==>
      results[i] in g.value.duplicates
  {
    if |results| == 0 then None else Some(GroupsOf(results))
  }

  /** Each list is built result by result, in order: the groups of a list
      split in two are the two halves' groups joined, and a single result
      goes to exactly the lists its flags select. */
  lemma GroupsKeepOrder(a: seq<ValidationResult>, b: seq<ValidationResult>, x: ValidationResult)
    ensures var g := GroupsOf(a + b);
      && g.valid == GroupsOf(a).valid + GroupsOf(b).valid
      && g.invalid == GroupsOf(a).invalid + GroupsOf(b).invalid
      && g.duplicates == GroupsOf(a).duplicates + GroupsOf(b).duplicates
    ensures GroupsOf([x]) == Groups(if x.isValid then [x] else [], if x.isValid then [] else [x],
                                    if x.isDuplicate then [x] else [])
  {
    FilterConcat(a, b, IsValid);
    FilterConcat(a, b, IsInvalid);
    FilterConcat(a, b, IsDuplicate);
    FilterSingleton(x, IsValid);
    FilterSingleton(x, IsInvalid);
    FilterSingleton(x, IsDuplicate);
  }

  /** For results produced by the validation pass, every duplicate is also
      listed as invalid, so the duplicate count never exceeds the invalid
      count. */
  lemma DuplicatesAmongInvalid(urls: seq<string>)
    requires |urls| > 0
    ensures var g := PanelGroups(ValidateUrls(urls)).value;
      && (forall i :: 0 <= i < |g.duplicates| ==> g.duplicates[i] in g.invalid)
      && |g.duplicates| <= |g.invalid|
  {
    var results := ValidateUrls(urls);
    forall i | 0 <= i < |results|
      ensures IsDuplicate(results[i]) ==> IsInvalid(results[i])
    {
    }
    DuplicatesListedInvalid(results);
  }

  /** When every duplicate result is also invalid, the duplicates list is a
      sub-list of the invalid list. */
  lemma DuplicatesListedInvalid(results: seq<ValidationResult>)
    requires |results| > 0
    requires forall i :: 0 <= i < |results| ==> IsDuplicate(results[i]) ==> IsInvalid(results[i])
    ensures var g := PanelGroups(results).value;
      && (forall i :: 0 <= i < |g.duplicates| ==> g.duplicates[i] in g.invalid)
      && |g.duplicates| <= |g.invalid|
  {
    var g := PanelGroups(results).value;
    FilterImplies(results, IsDuplicate, IsInvalid);
    assert g.duplicates == Filter(results, IsDuplicate) && g.invalid == Filter(results, IsInvalid);
  }

  /** A filter by a stronger predicate keeps a sub-list of a filter by a
      weaker one. */
  lemma {:induction false} FilterImplies<T>(s: seq<T>, p: T -> bool, q: T -> bool)
    requires forall i :: 0 <= i < |s| ==> p(s[i]) ==> q(s[i])
    ensures forall i :: 0 <= i < |Filter(s, p)| ==> Filter(s, p)[i] in Filter(s, q)
    ensures |Filter(s, p)| <= |Filter(s, q)|
  {
    if |s| > 0 {
      FilterImplies(s[1..], p, q);
      FilterHead(s, p);
      FilterHead(s, q);
      ConsKeepsSublist(s[0], p(s[0]), q(s[0]), Filter(s[1..], p), Filter(s[1..], q));
    }
  }

  /** Putting an element in front of two lists, the second holding every
      element of the first, keeps that so when the element goes in front of
      the second list whenever it goes in front of the first. */
  lemma ConsKeepsSublist<T>(x: T, inA: bool, inB: bool, a: seq<T>, b: seq<T>)
    requires inA ==> inB
    requires forall i :: 0 <= i < |a| ==> a[i] in b
    requires |a| <= |b|
    ensures var a' := (if inA then [x] else []) + a;
      var b' := (if inB then [x] else []) + b;
      (forall i :: 0 <= i < |a'| ==> a'[i] in b') && |a'| <= |b'|
  {
    var a' := (if inA then [x] else []) + a;
    var b' := (if inB then [x] else []) + b;
    forall i | 0 <= i < |a'| ensures a'[i] in b' {
      if inA && i == 0 {
        assert b'[0] == x;
      } else {
        var k := if inA then i - 1 else i;
        assert a'[i] == a[k];
        var j :| 0 <= j < |b| && b[j] == a[k];
        assert b'[if inB then j + 1 else j] == a[k];
      }
    }
  }

  /** The message under an invalid URL: its error, or the format message
      when it has none or an empty one (the empty string is falsy). */
  function InvalidMessage(v: ValidationResult): (m: string)
    ensures v.error.Some? && v.error.value != "" ==> m == v.error.value
    ensures v.error.None? || v.error.value == "" ==> m == InvalidFormat
  {
    match v.error
    case Some(e) => if e == "" then InvalidFormat else e
    case None => InvalidFormat
  }

  /** For results of the validation pass, an invalid URL reads "Duplicate
      URL" exactly when it matches the pattern and occurs earlier, and
      "Invalid URL format" otherwise. */
  lemma InvalidMessages(urls: seq<string>, i: nat)
    requires i < |urls| && !ValidateUrls(urls)[i].isValid
    ensures var m := InvalidMessage(ValidateUrls(urls)[i]);
      (m == DuplicateUrl <==> MatchesUrlPattern(urls[i]) && urls[i] in urls[..i])
      && (m == InvalidFormat <==> !MatchesUrlPattern(urls[i]))
  {
  }

  /** The "ready for testing" list: the first ten valid URLs, and how many
      more there are when there are more than ten. */
  function ValidPreview(valid: seq<ValidationResult>): (r: (seq<ValidationResult>, Option<nat>))
    ensures |r.0| <= 10 && |r.0| <= |valid| && r.0 == valid[..|r.0|]
    ensures r.1.None? <==> |valid| <= 10
    ensures |r.0| + (if r.1.Some? then r.1.value else 0) == |valid|
  {
    if |valid| > 10 then (valid[..10], Some(|valid| - 10)) else (valid, None)
  }
}

=== FILE: web_vitals.dfy ===
/** The Core Web Vitals chart's status cards: each vital of the latest data
    row is classed Good, Needs Improvement or Poor against its two
    thresholds, and coloured to match. Times are in milliseconds; CLS is in
    thousandths, so its thresholds 0.1 and 0.25 are 100 and 250. A value
    that is absent reads as `undefined`, which fails every `<=`. */
module WebVitals {
  import opened Common

  datatype Status = Good | NeedsImprovement | Poor | Unknown

  /** The thresholds of a vital: at most `good` is Good, at most `poor`
      Needs Improvement. */
  datatype Thresholds = Thresholds(good: int, poor: int)

  /** The reference table of thresholds; other metric names have none. */
  function Limits(metric: string): (t: Option<Thresholds>)
    ensures t.Some? <==> metric in {"cls", "fcp", "lcp", "fid"}
    ensures t.Some? ==> t.value.good < t.value.poor
  {
    if metric == "cls" then Some(Thresholds(100, 250))
    else if metric == "fcp" then Some(Thresholds(1800, 3000))
    else if metric == "lcp" then Some(Thresholds(2500, 4000))
    else if metric == "fid" then Some(Thresholds(100, 300))
    else None
  }

  /** The timing thresholds of the `else` branch, a map lookup that fails
      for any other name. */
  function TimingThresholds(metric: string): Option<Thresholds> {
    if metric == "fcp" then Some(Thresholds(1800, 3000))
    else if metric == "lcp" then Some(Thresholds(2500, 4000))
    else if metric == "fid" then Some(Thresholds(100, 300))
    else None
  }

  function Classify(value: Number, t: Thresholds): Status {
    if value.Finite? && value.value <= t.good then Good
    else if value.Finite? && value.value <= t.poor then NeedsImprovement
    else Poor
  }

  /** `getVitalStatus`. */
  function VitalStatus(value: Number, metric: string): (s: Status)
    ensures s == Unknown <==> Limits(metric).None?
    ensures Limits(metric).Some? ==>
      var t := Limits(metric).value;
      && (s == Good <==> value.Finite? && value.value <= t.good)
      && (s == NeedsImprovement <==> value.Finite? && t.good < value.value <= t.poor)
      && (s == Poor <==> !(value.Finite? && value.value <= t.poor))
  {
    if metric == "cls" then
      if value.Finite? && value.value <= 100 then Good
      else if value.Finite? && value.value <= 250 then NeedsImprovement
      else Poor
    else
      match TimingThresholds(metric)
      case None => Unknown
      case Some(t) => Classify(value, t)
  }

  /** `getScoreColor`, written out on its own as the source does. */
  function ScoreColor(value: Number, metric: string): string {
    if metric == "cls" then
      if value.Finite? && value.value <= 100 then "#059669"
      else if value.Finite? && value.value <= 250 then "#d97706"
      else "#dc2626"
    else
      match TimingThresholds(metric)
      case None => "#64748b"
      case Some(t) =>
        if value.Finite? && value.value <= t.good then "#059669"
        else if value.Finite? && value.value <= t.poor then "#d97706"
        else "#dc2626"
  }

  /** The colour of each status: green, amber, red, and slate for an
      unknown metric. */
  function StatusColor(s: Status): string {
    match s
    case Good => "#059669"
    case NeedsImprovement => "#d97706"
    case Poor => "#dc2626"
    case Unknown => "#64748b"
  }

  /** The two functions never disagree: a card's colour is always the colour
      of its status, and different statuses have different colours. */
  lemma ColorMatchesStatus(value: Number, metric: string, s1: Status, s2: Status)
    ensures ScoreColor(value, metric) == StatusColor(VitalStatus(value, metric))
    ensures s1 != s2 ==> StatusColor(s1) != StatusColor(s2)
  {
  }

  /** A rank where a higher number is a worse verdict. */
  function Rank(s: Status): nat {
    match s
    case Good => 0
    case NeedsImprovement => 1
    case Poor => 2
    case Unknown => 3
  }

  /** A larger value never gets a better status. */
  lemma StatusMonotone(a: int, b: int, metric: string)
    requires a <= b
    ensures Rank(VitalStatus(Finite(a), metric)) <= Rank(VitalStatus(Finite(b), metric))
  {
  }

  /** An absent value is classed Poor and coloured red for every known
      vital. */
  lemma AbsentIsPoor(metric: string)
    requires Limits(metric).Some?
    ensures VitalStatus(NaN, metric) == Poor && ScoreColor(NaN, metric) == "#dc2626"
  {
  }

  // ---------------------------------------------------------------------
  // The status cards

  /** A data row: the vitals it carries. */
  type VitalsRow = map<string, int>

  /** A row's value of a vital: `undefined` when absent. */
  function Read(row: VitalsRow, metric: string): (n: Number)
    ensures n.Finite? <==> metric in row
    ensures metric in row ==> n.value == row[metric]
  {
    if metric in row then Finite(row[metric]) else NaN
  }

  /** The last data row, or an empty row when there is none. */
  function LatestData(data: seq<VitalsRow>): (r: VitalsRow)
    ensures |data| > 0 ==> r == data[|data| - 1]
    ensures |data| == 0 ==> r == map[]
  {
    if |data| > 0 then data[|data| - 1] else map[]
  }

  const CardMetrics: seq<string> := ["fcp", "lcp", "fid", "cls"]

  /** One card: the metric, its status and its colour. */
  datatype Card = Card(metric: string, status: Status, color: string)

  function Cards(data: seq<VitalsRow>): (r: seq<Card>)
    ensures |r| == |CardMetrics|
    ensures forall i :: 0 <= i < |r| ==> r[i].metric == CardMetrics[i]
  {
    var latest := LatestData(data);
    seq(|CardMetrics|, i requires 0 <= i < |CardMetrics| =>
      Card(CardMetrics[i], VitalStatus(Read(latest, CardMetrics[i]), CardMetrics[i]),
           ScoreColor(Read(latest, CardMetrics[i]), CardMetrics[i])))
  }

  /** Every card reports the last row's value, never Unknown, in the colour
      of its status; with no data at all every card reads Poor. */
  lemma CardsAgree(data: seq<VitalsRow>)
    ensures forall i :: 0 <= i < |Cards(data)| ==>
      && Cards(data)[i].status != Unknown
      && Cards(data)[i].color == StatusColor(Cards(data)[i].status)
      && (|data| > 0 ==> Cards(data)[i].status == VitalStatus(Read(data[|data| - 1], CardMetrics[i]), CardMetrics[i]))
    ensures |data| == 0 ==> forall i :: 0 <= i < |Cards(data)| ==> Cards(data)[i].status == Poor
  {
    var latest := LatestData(data);
    forall i | 0 <= i < |CardMetrics|
      ensures ScoreColor(Read(latest, CardMetrics[i]), CardMetrics[i])
        == StatusColor(VitalStatus(Read(latest, CardMetrics[i]), CardMetrics[i]))
    {
      ColorMatchesStatus(Read(latest, CardMetrics[i]), CardMetrics[i], Good, Good);
    }
  }
}
